=== FILE: README.md ===
# OS compatibility and runtime identification, modelled in Dafny

This project models the identification core of OSCompatibilityLib, which has five parts:

- The Runtime Identifier (RID) generator. It builds strings such as `win11-x64`, `osx.10.10-arm64` or `ubuntu.22.4-arm64` from the host's platform, version and architecture. It also lists the candidate RIDs of a host.
- The Target Framework Moniker (TFM) generator. It classifies the running framework as .NET, .NET Core, .NET Framework or Mono. Then it builds `net8.0`, `netcoreapp3.1`, `462`, `mono-android` or an OS-specific suffix such as `-windows10`.
- The `OperatingSystem` polyfill. It has the platform predicates (`IsWindows`, `IsIOS`, ...), the version read from probe text, the `(platform, version)` object with its constructor and `Clone`, and the `Is*VersionAtLeast` guards.
- The `RuntimeInformation` polyfill. It detects the architecture and builds the framework description, its own simple runtime identifier, and `IsOSPlatform`.
- The `RuntimeIdentifierType` enum.

Each part is pure. Everything a part asks the running system for is a field of a snapshot:

- `Platform.Host` serves the generators.
- `OperatingSystemPolyfill.Probe` and `RuntimeInformationPolyfill.RuntimeProbe` serve the polyfills.

The snapshot covers the platform answers, the OS and framework versions, `/etc/os-release` lines, process outputs and registry values. `System.Version` parsing is a parameter, `string -> Result<Version, Error>`, so every error path of the parser is kept without modelling its grammar. Every exception the modelled code throws, or lets through from a parser or a registry lookup, becomes an `Err` of the `Errors.Error` datatype. The one exception is the parse in `GetFrameworkVersion`, which the model leaves out (see "Left out"). Failures of the probes themselves are outside the model, as listed under "Left out".

The model follows the code as written. Where the code does something its documentation or its evident intent does not, a lemma states the behaviour as written:

- An iOS host is also watchOS, and its RID is named "watchos".
- macOS 10.13 to 10.15 gets the version token "10.10".
- A framework version "5.0" counts as .NET Framework.
- The .NET Framework release switch has OR-combined case labels.
- os-release is read with `IDENTIFIER=` keys.
- The FreeBSD guard has no platform test.

Files:

| file | modules |
|---|---|
| `wrappers.dfy` | `Wrappers` (Option, Result), `Errors` (the exception kinds) |
| `strings.dfy` | `Strings`: `Contains`, `Replace(x, "")`, case mapping, `Split(...)[0]`, decimal rendering |
| `versions.dfy` | `Versions`: `System.Version`, its order, the runtime library's padded `Is*VersionAtLeast` order, `ToString` |
| `platform.dfy` | `Platform` (the host snapshot), `RidTypes` (the enum), `OsRelease` (the os-release lookup) |
| `runtime_identification.dfy` | `RuntimeIdentification` |
| `target_framework_identification.dfy` | `TargetFrameworkIdentification` |
| `operating_system_polyfill.dfy` | `OperatingSystemPolyfill` |
| `runtime_information_polyfill.dfy` | `RuntimeInformationPolyfill` |

The two generators see the platform predicates as the booleans of `Platform.Platforms`. They are independent booleans, as in the source: nothing forces exactly one to hold. This is why the models keep track of which test wins.

- The RID name cascade is a series of independent `if`s, so the last test that holds wins. `PriorityName` is its reference reading.
- The TFM suffix is an `if`/`else if` chain, so the first test that holds wins. `SuffixOrder` and `IsFirstMatch` state it.

## Model

| member | source | states |
|---|---|---|
| RidTypes.Ordinal | AlastairLundy.OSCompatibilityLib/Specializations/Identification/Enums/RuntimeIdentifierType.cs:30-52 | each of the five members has its declaration index as its value |
| RidTypes.AllTypesComplete | AlastairLundy.OSCompatibilityLib/Specializations/Identification/Enums/RuntimeIdentifierType.cs:30-52 | the enum has exactly five distinct members and every value is one of them |
| Versions.Make4 | AlastairLundy.OSCompatibilityLib/Polyfills/OperatingSystem.cs:324 | `new Version(a, b, c, d)` succeeds exactly for non-negative components and stores them; otherwise ArgumentOutOfRange |
| Versions.Make3 | AlastairLundy.OSCompatibilityLib/Polyfills/OperatingSystem.cs:354 | `new Version(a, b, c)` succeeds exactly for non-negative components, with the revision left undefined |
| Versions.LessIsStrictTotalOrder | AlastairLundy.Extensions.Runtime/Identification/RuntimeIdentification.cs:239-240 | the `Version` order used by `>=` and `IsOlderThan` is irreflexive, asymmetric, transitive and total |
| Versions.PaddedAgreesWhenComplete | AlastairLundy.Extensions.Runtime/Identification/RuntimeIdentification.cs:239-242 | the runtime library's `IsWindowsVersionAtLeast` comparison and `Version >=` agree when the version has all four components |
| Versions.PaddedDiffersOnOmittedBuild | AlastairLundy.Extensions.Runtime/Identification/RuntimeIdentification.cs:239-242 | they disagree on an omitted build: the padded test counts it as 0, `Version` as below 0 |
| Versions.ToString | AlastairLundy.Extensions.Runtime/Identification/RuntimeIdentification.cs:279-282 | `Version.ToString()` prints one dot fewer than its defined components, starts with "major.minor" and has the length of the defined parts; split at the dots, as `Version.Parse` reads it, the pieces are the renderings of the defined components, in order |
| Versions.ToStringReadsBack | AlastairLundy.Extensions.Runtime/Identification/RuntimeIdentification.cs:279-282 | split at the dots, the rendering has one piece per defined component, and each piece is a digit string whose value is that component |
| OsRelease.PropertyValue | AlastairLundy.Extensions.Runtime/Identification/RuntimeIdentification.cs:110-131 | off Linux LinuxOnly; on Linux "" without a matching line, else the LAST line whose upper-cased form starts with the key, minus every copy of the key |
| OsRelease.LastValueIsLastMatch | AlastairLundy.OSCompatibilityLib/Polyfills/OperatingSystem.cs:151-171 | the loop's result is fixed by the last matching line alone, and is "" when no line matches |
| OsRelease.LastValueWithoutMatch | AlastairLundy.OSCompatibilityLib/Polyfills/OperatingSystem.cs:159-170 | with no line answering for the key the loop leaves "" |
| OsRelease.LastValueAtLastMatch | AlastairLundy.OSCompatibilityLib/Polyfills/OperatingSystem.cs:161-167 | the last matching line overrides every earlier one |
| OsRelease.WellFormedLine | AlastairLundy.Extensions.Runtime/Identification/RuntimeIdentification.cs:117-123 | a last line `KEY=value` yields `value` when the value holds no second copy of the key |
| OsRelease.KeyLineMatches | AlastairLundy.Extensions.Runtime/Identification/RuntimeIdentification.cs:120 | a line that starts with an upper-case key answers for it |
| OsRelease.DifferentLineMisses | AlastairLundy.Extensions.Runtime/Identification/RuntimeIdentification.cs:120 | a line that differs from the key within the key's length, after upper-casing, does not answer for it |
| RuntimeIdentification.ArchitectureToken | AlastairLundy.Extensions.Runtime/Identification/RuntimeIdentification.cs:69-84 | x64, x86, arm, arm64 and s390x have a token that reads back to the same architecture; Wasm is PlatformNotSupported; every other architecture is InvalidOperation |
| RuntimeIdentification.TokenRoundTrip | AlastairLundy.Extensions.Runtime/Identification/RuntimeIdentification.cs:72-83 | every catalog token is produced by exactly the architecture it names |
| RuntimeIdentification.OsName | AlastairLundy.Extensions.Runtime/Identification/RuntimeIdentification.cs:150-222 | AnyGeneric gives "any"; otherwise the name of the last platform test that holds, in source order, and on Linux the os-release value the type selects; no name is PlatformNotSupported; a returned name is never empty |
| RuntimeIdentification.NameIgnoresTypeOffLinux | AlastairLundy.Extensions.Runtime/Identification/RuntimeIdentification.cs:162-215 | off Linux every type but AnyGeneric gets the same name |
| RuntimeIdentification.WindowsVersionToken | AlastairLundy.Extensions.Runtime/Identification/RuntimeIdentification.cs:237-278 | "10" exactly in [10.0.10240, 10.0.20349), "11" exactly from 10.0.22000, else "8" for build 9200 and "81" for 9600; builds below 9200 and the gap between the two ranges fail |
| RuntimeIdentification.FreeBsdTrim | AlastairLundy.Extensions.Runtime/Identification/RuntimeIdentification.cs:283-301 | one dot is kept, no dot gains ".0", two or three dots cut 2 or 4 characters off the end, leaving a prefix |
| RuntimeIdentification.FreeBsdTrimKeepsMajorMinor | AlastairLundy.Extensions.Runtime/Identification/RuntimeIdentification.cs:283-301 | on a rendered version the trim never fails, and it gives "major.minor" exactly when the removed components are single digits |
| RuntimeIdentification.MacVersionToken | AlastairLundy.Extensions.Runtime/Identification/RuntimeIdentification.cs:302-324 | below 10.13 fails; from 11 the major alone; from 10.13 to below 11 the token is "10.10" |
| RuntimeIdentification.OsVersionToken | AlastairLundy.Extensions.Runtime/Identification/RuntimeIdentification.cs:230-331 | each platform's token when it is the only one that applies; a failing Windows token aborts; no applicable platform is PlatformNotSupported; with several platforms, a successful Windows step is overwritten by Linux, then FreeBSD, then macOS, whichever apply last; a failing FreeBSD trim aborts before macOS |
| RuntimeIdentification.Generate | AlastairLundy.Extensions.Runtime/Identification/RuntimeIdentification.cs:393-458 | name and architecture failures surface first; "any-arch", "os-arch", "osVER-arch" on Windows, "os.VER-arch" on macOS and Linux distro types; Specific elsewhere refuses the version; distro types on FreeBSD fail and elsewhere fall back to the default Specific; an architecture failure after a resolved name is the architecture token's own error |
| RuntimeIdentification.GenerateDefault | AlastairLundy.Extensions.Runtime/Identification/RuntimeIdentification.cs:352-374 | the one-argument overload is the three-argument one with the flag table of each type |
| RuntimeIdentification.GenericIdentifier | AlastairLundy.Extensions.Runtime/Identification/RuntimeIdentification.cs:497-500 | the generic identifier succeeds exactly when name and architecture resolve, and is "os-arch" |
| RuntimeIdentification.CurrentIdentifier | AlastairLundy.Extensions.Runtime/Identification/RuntimeIdentification.cs:474-482 | Linux gets DistroSpecific with version, FreeBSD Specific without, every other host Specific with version |
| RuntimeIdentification.Candidates | AlastairLundy.Extensions.Runtime/Identification/RuntimeIdentification.cs:517-532 | three candidates, five on Linux, each the default identifier of its type in order; the list fails exactly when one of them fails; the error is the one of the first type whose identifier fails |
| RuntimeIdentification.Collect | AlastairLundy.Extensions.Runtime/Identification/RuntimeIdentification.cs:519-529 | the default identifier of each listed type in order; a failure aborts the list with the error of the first failing type, and the list fails exactly when some type fails |
| RuntimeIdentification.GenericWithoutNameIsAnyGeneric | AlastairLundy.Extensions.Runtime/Identification/RuntimeIdentification.cs:398-402 | Generic without the name equals AnyGeneric whenever the name resolves |
| RuntimeIdentification.AnyGenericIgnoresOs | AlastairLundy.Extensions.Runtime/Identification/RuntimeIdentification.cs:398-402 | AnyGeneric depends on the architecture alone |
| RuntimeIdentification.GenericIgnoresVersion | AlastairLundy.Extensions.Runtime/Identification/RuntimeIdentification.cs:404-407 | hosts that differ only in OS version get the same Generic identifier |
| RuntimeIdentification.SpecificCarriesVersion | AlastairLundy.Extensions.Runtime/Identification/RuntimeIdentification.cs:366-371 | with default flags Specific carries the version on Windows and, dotted, on macOS |
| RuntimeIdentification.DistroTypeFallsBackToSpecific | AlastairLundy.Extensions.Runtime/Identification/RuntimeIdentification.cs:451-455 | a distro type off Linux and FreeBSD yields the Specific identifier whatever flags were asked for |
| RuntimeIdentification.LinuxWithoutIdentifierLikeFails | AlastairLundy.Extensions.Runtime/Identification/RuntimeIdentification.cs:202-205 | without an `IDENTIFIER_LIKE=` line the Linux Specific identifier fails, and so does the candidate list |
| RuntimeIdentification.CandidatesOffLinux | AlastairLundy.Extensions.Runtime/Identification/RuntimeIdentification.cs:519-523 | off Linux the candidates are exactly AnyGeneric, Generic and Specific |
| RuntimeIdentification.UbuntuDistroIdentifier | AlastairLundy.Extensions.Runtime/Identification/RuntimeIdentification.cs:435-443 | Ubuntu 22.04 on arm64 is "ubuntu.22.4-arm64" |
| RuntimeIdentification.UbuntuSpecificIdentifier | AlastairLundy.Extensions.Runtime/Identification/RuntimeIdentification.cs:445-449 | its Specific identifier is "debian-arm64" |
| RuntimeIdentification.UbuntuVersionLessIdentifier | AlastairLundy.Extensions.Runtime/Identification/RuntimeIdentification.cs:435-443 | its version-less distro identifier is "ubuntu-arm64" |
| RuntimeIdentification.UbuntuGenericIdentifier | AlastairLundy.Extensions.Runtime/Identification/RuntimeIdentification.cs:404-407 | its generic identifier is "linux-arm64" |
| RuntimeIdentification.Windows11Identifiers | AlastairLundy.Extensions.Runtime/Identification/RuntimeIdentification.cs:517-532 | Windows 11 on x64 is "win11-x64", with candidates any-x64, win-x64, win11-x64 |
| RuntimeIdentification.VersionTokenExamples | AlastairLundy.Extensions.Runtime/Identification/RuntimeIdentification.cs:237-324 | the tokens of Windows 8, 8.1, 10, 11, 7, macOS 10.13, 11, 10.12 and three FreeBSD versions |
| TargetFrameworkIdentification.FrameworkType | AlastairLundy.Extensions.Runtime/Identification/TargetFrameworkIdentification.cs:219-243 | Mono exactly when the lower-cased description contains "mono"; .NET Framework on "framework" or an age below 5.0.0 without "core"; .NET Core on "core"; otherwise .NET |
| TargetFrameworkIdentification.MonoAnywhere | AlastairLundy.Extensions.Runtime/Identification/TargetFrameworkIdentification.cs:225-228 | "Mono" anywhere makes the framework Mono whatever its version |
| TargetFrameworkIdentification.FrameworkAnywhere | AlastairLundy.Extensions.Runtime/Identification/TargetFrameworkIdentification.cs:229-234 | without "mono", "Framework" anywhere makes it .NET Framework whatever its version |
| TargetFrameworkIdentification.PlainDescriptionSplitsAtFive | AlastairLundy.Extensions.Runtime/Identification/TargetFrameworkIdentification.cs:229-242 | without the three words the version alone decides, and "5.0" with no build counts as .NET Framework |
| TargetFrameworkIdentification.FrameworkVersionText | AlastairLundy.Extensions.Runtime/Identification/TargetFrameworkIdentification.cs:258-271 | the text given to the parser has no spaces and is no longer than the description |
| TargetFrameworkIdentification.FrameworkVersionTextReadsBack | AlastairLundy.Extensions.Runtime/Identification/TargetFrameworkIdentification.cs:262-268 | for ".NET " followed by a version part that names none of ".net", "core", "framework", "mono" and "xamarin", the parser gets that part lower-cased with its spaces dropped: the leading ".NET " is removed and nothing else |
| TargetFrameworkIdentification.BareVersionTextUnchanged | AlastairLundy.Extensions.Runtime/Identification/TargetFrameworkIdentification.cs:262-268 | a description without the removed words and spaces reaches the parser only lower-cased |
| TargetFrameworkIdentification.Dotted | AlastairLundy.Extensions.Runtime/Identification/TargetFrameworkIdentification.cs:55-66 | the moniker is the prefix, then digits up to the first dot that read back as the major, then digits that read back as the minor |
| TargetFrameworkIdentification.DottedReadsBack | AlastairLundy.Extensions.Runtime/Identification/TargetFrameworkIdentification.cs:55-66 | printing major and minor around a dot and reading the two digit runs back gives both numbers |
| TargetFrameworkIdentification.DottedDeterminesMajorMinor | AlastairLundy.Extensions.Runtime/Identification/TargetFrameworkIdentification.cs:55-66 | two versions share a dotted moniker exactly when they share major and minor |
| TargetFrameworkIdentification.NetTfm | AlastairLundy.Extensions.Runtime/Identification/TargetFrameworkIdentification.cs:55-66 | "net", then the major, a dot and the minor, each reading back as its number; the fourth character is a digit |
| TargetFrameworkIdentification.NetCoreTfm | AlastairLundy.Extensions.Runtime/Identification/TargetFrameworkIdentification.cs:164-176 | "netcoreapp", then the major, a dot and the minor, each reading back as its number |
| TargetFrameworkIdentification.NetAndNetCoreDiffer | AlastairLundy.Extensions.Runtime/Identification/TargetFrameworkIdentification.cs:55-66 | a .NET moniker never equals a .NET Core one |
| TargetFrameworkIdentification.NetFrameworkTfm | AlastairLundy.Extensions.Runtime/Identification/TargetFrameworkIdentification.cs:179-193 | major and minor without separator; a build of 0 adds nothing, a positive build adds digits that read back as the build, an undefined build adds "-1"; never a dot |
| TargetFrameworkIdentification.MonikerExamples | AlastairLundy.Extensions.Runtime/Identification/TargetFrameworkIdentification.cs:55-193 | 8.0 gives "net8.0", Core 3.1 "netcoreapp3.1", Framework 4.7.2 "472" and 4.8.0 "48" |
| TargetFrameworkIdentification.NetFrameworkTfmAmbiguous | AlastairLundy.Extensions.Runtime/Identification/TargetFrameworkIdentification.cs:184-190 | versions 1.11.0 and 11.1.0 share a moniker |
| TargetFrameworkIdentification.MonoTfm | AlastairLundy.Extensions.Runtime/Identification/TargetFrameworkIdentification.cs:196-213 | "mono-android" exactly on Android, "mono-ios" exactly on iOS that is not Android, else "mono" |
| TargetFrameworkIdentification.PlatformSuffix | AlastairLundy.Extensions.Runtime/Identification/TargetFrameworkIdentification.cs:77-149 | the suffix is empty or starts with '-'; only the version-specific kind fails, and only when macOS or Windows is the first match |
| TargetFrameworkIdentification.SuffixIsFirstMatchLabel | AlastairLundy.Extensions.Runtime/Identification/TargetFrameworkIdentification.cs:77-149 | without a version the suffix is the label of the first platform in chain order that holds |
| TargetFrameworkIdentification.NoPlatformNoSuffix | AlastairLundy.Extensions.Runtime/Identification/TargetFrameworkIdentification.cs:77-149 | with no platform holding the suffix is empty |
| TargetFrameworkIdentification.VersionSuffixOffMacAndWindows | AlastairLundy.Extensions.Runtime/Identification/TargetFrameworkIdentification.cs:89-149 | with a version, every first match but macOS and Windows still gets its plain label |
| TargetFrameworkIdentification.MacVersionSuffix | AlastairLundy.Extensions.Runtime/Identification/TargetFrameworkIdentification.cs:77-87 | macOS gives "-macos." and the RID version token, and fails exactly when that token does |
| TargetFrameworkIdentification.FullWindowsVersionBranchUnreachable | AlastairLundy.Extensions.Runtime/Identification/TargetFrameworkIdentification.cs:104-114 | every version at least 10.0.14393 is at least 6.2.9200, so the full-version branch is never taken |
| TargetFrameworkIdentification.WindowsVersionSuffix | AlastairLundy.Extensions.Runtime/Identification/TargetFrameworkIdentification.cs:95-119 | below 6.2.9200 PlatformNotSupported; from there "-windows" and the RID version token with no separator |
| TargetFrameworkIdentification.OsSpecificSuffix | AlastairLundy.Extensions.Runtime/Identification/TargetFrameworkIdentification.cs:69-161 | the chain's suffix followed by "-browser" on a browser host of framework 8 or later, the chain's suffix alone otherwise; a failing chain fails with the same error |
| TargetFrameworkIdentification.SuffixIgnoresOsVersion | AlastairLundy.Extensions.Runtime/Identification/TargetFrameworkIdentification.cs:69-161 | below the version-specific kind the OS version is never consulted |
| TargetFrameworkIdentification.TargetFrameworkMoniker | AlastairLundy.Extensions.Runtime/Identification/TargetFrameworkIdentification.cs:281-310 | in the model, where the framework version is given: .NET Core, .NET Framework and Mono get their monikers; .NET gets "net" for the generic kind and exactly `OsSpecificSuffix` for the other two kinds; only the version-specific .NET moniker can fail |
| TargetFrameworkIdentification.KindMattersOnlyForDotNet | AlastairLundy.Extensions.Runtime/Identification/TargetFrameworkIdentification.cs:285-296 | for every framework but .NET the moniker kind is ignored |
| TargetFrameworkIdentification.OsSpecificMonikerHasNoBase | AlastairLundy.Extensions.Runtime/Identification/TargetFrameworkIdentification.cs:297-302 | an OS-specific .NET moniker equals `OsSpecificSuffix`, the suffix alone, and never starts with "net"; the OS-specific kind never fails |
| TargetFrameworkIdentification.OsSpecificMonikerIsFirstMatchLabel | AlastairLundy.Extensions.Runtime/Identification/TargetFrameworkIdentification.cs:69-159 | the OS-specific .NET moniker is the label of the first platform of the ordered table that holds, followed by "-browser" exactly when that is owed |
| OperatingSystemPolyfill.IPadOSDescriptionIsIOS | AlastairLundy.OSCompatibilityLib/Polyfills/OperatingSystem.cs:405-412 | a description naming iPadOS is iOS, hence also watchOS and Mac Catalyst |
| OperatingSystemPolyfill.BiosDescriptionIsIOS | AlastairLundy.OSCompatibilityLib/Polyfills/OperatingSystem.cs:405-412 | a description containing "BIOS" counts as iOS and watchOS |
| OperatingSystemPolyfill.WindowsVersionText | AlastairLundy.OSCompatibilityLib/Polyfills/OperatingSystem.cs:245-250 | no spaces; a description without "Microsoft Windows" keeps every other character in order; a leading "Microsoft Windows" goes and the rest keeps every non-space character in order |
| OperatingSystemPolyfill.WindowsVersionTextReadsBack | AlastairLundy.OSCompatibilityLib/Polyfills/OperatingSystem.cs:245-250 | "Microsoft Windows <v>" gives v without its spaces, so v itself when it has none |
| OperatingSystemPolyfill.MacVersionText | AlastairLundy.OSCompatibilityLib/Polyfills/OperatingSystem.cs:252-260 | no spaces or line breaks; it is the first line of the output with "ProductVersion:" removed, without spaces, and for output without that field the output's own first line without spaces |
| OperatingSystemPolyfill.MacVersionTextTakesFirstLine | AlastairLundy.OSCompatibilityLib/Polyfills/OperatingSystem.cs:252-260 | whatever first line `sw_vers` prints, if it is not the version field and holds no further P, that line without spaces is what reaches the parser |
| OperatingSystemPolyfill.MacVersionTextReadsVersionLine | AlastairLundy.OSCompatibilityLib/Polyfills/OperatingSystem.cs:252-260 | output that starts with "ProductVersion:" gives the rest of its first line without spaces |
| OperatingSystemPolyfill.MacVersionTextOnSwVers | AlastairLundy.OSCompatibilityLib/Polyfills/OperatingSystem.cs:252-260 | on real `sw_vers` output, which starts with "ProductName:\tmacOS", the parser receives that name line and not the version |
| OperatingSystemPolyfill.FreeBsdVersionText | AlastairLundy.OSCompatibilityLib/Polyfills/OperatingSystem.cs:262-269 | no spaces, no longer than the version string; a string that cannot hold "Unix", "FreeBSD" or "-release" keeps every non-space character in order |
| OperatingSystemPolyfill.FreeBsdVersionTextReadsRelease | AlastairLundy.OSCompatibilityLib/Polyfills/OperatingSystem.cs:262-269 | "FreeBSD <v>-release" gives v without its spaces |
| OperatingSystemPolyfill.FreeBsdVersionTextReadsUnix | AlastairLundy.OSCompatibilityLib/Polyfills/OperatingSystem.cs:262-269 | "Unix <v>" gives v without its spaces |
| OperatingSystemPolyfill.AndroidVersionText | AlastairLundy.OSCompatibilityLib/Polyfills/OperatingSystem.cs:271-278 | the `getprop` output with its spaces dropped and every other character kept in order |
| OperatingSystemPolyfill.LinuxVersionText | AlastairLundy.OSCompatibilityLib/Polyfills/OperatingSystem.cs:132-133 | a VERSION= value without "LTS" passes unchanged; one ending in its only "LTS" loses those three letters |
| OperatingSystemPolyfill.LinuxVersionTextDropsLts | AlastairLundy.OSCompatibilityLib/Polyfills/OperatingSystem.cs:132-133 | a value with one "LTS" between parts without an L loses exactly that word, so "22.04.3 LTS" becomes "22.04.3 " |
| OperatingSystemPolyfill.LinuxVersion | AlastairLundy.OSCompatibilityLib/Polyfills/OperatingSystem.cs:128-139 | off Linux LinuxOnly; on Linux the parser's answer on the VERSION= text |
| OperatingSystemPolyfill.CurrentVersion | AlastairLundy.OSCompatibilityLib/Polyfills/OperatingSystem.cs:81-123 | the version of the first platform test that holds: parsed for Windows, macOS, Linux, FreeBSD and Android, the fallback for Apple mobile and every other host |
| OperatingSystemPolyfill.New | AlastairLundy.OSCompatibilityLib/Polyfills/OperatingSystem.cs:187-210 | a null version is NullReference; a platform outside Win32S..MacOSX is Argument; otherwise the object holds both |
| OperatingSystemPolyfill.OtherIsRejected | AlastairLundy.OSCompatibilityLib/Polyfills/OperatingSystem.cs:194-204 | `PlatformID.Other` is rejected although it is a member of the enum |
| OperatingSystemPolyfill.Clone | AlastairLundy.OSCompatibilityLib/Polyfills/OperatingSystem.cs:240-243 | an object with an accepted platform clones to itself |
| OperatingSystemPolyfill.CloneRoundTrip | AlastairLundy.OSCompatibilityLib/Polyfills/OperatingSystem.cs:187-243 | every constructed object clones to an equal object |
| OperatingSystemPolyfill.Current | AlastairLundy.OSCompatibilityLib/Polyfills/OperatingSystem.cs:81-123 | the parameterless constructor succeeds exactly when the version can be read, and leaves the platform at Win32S |
| OperatingSystemPolyfill.CurrentClones | AlastairLundy.OSCompatibilityLib/Polyfills/OperatingSystem.cs:81-243 | the current object clones to itself |
| OperatingSystemPolyfill.Guard | AlastairLundy.OSCompatibilityLib/Polyfills/OperatingSystem.cs:322-325 | false when the platform test fails; otherwise true exactly when both versions exist and the current one is at least the requested one; the version-read error surfaces first; after it, the request constructor's error |
| OperatingSystemPolyfill.OsVersionAtLeast | AlastairLundy.OSCompatibilityLib/Polyfills/OperatingSystem.cs:522-525 | fails exactly on a negative component, else compares the fallback version |
| OperatingSystemPolyfill.IsWindowsVersionAtLeast | AlastairLundy.OSCompatibilityLib/Polyfills/OperatingSystem.cs:322-325 | true exactly on Windows with a parsed description at least the request; false off Windows; on the platform it fails exactly when the description parse or the request constructor throws, with the parser's error or ArgumentOutOfRange |
| OperatingSystemPolyfill.IsMacOSVersionAtLeast | AlastairLundy.OSCompatibilityLib/Polyfills/OperatingSystem.cs:352-355 | true exactly on macOS with a parsed `sw_vers` version at least the three-part request; false off macOS; on the platform it fails exactly when the `sw_vers` parse or the request constructor throws, with the parser's error or ArgumentOutOfRange |
| OperatingSystemPolyfill.IsMacCatalystVersionAtLeast | AlastairLundy.OSCompatibilityLib/Polyfills/OperatingSystem.cs:364-367 | true exactly on Mac Catalyst with the fallback version at least the request; false off Mac Catalyst; on it, fails with ArgumentOutOfRange exactly when a requested component is negative |
| OperatingSystemPolyfill.IsFreeBSDVersionAtLeast | AlastairLundy.OSCompatibilityLib/Polyfills/OperatingSystem.cs:396-399 | true exactly when the parsed version string is at least the request, with no platform test; fails exactly when the parse or the request constructor throws, with the parser's error or ArgumentOutOfRange |
| OperatingSystemPolyfill.IsIOSVersionAtLeast | AlastairLundy.OSCompatibilityLib/Polyfills/OperatingSystem.cs:421-424 | true exactly on iOS with the fallback version at least the request; false off iOS; on it, fails with ArgumentOutOfRange exactly when a requested component is negative |
| OperatingSystemPolyfill.IsTvOSVersionAtLeast | AlastairLundy.OSCompatibilityLib/Polyfills/OperatingSystem.cs:442-445 | true exactly on tvOS with the fallback version at least the request; false off tvOS; on it, fails with ArgumentOutOfRange exactly when a requested component is negative |
| OperatingSystemPolyfill.IsWatchOSVersionAtLeast | AlastairLundy.OSCompatibilityLib/Polyfills/OperatingSystem.cs:499-502 | true exactly on watchOS with the fallback version at least the request; false off watchOS; on it, fails with ArgumentOutOfRange exactly when a requested component is negative |
| OperatingSystemPolyfill.IsAndroidVersionAtLeast | AlastairLundy.OSCompatibilityLib/Polyfills/OperatingSystem.cs:476-479 | true exactly on Android with the parsed `getprop` version at least the request; false off Android; on the platform it fails exactly when the `getprop` parse or the request constructor throws, with the parser's error or ArgumentOutOfRange |
| OperatingSystemPolyfill.GuardMonotone | AlastairLundy.OSCompatibilityLib/Polyfills/OperatingSystem.cs:322-325 | a guard that passes for a request passes for every lower request |
| OperatingSystemPolyfill.WindowsGuardMonotone | AlastairLundy.OSCompatibilityLib/Polyfills/OperatingSystem.cs:322-325 | lowering a Windows request keeps a passing guard passing |
| OperatingSystemPolyfill.IOSGuardImpliesOthers | AlastairLundy.OSCompatibilityLib/Polyfills/OperatingSystem.cs:340-343 | a passing iOS guard makes the watchOS and Mac Catalyst guards pass |
| OperatingSystemPolyfill.FreeBsdGuardWithoutFreeBsd | AlastairLundy.OSCompatibilityLib/Polyfills/OperatingSystem.cs:396-399 | a host that is not FreeBSD passes the FreeBSD guard when its version string reads high enough |
| RuntimeInformationPolyfill.ArchitectureFor | AlastairLundy.OSCompatibilityLib/Polyfills/InteropServices/RuntimeInformation.cs:198-270 | bitness and arm-ness pick one of X86, X64, Arm, Arm64, and both can be read back |
| RuntimeInformationPolyfill.ArchitectureForRoundTrip | AlastairLundy.OSCompatibilityLib/Polyfills/InteropServices/RuntimeInformation.cs:198-270 | the table is a bijection onto those four values |
| RuntimeInformationPolyfill.OsArchitecture | AlastairLundy.OSCompatibilityLib/Polyfills/InteropServices/RuntimeInformation.cs:198-270 | the OS architecture is 64-bit exactly for a 64-bit OS and arm exactly when arm was detected |
| RuntimeInformationPolyfill.ProcessArchitecture | AlastairLundy.OSCompatibilityLib/Polyfills/InteropServices/RuntimeInformation.cs:198-270 | the same for the process bitness |
| RuntimeInformationPolyfill.ArchitecturesShareFamily | AlastairLundy.OSCompatibilityLib/Polyfills/InteropServices/RuntimeInformation.cs:198-270 | OS and process architecture differ at most in bitness |
| RuntimeInformationPolyfill.AppleMobileIsArm | AlastairLundy.OSCompatibilityLib/Polyfills/InteropServices/RuntimeInformation.cs:198-270 | Apple mobile hosts are arm whatever `uname` says |
| RuntimeInformationPolyfill.Armv7IsClassifiedX86 | AlastairLundy.OSCompatibilityLib/Polyfills/InteropServices/RuntimeInformation.cs:198-270 | a 32-bit Linux on "armv7l" is classified x86 |
| RuntimeInformationPolyfill.ArchitectureString | AlastairLundy.OSCompatibilityLib/Polyfills/InteropServices/RuntimeInformation.cs:377-392 | only the four detected architectures have a token, equal to the RID generator's; the rest are PlatformNotSupported |
| RuntimeInformationPolyfill.S390xOnlyInGenerator | AlastairLundy.OSCompatibilityLib/Polyfills/InteropServices/RuntimeInformation.cs:377-392 | s390x has a token in the generator but not here |
| RuntimeInformationPolyfill.ReleasePrefix | AlastairLundy.OSCompatibilityLib/Polyfills/InteropServices/RuntimeInformation.cs:105-153 | ".NET Core " below 4, ".NET Core CLR " at 4, ".NET " above |
| RuntimeInformationPolyfill.NewDescription | AlastairLundy.OSCompatibilityLib/Polyfills/InteropServices/RuntimeInformation.cs:105-153 | no description when the process fails; a parsed release gets its prefix; an unparsable one gives ".NET CLR" and the runtime version |
| RuntimeInformationPolyfill.LabelValues | AlastairLundy.OSCompatibilityLib/Polyfills/InteropServices/RuntimeInformation.cs:165-187 | the OR-combined case labels are single integers, two of which (462847, 532477) are not published keys |
| RuntimeInformationPolyfill.ReleaseVersion | AlastairLundy.OSCompatibilityLib/Polyfills/InteropServices/RuntimeInformation.cs:165-187 | 394271 names 4.6.1, 394806 4.6.2, 462847 4.7, 461310 4.7.1, 461814 4.7.2, 532477 4.8 and 533325 4.8.1; every other key names nothing |
| RuntimeInformationPolyfill.SwitchAgainstPublishedKeys | AlastairLundy.OSCompatibilityLib/Polyfills/InteropServices/RuntimeInformation.cs:165-187 | where the switch and the published keys both name a version they agree; only five published keys are recognised, none for 4.7 or 4.8 |
| RuntimeInformationPolyfill.NetFrameworkDescription | AlastairLundy.OSCompatibilityLib/Polyfills/InteropServices/RuntimeInformation.cs:155-194 | off Windows PlatformNotSupported, since the registry lookup refuses to run; on Windows the lookup or parse error, else ".NET Framework " and the recognised version, or the runtime version for any other key |
| RuntimeInformationPolyfill.NetFrameworkDescriptionOf48 | AlastairLundy.OSCompatibilityLib/Polyfills/InteropServices/RuntimeInformation.cs:182-184 | on Windows the key 532477, the OR of the four listed keys, gives ".NET Framework 4.8" |
| RuntimeInformationPolyfill.FrameworkDescription | AlastairLundy.OSCompatibilityLib/Polyfills/InteropServices/RuntimeInformation.cs:93-103 | the new description when the process answers, else the .NET Framework one; always starts with ".NET " |
| RuntimeInformationPolyfill.OsVersionString | AlastairLundy.OSCompatibilityLib/Polyfills/InteropServices/RuntimeInformation.cs:289-370 | "" on no known OS; on Windows alone the Windows token; a failing Windows token is the result on any host where Windows holds; otherwise the fallback version on Linux, trimmed on FreeBSD; macOS, decided last, gives the macOS token unless an earlier step threw; parse errors surface |
| RuntimeInformationPolyfill.WindowsToken | AlastairLundy.OSCompatibilityLib/Polyfills/InteropServices/RuntimeInformation.cs:293-314 | "10" exactly when the Windows guard passes 10.0.10240 and the fallback version is below 10.0.20349; "11" exactly when not 10 and the guard passes 10.0.22000; a readable description that is neither is end-of-life; a parse error surfaces |
| RuntimeInformationPolyfill.WindowsTokenAgainstGenerator | AlastairLundy.OSCompatibilityLib/Polyfills/InteropServices/RuntimeInformation.cs:293-314 | on complete versions it agrees with the RID generator on 10 and 11 and refuses the generator's 8 and 8.1 |
| RuntimeInformationPolyfill.MacToken | AlastairLundy.OSCompatibilityLib/Polyfills/InteropServices/RuntimeInformation.cs:341-362 | succeeds exactly when the 10.13 guard passes; the fallback major from 11 on, "major.major" before; a failing 10.13 comparison passes its error on, and a version below 10.13 is PlatformNotSupported |
| RuntimeInformationPolyfill.MacTokenAgainstGenerator | AlastairLundy.OSCompatibilityLib/Polyfills/InteropServices/RuntimeInformation.cs:341-362 | when `sw_vers` reads back a fallback version that has a build, it agrees with the RID generator's macOS token, "10.10" included |
| RuntimeInformationPolyfill.PlatformsOf | AlastairLundy.OSCompatibilityLib/Polyfills/InteropServices/RuntimeInformation.cs:274-282 | the snapshot keeps iOS implying watchOS and Mac Catalyst, and macOS implying Mac Catalyst |
| RuntimeInformationPolyfill.RuntimeIdentifier | AlastairLundy.OSCompatibilityLib/Polyfills/InteropServices/RuntimeInformation.cs:274-282 | "nameVER-arch" on Windows and "name-arch" elsewhere; it fails only through the name or the Windows version |
| RuntimeInformationPolyfill.IOSHostIsNamedWatchOS | AlastairLundy.OSCompatibilityLib/Polyfills/InteropServices/RuntimeInformation.cs:278-281 | an iOS host off Linux is named "watchos" |
| RuntimeInformationPolyfill.IdentifierOffWindows | AlastairLundy.OSCompatibilityLib/Polyfills/InteropServices/RuntimeInformation.cs:274-282 | off Windows a named host's identifier never fails and does not depend on the OS version |
| RuntimeInformationPolyfill.IdentifierValueOffWindows | AlastairLundy.OSCompatibilityLib/Polyfills/InteropServices/RuntimeInformation.cs:281 | off Windows the identifier is the name, a dash and the architecture |
| RuntimeInformationPolyfill.IsOSPlatform | AlastairLundy.OSCompatibilityLib/Polyfills/InteropServices/RuntimeInformation.cs:401-443 | true exactly when Windows, Linux or OSX match by name ignoring case, or a lower-cased name contains a platform word whose test holds |
| RuntimeInformationPolyfill.PlatformNamesIgnoreCase | AlastairLundy.OSCompatibilityLib/Polyfills/InteropServices/RuntimeInformation.cs:401-443 | the answer does not depend on the case of the name, and a Windows host answers "Windows" and "windows" |
| RuntimeInformationPolyfill.IOSHostIsWatchOSPlatform | AlastairLundy.OSCompatibilityLib/Polyfills/InteropServices/RuntimeInformation.cs:432-435 | an iOS host answers true for "watchOS" |
| Strings.RemoveAll | AlastairLundy.OSCompatibilityLib/Polyfills/OperatingSystem.cs:247-249 | `Replace(x, "")` never lengthens, and leaves a string without the pattern unchanged |
| Strings.Without | AlastairLundy.OSCompatibilityLib/Polyfills/OperatingSystem.cs:249 | the characters other than the dropped one, in order: none is left, and a string without it is unchanged |
| Strings.RemoveCharIsWithout | AlastairLundy.OSCompatibilityLib/Polyfills/OperatingSystem.cs:249 | `Replace(" ", "")` keeps exactly the non-space characters, in order |
| Strings.FirstLineWithout | AlastairLundy.OSCompatibilityLib/Polyfills/OperatingSystem.cs:256-259 | dropping spaces before or after taking the first line gives the same text |
| Strings.NatToStringRoundTrip | AlastairLundy.Extensions.Runtime/Identification/RuntimeIdentification.cs:313-317 | the decimal rendering of a number reads back to that number |

## Left out

- Probing is left out. Probes are process runs (`uname`, `sw_vers`, `getprop`, `systeminfo`, `dotnet --version`), registry and file reads, and `Environment`. Their results are snapshot fields, and a failing process is `None` where the source catches the exception (`uname -o`, `dotnet --version`).
- Probe failures the source does not catch are not modelled: the outputs of `sw_vers` (OperatingSystem.cs:254), `getprop` (OperatingSystem.cs:273), `systeminfo` and `uname -m` (RuntimeInformation.cs:204, 218) and the lines of `/etc/os-release` (`File.ReadAllLines`, OperatingSystem.cs:160 and RuntimeIdentification.cs:116) are plain snapshot strings, so a process that throws or a file that cannot be read has no `Err`.
- `Version.Parse`, `Version.TryParse` and `int.Parse` are caller-supplied functions. Their grammar is not modelled.
- `AddMissingZeroes` and `GetFrameworkVersion`'s parse are left out. The TFM generator takes the framework version from the snapshot, and `FrameworkVersionText` stops at the text handed to the parser. `GetFrameworkInformation` only pairs the type and that version, so it has no member.
- `OperatingSystemExtensions.Version`, `IsOlderThan` and `IsTizen` are not part of this model. The version is the snapshot's OS version, `IsOlderThan` is `Version` order, and the Tizen test is a snapshot boolean.
- `ServicePack`, `VersionString` and `GetObjectData` only copy `Environment` fields or serialise, and are not modelled.
- The console warning printed before the distro-type fallback is output only, and is not modelled.
- Only the newest conditional-compilation branch of each `#if` is modelled. For example, `GetArchitectureString` before .NET 6 maps unknown architectures to PlatformNotSupported.
- RuntimeIdentification.GenerateDefault: the final fallback to Generic (RuntimeIdentification.cs:373) is not modelled, because every enum member is caught by an earlier test.
- TargetFrameworkIdentification.TargetFrameworkMoniker: the final PlatformNotSupported (TargetFrameworkIdentification.cs:309) is unreachable, because the classification returns one of four members. It is not modelled.
- Strings.ToLower: case mapping covers ASCII letters only, and so does Strings.ToUpper. Culture-aware mapping of other letters is not modelled.
- OsRelease.PropertyValue: the culture-sensitive `StartsWith` of RuntimeIdentification.cs:120 is modelled as an ordinal prefix test.
- RuntimeIdentification.MacVersionToken: one snapshot field, `Host.osVersion`, stands for both `Environment.OSVersion` (read by the runtime library's `Is*VersionAtLeast`) and `OperatingSystemExtensions.Version`. The "10.10" result relies on the two being the same version.
- `OperatingSystem.IsOSPlatform(string)` and `IsOSPlatformVersionIsAtLeast` delegate to the runtime library's `OSPlatform.Create`. That is not part of this model.
- The platform predicates `IsWindows`, `IsLinux` and `IsMacOS` are snapshot booleans, because they call the runtime library's `RuntimeInformation.IsOSPlatform`.
- RuntimeInformationPolyfill.RuntimeIdentifier: the name lookup is the RID generator's `OsName`, and its Tizen test is a snapshot field.
- RuntimeInformationPolyfill.NewDescription: the Windows and Unix launches of `dotnet --version` are one snapshot field, since they differ only in the launcher.

=== FILE: operating_system_polyfill.dfy ===
/** The `OperatingSystem` polyfill: platform predicates computed from the
    runtime's descriptions and probe outputs, the OS version read from
    text, the (platform, version) object, and the version guards. Every
    probe (descriptions, process output, /etc/os-release, `Environment`)
    is a field of `Probe`, and `Version.Parse` is a caller-supplied parser. */
module OperatingSystemPolyfill {
  import opened Wrappers
  import opened Errors
  import opened Versions
  import Strings
  import OsRelease

  /** What the polyfill reads from the running system. */
  datatype Probe = Probe(
    /** `RuntimeInformation.IsOSPlatform` for Windows, Linux and OSX. */
    windows: bool,
    linux: bool,
    osx: bool,
    /** `RuntimeInformation.OSDescription`. */
    osDescription: string,
    /** `RuntimeInformation.FrameworkDescription`. */
    frameworkDescription: string,
    /** Output of `uname -o`; None when the process fails. */
    unameOs: Option<string>,
    /** Output of `/usr/bin/sw_vers`. */
    swVers: string,
    /** Output of `getprop ro.build.version.release`. */
    getprop: string,
    /** `Environment.OSVersion.VersionString`. */
    osVersionString: string,
    /** `Environment.OSVersion.Version`, the fallback version. */
    osVersion: Version,
    /** The lines of /etc/os-release. */
    osRelease: seq<string>)

  /** `Version.Parse`: either a version or the exception it throws. */
  type Parser = string -> Result<Version, Error>

  // ---------------------------------------------------------------- platform predicates

  function LowerDescription(p: Probe): string {
    Strings.ToLower(p.osDescription)
  }

  predicate IsWindows(p: Probe) { p.windows }

  predicate IsMacOS(p: Probe) { p.osx }

  predicate IsLinux(p: Probe) { p.linux }

  predicate IsFreeBSD(p: Probe) {
    Strings.Contains(LowerDescription(p), "freebsd")
  }

  predicate IsIOS(p: Probe) {
    || Strings.Contains(LowerDescription(p), "ios")
    || Strings.Contains(LowerDescription(p), "ipados")
    || (Strings.Contains(LowerDescription(p), "iphone") && Strings.Contains(LowerDescription(p), "os"))
  }

  predicate IsTvOS(p: Probe) {
    Strings.Contains(LowerDescription(p), "tvos")
  }

  /** Every iOS host also counts as watchOS. */
  predicate IsWatchOS(p: Probe) {
    IsIOS(p) || Strings.Contains(LowerDescription(p), "watchos")
  }

  /** Every macOS and every iOS host counts as Mac Catalyst. */
  predicate IsMacCatalyst(p: Probe) {
    IsMacOS(p) || IsIOS(p)
  }

  /** The space-stripped, lower-cased `uname -o` output is exactly "android";
      a failing process means false. */
  predicate IsAndroid(p: Probe) {
    match p.unameOs
    case None => false
    case Some(output) => Strings.ToLower(Strings.RemoveAll(output, " ")) == "android"
  }

  predicate IsWasi(p: Probe) {
    Strings.Contains(Strings.ToLower(p.frameworkDescription), "wasi")
  }

  /** Case-sensitive, unlike the other description tests. */
  predicate IsBrowser(p: Probe) {
    Strings.Contains(p.frameworkDescription, ".NET WebAssembly")
  }

  /** An OS description naming iPadOS, in any case and position, is iOS, and
      therefore also watchOS and Mac Catalyst. */
  lemma IPadOSDescriptionIsIOS(p: Probe, pre: string, post: string)
    requires p.osDescription == pre + "iPadOS" + post
    ensures IsIOS(p) && IsWatchOS(p) && IsMacCatalyst(p)
  {
    Strings.LowerContainsWord(pre, "iPadOS", post);
    assert Strings.ToLower("iPadOS") == "ipados";
  }

  /** Any description containing "ios" counts as iOS, for instance one that
      names a BIOS. */
  lemma BiosDescriptionIsIOS(p: Probe, pre: string, post: string)
    requires p.osDescription == pre + "BIOS" + post
    ensures IsIOS(p) && IsWatchOS(p)
  {
    assert pre + "BIOS" + post == (pre + "B") + "IOS" + post;
    Strings.LowerContainsWord(pre + "B", "IOS", post);
    assert Strings.ToLower("IOS") == "ios";
  }

  // ---------------------------------------------------------------- version text

  const WindowsWord := "Microsoft Windows"

  /** `GetWindowsVersion`'s text: the OS description without "Microsoft Windows" and spaces. */
  function WindowsVersionText(p: Probe): (r: string)
    ensures Strings.Lacks(r, ' ')
    ensures |r| <= |p.osDescription|
    // a description that never names the product only loses its spaces
    ensures !Strings.Contains(p.osDescription, WindowsWord) ==> r == Strings.Without(p.osDescription, ' ')
    // the product name in front: what follows it, without spaces, provided no second copy can start there
    ensures Strings.IsPrefix(WindowsWord, p.osDescription) && Strings.Lacks(p.osDescription[|WindowsWord|..], 'M')
            ==> r == Strings.Without(p.osDescription[|WindowsWord|..], ' ')
  {
    var d := p.osDescription;
    var named := Strings.RemoveAll(d, WindowsWord);
    Strings.RemoveCharIsWithout(named, ' ');
    LeadingWordRemoved(d, WindowsWord);
    Strings.RemoveAll(named, " ")
  }

  /** A leading copy of a word goes; the rest stays when no further copy can start in it. */
  lemma LeadingWordRemoved(d: string, word: string)
    requires |word| > 0
    ensures Strings.IsPrefix(word, d) && Strings.Lacks(d[|word|..], word[0])
            ==> Strings.RemoveAll(d, word) == d[|word|..]
  {
    if Strings.IsPrefix(word, d) && Strings.Lacks(d[|word|..], word[0]) {
      assert d == word + d[|word|..];
      Strings.RemoveAllLeading(word, d[|word|..]);
      Strings.RemoveAllUnchanged(d[|word|..], word);
    }
  }

  /** "Microsoft Windows <version>" reads back as the version, spaces dropped. */
  lemma WindowsVersionTextReadsBack(p: Probe, version: string)
    requires p.osDescription == WindowsWord + " " + version
    requires Strings.Lacks(version, 'M')
    ensures WindowsVersionText(p) == Strings.Without(version, ' ')
    ensures Strings.Lacks(version, ' ') ==> WindowsVersionText(p) == version
  {
    var d := p.osDescription;
    assert d[..|WindowsWord|] == WindowsWord;
    assert d[|WindowsWord|..] == " " + version;
    Strings.LacksAppend(" ", version, 'M');
    Strings.WithoutFront(" " + version, ' ');
    assert (" " + version)[1..] == version;
  }

  const VersionField := "ProductVersion:"

  /** `GetMacOSVersion`'s text: `sw_vers` output without "ProductVersion:" and
      spaces, up to the first line break. */
  function MacVersionText(p: Probe): (r: string)
    ensures Strings.Lacks(r, ' ') && Strings.Lacks(r, '\n')
    ensures |r| <= |p.swVers|
    // the same text, taking the first line before dropping the spaces
    ensures r == Strings.Without(Strings.FirstLine(Strings.RemoveAll(p.swVers, VersionField), '\n'), ' ')
    // output without the field name: its first line, without spaces
    ensures !Strings.Contains(p.swVers, VersionField) ==> r == Strings.Without(Strings.FirstLine(p.swVers, '\n'), ' ')
  {
    var unnamed := Strings.RemoveAll(p.swVers, VersionField);
    var stripped := Strings.RemoveAll(unnamed, " ");
    Strings.RemoveCharIsWithout(unnamed, ' ');
    Strings.FirstLineWithout(unnamed, ' ', '\n');
    Strings.FirstLine(stripped, '\n')
  }

  /** Whatever the first line of `sw_vers` is, as long as it is not the
      version field and holds no further P, that line (spaces dropped) is
      what the parser receives. */
  lemma MacVersionTextTakesFirstLine(p: Probe, head: string, rest: string)
    requires p.swVers == head + "\n" + rest
    requires |head| > 0 && Strings.Lacks(head, '\n') && Strings.Lacks(head[1..], 'P')
    requires !Strings.IsPrefix(VersionField, p.swVers)
    ensures MacVersionText(p) == Strings.Without(head, ' ')
  {
    UnnamedFirstLine(p.swVers, head, rest, VersionField);
  }

  lemma UnnamedFirstLine(out: string, head: string, rest: string, field: string)
    requires |field| > 0 && field[0] != '\n'
    requires out == head + "\n" + rest
    requires |head| > 0 && Strings.Lacks(head, '\n') && Strings.Lacks(head[1..], field[0])
    requires !Strings.IsPrefix(field, out)
    ensures Strings.FirstLine(Strings.RemoveAll(out, field), '\n') == head
  {
    assert out == head + ("\n" + rest);
    Strings.RemoveAllKeepsHeadAfterFirst(head, "\n" + rest, field);
    Strings.RemoveAllKeepsHead("\n", rest, field);
    assert Strings.RemoveAll(out, field) == head + "\n" + Strings.RemoveAll(rest, field);
    Strings.FirstLineOfJoin(head, Strings.RemoveAll(rest, field), '\n');
  }

  /** Output that starts with the version field gives the rest of that line,
      spaces dropped. */
  lemma MacVersionTextReadsVersionLine(p: Probe, version: string, rest: string)
    requires p.swVers == VersionField + version + "\n" + rest
    requires Strings.Lacks(version, '\n') && Strings.Lacks(version, 'P')
    ensures MacVersionText(p) == Strings.Without(version, ' ')
  {
    FieldFirstLine(p.swVers, version, rest, VersionField);
  }

  lemma FieldFirstLine(out: string, version: string, rest: string, field: string)
    requires |field| > 0 && field[0] != '\n'
    requires out == field + version + "\n" + rest
    requires Strings.Lacks(version, '\n') && Strings.Lacks(version, field[0])
    ensures Strings.FirstLine(Strings.RemoveAll(out, field), '\n') == version
  {
    assert out == field + (version + ("\n" + rest));
    Strings.RemoveAllLeading(field, version + ("\n" + rest));
    Strings.RemoveAllKeepsHead(version, "\n" + rest, field);
    Strings.RemoveAllKeepsHead("\n", rest, field);
    assert Strings.RemoveAll(out, field) == version + "\n" + Strings.RemoveAll(rest, field);
    Strings.FirstLineOfJoin(version, Strings.RemoveAll(rest, field), '\n');
  }

  /** The first line `sw_vers` prints on current macOS. */
  const NameLine := "ProductName:\tmacOS"

  /** `sw_vers` starts with the product name, so the parser receives that
      line and not the version. */
  lemma MacVersionTextOnSwVers(p: Probe, rest: string)
    requires p.swVers == NameLine + "\n" + rest
    ensures MacVersionText(p) == NameLine
  {
    NameLineFacts();
    assert p.swVers[7] == NameLine[7] == 'N' && VersionField[7] == 'V';
    MacVersionTextTakesFirstLine(p, NameLine, rest);
  }

  lemma NameLineFacts()
    ensures |NameLine| > 0
    ensures Strings.Lacks(NameLine, '\n') && Strings.Lacks(NameLine, ' ') && Strings.Lacks(NameLine[1..], 'P')
  {
    assert NameLine[1..] == "roductName:\tmacOS";
  }

  /** `GetFreeBSDVersion`'s text: the version string without "Unix",
      "FreeBSD", "-release" and spaces. */
  function FreeBsdVersionText(p: Probe): (r: string)
    ensures Strings.Lacks(r, ' ')
    ensures |r| <= |p.osVersionString|
    // a string that cannot hold any of the three words only loses its spaces
    ensures Strings.Lacks(p.osVersionString, 'U') && Strings.Lacks(p.osVersionString, 'F')
            && Strings.Lacks(p.osVersionString, '-')
            ==> r == Strings.Without(p.osVersionString, ' ')
  {
    var v := p.osVersionString;
    var s := Strings.RemoveAll(Strings.RemoveAll(Strings.RemoveAll(v, "Unix"), "FreeBSD"), "-release");
    Strings.RemoveCharIsWithout(s, ' ');
    NoFreeBsdWords(v);
    Strings.RemoveAll(s, " ")
  }

  /** A string without U, F and - holds none of the three words. */
  lemma NoFreeBsdWords(v: string)
    ensures Strings.Lacks(v, 'U') && Strings.Lacks(v, 'F') && Strings.Lacks(v, '-')
            ==> Strings.RemoveAll(Strings.RemoveAll(Strings.RemoveAll(v, "Unix"), "FreeBSD"), "-release") == v
  {
    if Strings.Lacks(v, 'U') && Strings.Lacks(v, 'F') && Strings.Lacks(v, '-') {
      Strings.RemoveAllUnchanged(v, "Unix");
      Strings.RemoveAllUnchanged(v, "FreeBSD");
      Strings.RemoveAllUnchanged(v, "-release");
    }
  }

  /** "FreeBSD <version>-release" reads back as the version, spaces dropped. */
  lemma FreeBsdVersionTextReadsRelease(p: Probe, version: string)
    requires p.osVersionString == "FreeBSD " + version + "-release"
    requires Strings.Lacks(version, 'U') && Strings.Lacks(version, 'F') && Strings.Lacks(version, '-')
    ensures FreeBsdVersionText(p) == Strings.Without(version, ' ')
  {
    FreeBsdWordFacts();
    assert p.osVersionString == "FreeBSD" + " " + version + "-release";
    StripReleaseForm(version, "Unix", "FreeBSD", "-release");
    SpaceDropped(version);
  }

  /** "Unix <version>" reads back as the version, spaces dropped. */
  lemma FreeBsdVersionTextReadsUnix(p: Probe, version: string)
    requires p.osVersionString == "Unix " + version
    requires Strings.Lacks(version, 'U') && Strings.Lacks(version, 'F') && Strings.Lacks(version, '-')
    ensures FreeBsdVersionText(p) == Strings.Without(version, ' ')
  {
    assert p.osVersionString == "Unix" + " " + version;
    StripUnixForm(version, "Unix", "FreeBSD", "-release");
    SpaceDropped(version);
  }

  lemma FreeBsdWordFacts()
    ensures Strings.Lacks("FreeBSD", 'U') && Strings.Lacks("-release", 'U') && Strings.Lacks("-release", 'F')
  {
  }

  /** A leading space goes with the others. */
  lemma SpaceDropped(version: string)
    ensures Strings.RemoveAll(" " + version, " ") == Strings.Without(version, ' ')
  {
    Strings.RemoveCharIsWithout(" " + version, ' ');
    Strings.WithoutFront(" " + version, ' ');
    assert (" " + version)[1..] == version;
  }

  /** The three removals on "<f> <version><rl>". */
  lemma StripReleaseForm(version: string, u: string, f: string, rl: string)
    requires |u| > 0 && |f| > 0 && |rl| > 0
    requires u[0] != ' ' && f[0] != ' ' && rl[0] != ' '
    requires Strings.Lacks(f, u[0]) && Strings.Lacks(rl, u[0]) && Strings.Lacks(rl, f[0])
    requires Strings.Lacks(version, u[0]) && Strings.Lacks(version, f[0]) && Strings.Lacks(version, rl[0])
    ensures Strings.RemoveAll(Strings.RemoveAll(Strings.RemoveAll(f + " " + version + rl, u), f), rl) == " " + version
  {
    var spaced := " " + version;
    Strings.LacksAppend(" ", version, u[0]);
    Strings.LacksAppend(" ", version, f[0]);
    Strings.LacksAppend(" ", version, rl[0]);
    Strings.LacksAppend(spaced, rl, u[0]);
    Strings.LacksAppend(f, spaced + rl, u[0]);
    assert f + " " + version + rl == f + (spaced + rl);
    Strings.RemoveAllUnchanged(f + (spaced + rl), u);
    Strings.RemoveAllLeading(f, spaced + rl);
    Strings.LacksAppend(spaced, rl, f[0]);
    Strings.RemoveAllUnchanged(spaced + rl, f);
    Strings.RemoveOneCopy(spaced, rl, "");
    assert spaced + rl + "" == spaced + rl;
  }

  /** The three removals on "<u> <version>". */
  lemma StripUnixForm(version: string, u: string, f: string, rl: string)
    requires |u| > 0 && |f| > 0 && |rl| > 0
    requires u[0] != ' ' && f[0] != ' ' && rl[0] != ' '
    requires Strings.Lacks(version, u[0]) && Strings.Lacks(version, f[0]) && Strings.Lacks(version, rl[0])
    ensures Strings.RemoveAll(Strings.RemoveAll(Strings.RemoveAll(u + " " + version, u), f), rl) == " " + version
  {
    var spaced := " " + version;
    assert u + " " + version == u + spaced;
    Strings.RemoveAllLeading(u, spaced);
    Strings.LacksAppend(" ", version, u[0]);
    Strings.LacksAppend(" ", version, f[0]);
    Strings.LacksAppend(" ", version, rl[0]);
    Strings.RemoveAllUnchanged(spaced, u);
    Strings.RemoveAllUnchanged(spaced, f);
    Strings.RemoveAllUnchanged(spaced, rl);
  }

  /** `GetAndroidVersion`'s text: the `getprop` output with its spaces
      dropped and every other character kept in order. */
  function AndroidVersionText(p: Probe): (r: string)
    ensures Strings.Lacks(r, ' ')
    ensures r == Strings.Without(p.getprop, ' ')
  {
    Strings.RemoveCharIsWithout(p.getprop, ' ');
    Strings.RemoveAll(p.getprop, " ")
  }

  const VersionKey := "VERSION="

  /** `GetLinuxVersion`'s text: the last VERSION= value with every "LTS" removed. */
  function LinuxVersionText(lines: seq<string>): (r: string)
    ensures |r| <= |OsRelease.LastValue(lines, VersionKey)|
    ensures !Strings.Contains(OsRelease.LastValue(lines, VersionKey), "LTS") ==> r == OsRelease.LastValue(lines, VersionKey)
    // a value ending in its only "LTS" loses exactly those three letters
    ensures var v := OsRelease.LastValue(lines, VersionKey);
            Strings.IsSuffix("LTS", v) && Strings.Lacks(v[..|v| - 3], 'L') ==> r == v[..|v| - 3]
  {
    var v := OsRelease.LastValue(lines, VersionKey);
    TrailingLtsRemoved(v);
    Strings.RemoveAll(v, "LTS")
  }

  lemma TrailingLtsRemoved(v: string)
    ensures Strings.IsSuffix("LTS", v) && Strings.Lacks(v[..|v| - 3], 'L')
            ==> Strings.RemoveAll(v, "LTS") == v[..|v| - 3]
  {
    if Strings.IsSuffix("LTS", v) && Strings.Lacks(v[..|v| - 3], 'L') {
      assert v == v[..|v| - 3] + "LTS" + "";
      Strings.RemoveOneCopy(v[..|v| - 3], "LTS", "");
    }
  }

  /** A value holding "LTS" once, between parts without an L, loses exactly
      that word: "22.04.3 LTS" becomes "22.04.3 ". */
  lemma LinuxVersionTextDropsLts(lines: seq<string>, before: string, after: string)
    requires OsRelease.LastValue(lines, VersionKey) == before + "LTS" + after
    requires Strings.Lacks(before, 'L') && Strings.Lacks(after, 'L')
    ensures LinuxVersionText(lines) == before + after
  {
    Strings.RemoveOneCopy(before, "LTS", after);
  }

  /** `GetLinuxVersion`: Linux only, then the VERSION= text goes to the
      parser; on Linux the os-release lookup cannot fail. */
  function LinuxVersion(p: Probe, parse: Parser): (r: Result<Version, Error>)
    ensures !IsLinux(p) ==> r == Err(PlatformNotSupported(LinuxOnly))
    ensures IsLinux(p) ==> r == parse(LinuxVersionText(p.osRelease))
  {
    if !IsLinux(p) then Err(PlatformNotSupported(LinuxOnly))
    else parse(LinuxVersionText(p.osRelease))
  }

  /** The version the parameterless constructor stores, from the first
      platform test that holds; the fallback is `Environment.OSVersion`. */
  function CurrentVersion(p: Probe, parse: Parser): (r: Result<Version, Error>)
    ensures IsWindows(p) ==> r == parse(WindowsVersionText(p))
    ensures !IsWindows(p) && IsMacOS(p) ==> r == parse(MacVersionText(p))
    ensures !IsWindows(p) && !IsMacOS(p) && IsLinux(p) ==> r == parse(LinuxVersionText(p.osRelease))
    ensures !IsWindows(p) && !IsMacOS(p) && !IsLinux(p) && IsFreeBSD(p) ==> r == parse(FreeBsdVersionText(p))
    // Apple mobile hosts never reach a parser
    ensures !IsWindows(p) && !IsMacOS(p) && !IsLinux(p) && !IsFreeBSD(p) && IsIOS(p) ==> r == Ok(p.osVersion)
    ensures !IsWindows(p) && !IsMacOS(p) && !IsLinux(p) && !IsFreeBSD(p) && !IsMacCatalyst(p) && IsAndroid(p)
            ==> r == parse(AndroidVersionText(p))
    ensures !IsWindows(p) && !IsMacOS(p) && !IsLinux(p) && !IsFreeBSD(p) && !IsAndroid(p) ==> r == Ok(p.osVersion)
  {
    if IsWindows(p) then parse(WindowsVersionText(p))
    else if IsMacOS(p) then parse(MacVersionText(p))
    else if IsLinux(p) then LinuxVersion(p, parse)
    else if IsFreeBSD(p) then parse(FreeBsdVersionText(p))
    else if IsMacCatalyst(p) then (if IsMacOS(p) then parse(MacVersionText(p)) else Ok(p.osVersion))
    else if IsAndroid(p) then parse(AndroidVersionText(p))
    else Ok(p.osVersion)
  }

  // ---------------------------------------------------------------- the object

  /** `System.PlatformID` values. */
  const Win32S := 0
  const Win32Windows := 1
  const Win32NT := 2
  const WinCE := 3
  const Unix := 4
  const Xbox := 5
  const MacOSX := 6
  const Other := 7

  /** The seven platforms the constructor accepts: every `PlatformID` but `Other`. */
  predicate Accepted(platform: int) {
    platform in {Win32NT, Win32Windows, Win32S, WinCE, Xbox, MacOSX, Unix}
  }

  /** An `OperatingSystem` object: its platform (any integer a C# enum can
      hold) and its version. */
  datatype OperatingSystem = OperatingSystem(platform: int, version: Version)

  /** `new OperatingSystem(platform, version)`; `None` is a null version. */
  function New(platform: int, version: Option<Version>): (r: Result<OperatingSystem, Error>)
    ensures r.Ok? <==> version.Some? && Win32S <= platform <= MacOSX
    ensures version.None? ==> r == Err(NullReference)
    ensures version.Some? && !(Win32S <= platform <= MacOSX) ==> r == Err(Argument)
    ensures r.Ok? ==> r.value.platform == platform && r.value.version == version.value
  {
    if version.None? then Err(NullReference)
    else if !Accepted(platform) then Err(Argument)
    else Ok(OperatingSystem(platform, version.value))
  }

  /** `PlatformID.Other` is a real enum member, yet the constructor rejects it. */
  lemma OtherIsRejected(v: Version)
    ensures New(Other, Some(v)) == Err(Argument)
  {
  }

  /** `Clone`: a new object from this one's platform and version. */
  function Clone(o: OperatingSystem): (r: Result<OperatingSystem, Error>)
    ensures Accepted(o.platform) ==> r == Ok(o)
  {
    New(o.platform, Some(o.version))
  }

  /** Every object the constructor builds clones to itself. */
  lemma CloneRoundTrip(platform: int, version: Option<Version>)
    requires New(platform, version).Ok?
    ensures Clone(New(platform, version).value) == New(platform, version)
  {
  }

  /** The parameterless constructor never assigns `Platform`, so the
      object's platform is `PlatformID`'s default, Win32S, on every host. */
  function Current(p: Probe, parse: Parser): (r: Result<OperatingSystem, Error>)
    ensures r.Ok? <==> CurrentVersion(p, parse).Ok?
    ensures r.Ok? ==> r.value.platform == Win32S && r.value.version == CurrentVersion(p, parse).value
  {
    var v :- CurrentVersion(p, parse);
    Ok(OperatingSystem(Win32S, v))
  }

  /** The current object can always be cloned back to itself. */
  lemma CurrentClones(p: Probe, parse: Parser)
    requires Current(p, parse).Ok?
    ensures Clone(Current(p, parse).value) == Current(p, parse)
  {
  }

  // ---------------------------------------------------------------- version guards

  /** The shape of every `Is*VersionAtLeast`: false when the platform test
      fails; otherwise the current version is read, the requested one built,
      and the two compared in `System.Version` order. */
  function Guard(applies: bool, current: Result<Version, Error>, requested: Result<Version, Error>): (r: Result<bool, Error>)
    ensures !applies ==> r == Ok(false)
    ensures r == Ok(true) <==> applies && current.Ok? && requested.Ok? && AtLeast(current.value, requested.value)
    ensures r.Err? <==> applies && (current.Err? || requested.Err?)
    ensures applies && current.Err? ==> r == Err(current.error)
    ensures applies && current.Ok? && requested.Err? ==> r == Err(requested.error)
  {
    if !applies then Ok(false)
    else
      var c :- current;
      var q :- requested;
      Ok(AtLeast(c, q))
  }

  /** The private `IsOsVersionAtLeast`: the fallback version against the request. */
  function OsVersionAtLeast(p: Probe, major: int, minor: int, build: int, revision: int): (r: Result<bool, Error>)
    ensures r.Err? <==> major < 0 || minor < 0 || build < 0 || revision < 0
    ensures r == Ok(true) <==> major >= 0 && minor >= 0 && build >= 0 && revision >= 0
                               && AtLeast(p.osVersion, RawVersion(major, minor, build, revision))
  {
    Guard(true, Ok(p.osVersion), Make4(major, minor, build, revision))
  }

  function IsWindowsVersionAtLeast(p: Probe, parse: Parser, major: int, minor: int, build: int, revision: int): (r: Result<bool, Error>)
    ensures r == Ok(true) ==> IsWindows(p)
    ensures r == Ok(true) <==> IsWindows(p) && parse(WindowsVersionText(p)).Ok? && Make4(major, minor, build, revision).Ok?
                               && AtLeast(parse(WindowsVersionText(p)).value, RawVersion(major, minor, build, revision))
    ensures !IsWindows(p) ==> r == Ok(false)
    ensures r.Err? <==> IsWindows(p) && (parse(WindowsVersionText(p)).Err? || Make4(major, minor, build, revision).Err?)
    ensures IsWindows(p) && parse(WindowsVersionText(p)).Err? ==> r == Err(parse(WindowsVersionText(p)).error)
    ensures IsWindows(p) && parse(WindowsVersionText(p)).Ok? && Make4(major, minor, build, revision).Err? ==> r == Err(ArgumentOutOfRange)
  {
    Guard(IsWindows(p), parse(WindowsVersionText(p)), Make4(major, minor, build, revision))
  }

  /** The request has no revision, so it sorts below any version with one. */
  function IsMacOSVersionAtLeast(p: Probe, parse: Parser, major: int, minor: int, build: int): (r: Result<bool, Error>)
    ensures r == Ok(true) <==> IsMacOS(p) && parse(MacVersionText(p)).Ok? && Make3(major, minor, build).Ok?
                               && AtLeast(parse(MacVersionText(p)).value, RawVersion(major, minor, build, -1))
    ensures !IsMacOS(p) ==> r == Ok(false)
    ensures r.Err? <==> IsMacOS(p) && (parse(MacVersionText(p)).Err? || Make3(major, minor, build).Err?)
    ensures IsMacOS(p) && parse(MacVersionText(p)).Err? ==> r == Err(parse(MacVersionText(p)).error)
    ensures IsMacOS(p) && parse(MacVersionText(p)).Ok? && Make3(major, minor, build).Err? ==> r == Err(ArgumentOutOfRange)
  {
    Guard(IsMacOS(p), parse(MacVersionText(p)), Make3(major, minor, build))
  }

  function IsMacCatalystVersionAtLeast(p: Probe, major: int, minor: int, build: int): (r: Result<bool, Error>)
    ensures r == Ok(true) <==> IsMacCatalyst(p) && OsVersionAtLeast(p, major, minor, build, 0) == Ok(true)
    ensures !IsMacCatalyst(p) ==> r == Ok(false)
    // the fallback version is always there: only a negative request component throws
    ensures r.Err? <==> IsMacCatalyst(p) && (major < 0 || minor < 0 || build < 0)
    ensures r.Err? ==> r == Err(ArgumentOutOfRange)
  {
    Guard(IsMacCatalyst(p), Ok(p.osVersion), Make4(major, minor, build, 0))
  }

  /** No FreeBSD test: the answer comes from the version string alone. */
  function IsFreeBSDVersionAtLeast(p: Probe, parse: Parser, major: int, minor: int, build: int, revision: int): (r: Result<bool, Error>)
    ensures r == Ok(true) <==> parse(FreeBsdVersionText(p)).Ok? && Make4(major, minor, build, revision).Ok?
                               && AtLeast(parse(FreeBsdVersionText(p)).value, RawVersion(major, minor, build, revision))
    ensures r.Err? <==> (parse(FreeBsdVersionText(p)).Err? || Make4(major, minor, build, revision).Err?)
    ensures parse(FreeBsdVersionText(p)).Err? ==> r == Err(parse(FreeBsdVersionText(p)).error)
    ensures parse(FreeBsdVersionText(p)).Ok? && Make4(major, minor, build, revision).Err? ==> r == Err(ArgumentOutOfRange)
  {
    Guard(true, parse(FreeBsdVersionText(p)), Make4(major, minor, build, revision))
  }

  function IsIOSVersionAtLeast(p: Probe, major: int, minor: int, build: int): (r: Result<bool, Error>)
    ensures r == Ok(true) <==> IsIOS(p) && OsVersionAtLeast(p, major, minor, build, 0) == Ok(true)
    ensures !IsIOS(p) ==> r == Ok(false)
    // the fallback version is always there: only a negative request component throws
    ensures r.Err? <==> IsIOS(p) && (major < 0 || minor < 0 || build < 0)
    ensures r.Err? ==> r == Err(ArgumentOutOfRange)
  {
    Guard(IsIOS(p), Ok(p.osVersion), Make4(major, minor, build, 0))
  }

  function IsTvOSVersionAtLeast(p: Probe, major: int, minor: int, build: int): (r: Result<bool, Error>)
    ensures r == Ok(true) <==> IsTvOS(p) && OsVersionAtLeast(p, major, minor, build, 0) == Ok(true)
    ensures !IsTvOS(p) ==> r == Ok(false)
    // the fallback version is always there: only a negative request component throws
    ensures r.Err? <==> IsTvOS(p) && (major < 0 || minor < 0 || build < 0)
    ensures r.Err? ==> r == Err(ArgumentOutOfRange)
  {
    Guard(IsTvOS(p), Ok(p.osVersion), Make4(major, minor, build, 0))
  }

  function IsWatchOSVersionAtLeast(p: Probe, major: int, minor: int, build: int): (r: Result<bool, Error>)
    ensures r == Ok(true) <==> IsWatchOS(p) && OsVersionAtLeast(p, major, minor, build, 0) == Ok(true)
    ensures !IsWatchOS(p) ==> r == Ok(false)
    // the fallback version is always there: only a negative request component throws
    ensures r.Err? <==> IsWatchOS(p) && (major < 0 || minor < 0 || build < 0)
    ensures r.Err? ==> r == Err(ArgumentOutOfRange)
  {
    Guard(IsWatchOS(p), Ok(p.osVersion), Make4(major, minor, build, 0))
  }

  function IsAndroidVersionAtLeast(p: Probe, parse: Parser, major: int, minor: int, build: int, revision: int): (r: Result<bool, Error>)
    ensures r == Ok(true) <==> IsAndroid(p) && parse(AndroidVersionText(p)).Ok? && Make4(major, minor, build, revision).Ok?
                               && AtLeast(parse(AndroidVersionText(p)).value, RawVersion(major, minor, build, revision))
    ensures !IsAndroid(p) ==> r == Ok(false)
    ensures r.Err? <==> IsAndroid(p) && (parse(AndroidVersionText(p)).Err? || Make4(major, minor, build, revision).Err?)
    ensures IsAndroid(p) && parse(AndroidVersionText(p)).Err? ==> r == Err(parse(AndroidVersionText(p)).error)
    ensures IsAndroid(p) && parse(AndroidVersionText(p)).Ok? && Make4(major, minor, build, revision).Err? ==> r == Err(ArgumentOutOfRange)
  {
    Guard(IsAndroid(p), parse(AndroidVersionText(p)), Make4(major, minor, build, revision))
  }

  /** A guard that passes for some request passes for every lower request. */
  lemma GuardMonotone(applies: bool, current: Result<Version, Error>, high: Version, low: Version)
    requires Guard(applies, current, Ok(high)) == Ok(true)
    requires AtLeast(high, low)
    ensures Guard(applies, current, Ok(low)) == Ok(true)
  {
    LessIsStrictTotalOrder(current.value, high, low);
    LessIsStrictTotalOrder(low, high, current.value);
    LessIsStrictTotalOrder(current.value, low, high);
  }

  /** Lowering any component of a Windows request keeps a passing guard passing. */
  lemma WindowsGuardMonotone(p: Probe, parse: Parser, major: nat, minor: nat, build: nat, revision: nat,
                             major': nat, minor': nat, build': nat, revision': nat)
    requires IsWindowsVersionAtLeast(p, parse, major, minor, build, revision) == Ok(true)
    requires AtLeast(RawVersion(major, minor, build, revision), RawVersion(major', minor', build', revision'))
    ensures IsWindowsVersionAtLeast(p, parse, major', minor', build', revision') == Ok(true)
  {
    GuardMonotone(IsWindows(p), parse(WindowsVersionText(p)),
                  RawVersion(major, minor, build, revision), RawVersion(major', minor', build', revision'));
  }

  /** Since iOS implies watchOS and Mac Catalyst, a passing iOS guard makes
      those two guards pass as well. */
  lemma IOSGuardImpliesOthers(p: Probe, major: int, minor: int, build: int)
    requires IsIOSVersionAtLeast(p, major, minor, build) == Ok(true)
    ensures IsWatchOSVersionAtLeast(p, major, minor, build) == Ok(true)
    ensures IsMacCatalystVersionAtLeast(p, major, minor, build) == Ok(true)
  {
  }

  /** The missing platform test: a host that is not FreeBSD still passes the
      FreeBSD guard when its version string reads high enough. */
  lemma FreeBsdGuardWithoutFreeBsd(p: Probe, parse: Parser, v: Version)
    requires !IsFreeBSD(p) && parse(FreeBsdVersionText(p)) == Ok(v)
    requires v.major >= 2
    ensures IsFreeBSDVersionAtLeast(p, parse, 1, 0, 0, 0) == Ok(true)
  {
  }
}

=== FILE: platform.dfy ===
/** The host as one immutable snapshot: everything the identification code
    asks the runtime or the file system about. */
module Platform {
  import opened Versions

  /** `System.Runtime.InteropServices.Architecture` as of .NET 8. */
  datatype Architecture = X86 | X64 | Arm | Arm64 | Wasm | S390x | LoongArch64 | Armv6 | Ppc64le

  /** The answers of the `OperatingSystem.Is*()` predicates. They are
      independent booleans: nothing forces exactly one to hold. */
  datatype Platforms = Platforms(
    windows: bool,
    macOS: bool,
    linux: bool,
    freeBSD: bool,
    android: bool,
    iOS: bool,
    tvOS: bool,
    watchOS: bool,
    tizen: bool,
    macCatalyst: bool,
    browser: bool)

  datatype Host = Host(
    os: Platforms,
    /** The operating system version. */
    osVersion: Version,
    /** `RuntimeInformation.OSArchitecture`. */
    architecture: Architecture,
    /** The lines of /etc/os-release. */
    osRelease: seq<string>,
    /** `RuntimeInformation.FrameworkDescription`. */
    frameworkDescription: string,
    /** The framework version parsed out of the description. */
    frameworkVersion: Version)
}

/** The five kinds of Runtime Identifier, in declaration order. */
module RidTypes {

  datatype RuntimeIdentifierType =
    | AnyGeneric
    | Generic
    | Specific
    | DistroSpecific
    | VersionLessDistroSpecific

  /** The enum's members in declaration order. */
  const AllTypes: seq<RuntimeIdentifierType> :=
    [AnyGeneric, Generic, Specific, DistroSpecific, VersionLessDistroSpecific]

  /** The enum's underlying integer value. */
  function Ordinal(t: RuntimeIdentifierType): (r: nat)
    ensures r < |AllTypes| && AllTypes[r] == t
  {
    match t
    case AnyGeneric => 0
    case Generic => 1
    case Specific => 2
    case DistroSpecific => 3
    case VersionLessDistroSpecific => 4
  }

  /** There are exactly five members and none repeats. */
  lemma AllTypesComplete(t: RuntimeIdentifierType)
    ensures |AllTypes| == 5
    ensures t in AllTypes
    ensures forall i, j :: 0 <= i < j < |AllTypes| ==> AllTypes[i] != AllTypes[j]
  {
  }

  /** The two members documented as meant for Linux only. */
  predicate IsDistroType(t: RuntimeIdentifierType) {
    t == DistroSpecific || t == VersionLessDistroSpecific
  }
}

/** Key lookup in the lines of /etc/os-release. */
module OsRelease {
  import opened Wrappers
  import opened Errors
  import Strings

  /** A line answers for `key` when its upper-cased form starts with `key`. */
  predicate LineMatches(line: string, key: string) {
    Strings.IsPrefix(key, Strings.ToUpper(line))
  }

  /** Line `i` is the last line that answers for `key`. */
  ghost predicate IsLastMatch(lines: seq<string>, key: string, i: int) {
    && 0 <= i < |lines|
    && LineMatches(lines[i], key)
    && forall j :: i < j < |lines| ==> !LineMatches(lines[j], key)
  }

  /** The loop over all lines: each matching line overwrites the result with
      itself minus every copy of the key; no match leaves "". */
  function LastValue(lines: seq<string>, key: string): string
    requires |key| > 0
    decreases |lines|
  {
    if |lines| == 0 then ""
    else if LineMatches(lines[|lines| - 1], key) then Strings.RemoveAll(lines[|lines| - 1], key)
    else LastValue(lines[..|lines| - 1], key)
  }

  /** The loop's result is decided by the last matching line alone, and is
      "" when no line matches. */
  lemma LastValueIsLastMatch(lines: seq<string>, key: string)
    requires |key| > 0
    ensures (forall i :: 0 <= i < |lines| ==> !LineMatches(lines[i], key)) ==> LastValue(lines, key) == ""
    ensures forall i :: IsLastMatch(lines, key, i) ==> LastValue(lines, key) == Strings.RemoveAll(lines[i], key)
  {
    if forall i :: 0 <= i < |lines| ==> !LineMatches(lines[i], key) {
      LastValueWithoutMatch(lines, key);
    }
    forall i | IsLastMatch(lines, key, i)
      ensures LastValue(lines, key) == Strings.RemoveAll(lines[i], key)
    {
      LastValueAtLastMatch(lines, key, i);
    }
  }

  /** No matching line leaves the result "". */
  lemma {:induction false} LastValueWithoutMatch(lines: seq<string>, key: string)
    requires |key| > 0
    requires forall i :: 0 <= i < |lines| ==> !LineMatches(lines[i], key)
    ensures LastValue(lines, key) == ""
    decreases |lines|
  {
    if |lines| > 0 {
      var front := lines[..|lines| - 1];
      assert forall i :: 0 <= i < |front| ==> front[i] == lines[i];
      LastValueWithoutMatch(front, key);
    }
  }

  /** The last matching line alone decides the result. */
  lemma {:induction false} LastValueAtLastMatch(lines: seq<string>, key: string, i: int)
    requires |key| > 0
    requires IsLastMatch(lines, key, i)
    ensures LastValue(lines, key) == Strings.RemoveAll(lines[i], key)
    decreases |lines|
  {
    if i < |lines| - 1 {
      var front := lines[..|lines| - 1];
      assert !LineMatches(lines[|lines| - 1], key);
      assert front[i] == lines[i];
      assert forall j :: i < j < |front| ==> front[j] == lines[j];
      assert IsLastMatch(front, key, i);
      LastValueAtLastMatch(front, key, i);
    }
  }

  /** `GetOsReleasePropertyValue`: Linux only. */
  function PropertyValue(linux: bool, lines: seq<string>, key: string): (r: Result<string, Error>)
    requires |key| > 0
    ensures !linux <==> r == Err(PlatformNotSupported(LinuxOnly))
    ensures linux && (forall i :: 0 <= i < |lines| ==> !LineMatches(lines[i], key)) ==> r == Ok("")
    ensures forall i :: linux && IsLastMatch(lines, key, i) ==> r == Ok(Strings.RemoveAll(lines[i], key))
  {
    LastValueIsLastMatch(lines, key);
    if linux then Ok(LastValue(lines, key)) else Err(PlatformNotSupported(LinuxOnly))
  }

  /** A well-formed line `key + value` yields `value` when it is the last
      match and `value` holds no further copy of the key. */
  lemma WellFormedLine(lines: seq<string>, key: string, value: string)
    requires |key| > 0 && |lines| > 0
    requires lines[|lines| - 1] == key + value
    requires Strings.IsPrefix(key, Strings.ToUpper(key + value))
    requires !Strings.Contains(value, key)
    ensures LastValue(lines, key) == value
  {
    LastValueIsLastMatch(lines, key);
    assert IsLastMatch(lines, key, |lines| - 1);
    Strings.RemoveAllLeading(key, value);
  }

  /** A line made of the key itself followed by anything answers for that
      key, when the key holds no lower-case letter. */
  lemma KeyLineMatches(key: string, v: string)
    requires forall i :: 0 <= i < |key| ==> Strings.UpperChar(key[i]) == key[i]
    ensures LineMatches(key + v, key)
  {
    var u := Strings.ToUpper(key + v);
    assert u[..|key|] == key;
  }

  /** A line that differs from the key at some position within the key does not answer for it. */
  lemma DifferentLineMisses(line: string, key: string, j: int)
    requires 0 <= j < |key| && j < |line| && Strings.UpperChar(line[j]) != key[j]
    ensures !LineMatches(line, key)
  {
    var u := Strings.ToUpper(line);
    if |key| <= |u| {
      assert u[..|key|][j] != key[j];
    }
  }
}

=== FILE: runtime_identification.dfy ===
/** Runtime Identifier (RID) generation: the architecture token, the OS name,
    the OS version token, the generator with explicit and default flags, and
    the candidate list. The formats follow the .NET RID catalog. */
module RuntimeIdentification {
  import opened Wrappers
  import opened Errors
  import opened Versions
  import opened Platform
  import opened RidTypes
  import OsRelease
  import Strings

  /** The os-release keys the code looks up. They are not the `ID=` and
      `ID_LIKE=` keys that os-release files actually carry. */
  const IdentifierKey := "IDENTIFIER="
  const IdentifierLikeKey := "IDENTIFIER_LIKE="

  // ---------------------------------------------------------------- architecture

  /** The RID catalog's architecture tokens read back into the enum. */
  function TokenArchitecture(s: string): Option<Architecture> {
    if s == "x64" then Some(X64)
    else if s == "x86" then Some(X86)
    else if s == "arm" then Some(Arm)
    else if s == "arm64" then Some(Arm64)
    else if s == "s390x" then Some(S390x)
    else None
  }

  /** `GetArchitectureString` (.NET 6+ branch). */
  function ArchitectureToken(a: Architecture): (r: Result<string, Error>)
    ensures r.Ok? <==> a in {X64, X86, Arm, Arm64, S390x}
    ensures r.Ok? ==> TokenArchitecture(r.value) == Some(a)
    ensures a == Wasm <==> r == Err(PlatformNotSupported(Unspecified))
    ensures r.Err? && a != Wasm ==> r == Err(InvalidOperation)
  {
    match a
    case X64 => Ok("x64")
    case X86 => Ok("x86")
    case Arm => Ok("arm")
    case Arm64 => Ok("arm64")
    case S390x => Ok("s390x")
    case Wasm => Err(PlatformNotSupported(Unspecified))
    case _ => Err(InvalidOperation)
  }

  /** Every token the catalog knows comes from exactly one architecture. */
  lemma TokenRoundTrip(s: string)
    ensures TokenArchitecture(s).Some? ==> ArchitectureToken(TokenArchitecture(s).value) == Ok(s)
  {
  }

  // ---------------------------------------------------------------- OS name

  /** The name the Linux branch chooses for each identifier type. */
  function LinuxName(osRelease: seq<string>, t: RuntimeIdentifierType): string {
    match t
    case Specific => OsRelease.LastValue(osRelease, IdentifierLikeKey)
    case DistroSpecific => OsRelease.LastValue(osRelease, IdentifierKey)
    case VersionLessDistroSpecific => OsRelease.LastValue(osRelease, IdentifierKey)
    case _ => "linux"
  }

  /** Reference reading of the name cascade: its checks are independent
      `if`s, so the LAST predicate in source order that holds decides;
      "" when none holds. */
  function PriorityName(os: Platforms, osRelease: seq<string>, t: RuntimeIdentifierType): string {
    if os.linux then LinuxName(osRelease, t)
    else if os.watchOS then "watchos"
    else if os.tvOS then "tvos"
    else if os.tizen then "tizen"
    else if os.iOS then "ios"
    else if os.android then "android"
    else if os.freeBSD then "freebsd"
    else if os.macOS then "osx"
    else if os.windows then "win"
    else ""
  }

  /** `GetOsNameString`. A null or empty name is never returned. */
  function OsName(os: Platforms, osRelease: seq<string>, t: RuntimeIdentifierType): (r: Result<string, Error>)
    ensures t == AnyGeneric ==> r == Ok("any")
    ensures t != AnyGeneric && PriorityName(os, osRelease, t) != "" ==> r == Ok(PriorityName(os, osRelease, t))
    ensures t != AnyGeneric && PriorityName(os, osRelease, t) == "" ==> r == Err(PlatformNotSupported(Unspecified))
    ensures r.Ok? ==> r.value != ""
  {
    if t == AnyGeneric then Ok("any")
    else
      var n1 := if os.windows then "win" else "";
      var n2 := if os.macOS then "osx" else n1;
      var n3 := if os.freeBSD then "freebsd" else n2;
      var n4 := if os.android then "android" else n3;
      var n5 := if os.iOS then "ios" else n4;
      var n6 := if os.tizen then "tizen" else n5;
      var n7 := if os.tvOS then "tvos" else n6;
      var n8 := if os.watchOS then "watchos" else n7;
      var n9: Result<string, Error> :=
        if !os.linux then Ok(n8)
        else
          match t
          case Specific => OsRelease.PropertyValue(os.linux, osRelease, IdentifierLikeKey)
          case DistroSpecific => OsRelease.PropertyValue(os.linux, osRelease, IdentifierKey)
          case VersionLessDistroSpecific => OsRelease.PropertyValue(os.linux, osRelease, IdentifierKey)
          case _ => Ok("linux");
      if n9.Err? then n9
      else if n9.value == "" then Err(PlatformNotSupported(Unspecified))
      else n9
  }

  /** Off Linux the name does not depend on the identifier type, unless that type is AnyGeneric. */
  lemma NameIgnoresTypeOffLinux(os: Platforms, osRelease: seq<string>, t: RuntimeIdentifierType, u: RuntimeIdentifierType)
    requires !os.linux && t != AnyGeneric && u != AnyGeneric
    ensures OsName(os, osRelease, t) == OsName(os, osRelease, u)
  {
  }

  // ---------------------------------------------------------------- OS version

  /** Windows 10: [10.0.10240, 10.0.20349). */
  predicate IsWindows10(v: Version) {
    AtLeastPadded(v, 10, 0, 10240, 0) && Less(v, RawVersion(10, 0, 20349, -1))
  }

  /** Windows 11: from 10.0.22000 on. */
  predicate IsWindows11(v: Version) {
    AtLeastPadded(v, 10, 0, 22000, 0)
  }

  /** The Windows part of `GetOsVersionString`. */
  function WindowsVersionToken(v: Version): (r: Result<string, Error>)
    ensures r == Ok("10") <==> IsWindows10(v)
    ensures r == Ok("11") <==> IsWindows11(v)
    ensures r == Ok("8") <==> !IsWindows10(v) && !IsWindows11(v) && v.build == 9200
    ensures r == Ok("81") <==> !IsWindows10(v) && !IsWindows11(v) && v.build == 9600
    ensures r.Ok? ==> r.value in {"10", "11", "8", "81"}
    ensures r.Err? ==> r.error == PlatformNotSupported(if v.build < 9200 then Unspecified else WindowsOnly)
    // the builds between the two ranges have no token
    ensures v.major == 10 && v.minor == 0 && 20349 <= v.build < 22000 ==> r.Err?
  {
    if IsWindows10(v) then Ok("10")
    else if IsWindows11(v) then Ok("11")
    else if v.build < 9200 then Err(PlatformNotSupported(Unspecified))
    else if v.build == 9200 then Ok("8")
    else if v.build == 9600 then Ok("81")
    else Err(PlatformNotSupported(WindowsOnly))
  }

  /** The FreeBSD part of `GetOsVersionString`: counts the dots of the
      rendered version and cuts characters off its end. */
  function FreeBsdTrim(s: string): (r: Result<string, Error>)
    ensures Strings.CountChar(s, '.') == 1 ==> r == Ok(s)
    ensures Strings.CountChar(s, '.') == 0 ==> r == Ok(s + ".0")
    ensures r.Ok? && Strings.CountChar(s, '.') in {2, 3} ==> Strings.IsPrefix(r.value, s)
    ensures r.Ok? && Strings.CountChar(s, '.') == 3 ==> |r.value| == |s| - 4
    ensures r.Ok? && Strings.CountChar(s, '.') == 2 ==> |r.value| == |s| - 2
    ensures r.Err? ==> r.error == ArgumentOutOfRange
  {
    var dots := Strings.CountChar(s, '.');
    if dots == 3 then
      if |s| < 4 then Err(ArgumentOutOfRange) else Ok(s[..|s| - 4])
    else if dots == 2 then
      if |s| < 2 then Err(ArgumentOutOfRange) else Ok(s[..|s| - 2])
    else if dots == 1 then Ok(s)
    else if dots == 0 then Ok(s + ".0")
    else Ok(s)
  }

  /** On a rendered version the trim never fails, and it yields "major.minor"
      exactly when the components it cuts off are single digits. */
  lemma FreeBsdTrimKeepsMajorMinor(v: Version)
    ensures FreeBsdTrim(ToString(v)).Ok?
    ensures FreeBsdTrim(ToString(v)) == Ok(MajorMinor(v))
            <==> v.build == -1 || (v.build < 10 && (v.revision == -1 || v.revision < 10))
  {
    var s := ToString(v);
    var mm := MajorMinor(v);
    assert s[..|mm|] == mm;
    if v.build != -1 {
      var kb := |Strings.NatToString(v.build)|;
      if v.revision != -1 {
        var kr := |Strings.NatToString(v.revision)|;
        assert |s| == |mm| + 2 + kb + kr;
        if kb == 1 && kr == 1 {
          assert s[..|s| - 4] == mm;
        }
      } else {
        assert |s| == |mm| + 1 + kb;
        if kb == 1 {
          assert s[..|s| - 2] == mm;
        }
      }
    }
  }

  /** The macOS part of `GetOsVersionString`. */
  function MacVersionToken(v: Version): (r: Result<string, Error>)
    ensures r == Err(PlatformNotSupported(Unspecified)) <==> !AtLeastPadded(v, 10, 13, 0, 0)
    ensures AtLeastPadded(v, 11, 0, 0, 0) ==> r == Ok(Strings.NatToString(v.major)) && v.major >= 11
    // between High Sierra and Big Sur the major is always 10, so the token is "10.10"
    ensures AtLeastPadded(v, 10, 13, 0, 0) && !AtLeastPadded(v, 11, 0, 0, 0) ==> r == Ok("10.10")
  {
    if AtLeastPadded(v, 10, 13, 0, 0) then
      if AtLeastPadded(v, 11, 0, 0, 0) then Ok(Strings.NatToString(v.major))
      else
        assert v.major == 10 && Strings.NatToString(10) == "10";
        assert "10" + "." + "10" == "10.10";
        Ok(Strings.NatToString(v.major) + "." + Strings.NatToString(v.major))
    else Err(PlatformNotSupported(Unspecified))
  }

  /** `GetOsVersionString`: independent checks for Windows, Linux, FreeBSD and
      macOS; a later one that applies overwrites an earlier one, a failing
      one aborts, and no applicable one is an error. */
  function OsVersionToken(h: Host): (r: Result<string, Error>)
    ensures !(h.os.windows || h.os.linux || h.os.freeBSD || h.os.macOS) ==> r == Err(PlatformNotSupported(Unspecified))
    ensures h.os.windows && !h.os.linux && !h.os.freeBSD && !h.os.macOS ==> r == WindowsVersionToken(h.osVersion)
    ensures h.os.windows && WindowsVersionToken(h.osVersion).Err? ==> r == WindowsVersionToken(h.osVersion)
    // past a successful Windows step, the last platform that applies wins
    ensures h.os.linux && !h.os.freeBSD && !h.os.macOS && !(h.os.windows && WindowsVersionToken(h.osVersion).Err?)
            ==> r == Ok(ToString(h.osVersion))
    ensures h.os.freeBSD && !h.os.macOS && !(h.os.windows && WindowsVersionToken(h.osVersion).Err?)
            ==> r == FreeBsdTrim(ToString(h.osVersion))
    // a failing FreeBSD trim aborts before macOS is looked at
    ensures h.os.freeBSD && FreeBsdTrim(ToString(h.osVersion)).Err? && !(h.os.windows && WindowsVersionToken(h.osVersion).Err?)
            ==> r == FreeBsdTrim(ToString(h.osVersion))
    ensures h.os.macOS && !(h.os.windows && WindowsVersionToken(h.osVersion).Err?)
            && !(h.os.freeBSD && FreeBsdTrim(ToString(h.osVersion)).Err?)
            ==> r == MacVersionToken(h.osVersion)
  {
    var os := h.os;
    var v := h.osVersion;
    var w :- if os.windows then WindowsVersionToken(v) else Ok("");
    var v1: Option<string> := if os.windows then Some(w) else None;
    var v2 := if os.linux then Some(ToString(v)) else v1;
    var f :- if os.freeBSD then FreeBsdTrim(ToString(v)) else Ok("");
    var v3 := if os.freeBSD then Some(f) else v2;
    var m :- if os.macOS then MacVersionToken(v) else Ok("");
    var v4 := if os.macOS then Some(m) else v3;
    if v4.None? then Err(PlatformNotSupported(Unspecified)) else Ok(v4.value)
  }

  // ---------------------------------------------------------------- generator

  /** Termination measure for the generator and its default-flag overload. */
  function Rank(t: RuntimeIdentifierType): nat {
    match t
    case AnyGeneric => 0
    case Generic => 0
    case Specific => 1
    case _ => 2
  }

  /** The branch of the generator that formats an OS version. */
  predicate UsesVersion(os: Platforms, t: RuntimeIdentifierType) {
    t == Specific || (os.linux && IsDistroType(t))
  }

  /** `GenerateRuntimeIdentifier(identifierType, includeOperatingSystemName, includeOperatingSystemVersion)`. */
  function Generate(h: Host, t: RuntimeIdentifierType, includeName: bool, includeVersion: bool): (r: Result<string, Error>)
    decreases Rank(t), 0
    // a failure to resolve the name or the architecture surfaces first
    ensures ArchitectureToken(h.architecture).Err? ==> r.Err?
    ensures OsName(h.os, h.osRelease, t).Ok? && ArchitectureToken(h.architecture).Err?
            ==> r == Err(ArchitectureToken(h.architecture).error)
    ensures OsName(h.os, h.osRelease, t).Err? ==> r == OsName(h.os, h.osRelease, t)
    // AnyGeneric, or Generic without the name: "any-<arch>"
    ensures (t == AnyGeneric || (t == Generic && !includeName && OsName(h.os, h.osRelease, t).Ok?))
            && ArchitectureToken(h.architecture).Ok?
            ==> r == Ok("any-" + ArchitectureToken(h.architecture).value)
    // Generic with the name: "<os>-<arch>"
    ensures t == Generic && includeName && OsName(h.os, h.osRelease, t).Ok? && ArchitectureToken(h.architecture).Ok?
            ==> r == Ok(OsName(h.os, h.osRelease, t).value + "-" + ArchitectureToken(h.architecture).value)
    // a failing version lookup aborts the version branch
    ensures (UsesVersion(h.os, t) && OsName(h.os, h.osRelease, t).Ok? && ArchitectureToken(h.architecture).Ok?
             && OsVersionToken(h).Err?) ==> r == OsVersionToken(h)
    // Windows: "<os><ver>-<arch>", no separator
    ensures UsesVersion(h.os, t) && h.os.windows && Parts(h, t).Some?
            ==> r == Ok(if includeVersion then Parts(h, t).value.0 + Parts(h, t).value.2 + "-" + Parts(h, t).value.1
                        else Parts(h, t).value.0 + "-" + Parts(h, t).value.1)
    // macOS: "<os>.<ver>-<arch>"
    ensures UsesVersion(h.os, t) && !h.os.windows && h.os.macOS && Parts(h, t).Some?
            ==> r == Ok(if includeVersion then Parts(h, t).value.0 + "." + Parts(h, t).value.2 + "-" + Parts(h, t).value.1
                        else Parts(h, t).value.0 + "-" + Parts(h, t).value.1)
    // a distro type on Linux: "<distro>.<ver>-<arch>"
    ensures IsDistroType(t) && h.os.linux && !h.os.windows && !h.os.macOS && Parts(h, t).Some?
            ==> r == Ok(if includeVersion then Parts(h, t).value.0 + "." + Parts(h, t).value.2 + "-" + Parts(h, t).value.1
                        else Parts(h, t).value.0 + "-" + Parts(h, t).value.1)
    // Specific elsewhere has no version format: only the version-less shape
    ensures t == Specific && !h.os.windows && !h.os.macOS && Parts(h, t).Some?
            ==> r == (if includeVersion then Err(RuntimeIdentifierGeneration)
                      else Ok(Parts(h, t).value.0 + "-" + Parts(h, t).value.1))
    // a distro type on FreeBSD (not Linux) is refused
    ensures IsDistroType(t) && !h.os.linux && h.os.freeBSD
            && OsName(h.os, h.osRelease, t).Ok? && ArchitectureToken(h.architecture).Ok?
            ==> r == Err(RuntimeIdentifierGeneration)
    // a distro type elsewhere falls back to the default Specific identifier
    ensures IsDistroType(t) && !h.os.linux && !h.os.freeBSD
            && OsName(h.os, h.osRelease, t).Ok? && ArchitectureToken(h.architecture).Ok?
            ==> r == GenerateDefault(h, Specific)
  {
    var osName :- OsName(h.os, h.osRelease, t);
    var cpuArch :- ArchitectureToken(h.architecture);
    if t == AnyGeneric || (t == Generic && !includeName) then
      Ok("any-" + cpuArch)
    else if t == Generic && includeName then
      Ok(osName + "-" + cpuArch)
    else if t == Specific || (h.os.linux && t == DistroSpecific) || (h.os.linux && t == VersionLessDistroSpecific) then
      var osVersion :- OsVersionToken(h);
      if h.os.windows then
        Ok(if includeVersion then osName + osVersion + "-" + cpuArch else osName + "-" + cpuArch)
      else if h.os.macOS then
        Ok(if includeVersion then osName + "." + osVersion + "-" + cpuArch else osName + "-" + cpuArch)
      else if ((h.os.linux || h.os.freeBSD) && t == DistroSpecific) || t == VersionLessDistroSpecific then
        Ok(if includeVersion then osName + "." + osVersion + "-" + cpuArch else osName + "-" + cpuArch)
      else if (h.os.linux && t == Specific && !includeVersion) || !includeVersion then
        Ok(osName + "-" + cpuArch)
      else
        Err(RuntimeIdentifierGeneration)
    else if !h.os.linux && !h.os.freeBSD && IsDistroType(t) then
      GenerateDefault(h, Specific)
    else
      Err(RuntimeIdentifierGeneration)
  }

  /** The three parts an identifier is built from, when all resolve:
      (name, architecture token, version token). */
  function Parts(h: Host, t: RuntimeIdentifierType): Option<(string, string, string)> {
    var n := OsName(h.os, h.osRelease, t);
    var a := ArchitectureToken(h.architecture);
    var v := OsVersionToken(h);
    if n.Ok? && a.Ok? && v.Ok? then Some((n.value, a.value, v.value)) else None
  }

  /** The default flags of the one-argument overload, as a table:
      (include the OS name, include the OS version). */
  function DefaultFlags(os: Platforms, t: RuntimeIdentifierType): (bool, bool) {
    match t
    case AnyGeneric => (false, false)
    case Generic => (true, false)
    case Specific => if os.linux || os.freeBSD then (true, false) else (true, true)
    case VersionLessDistroSpecific => (true, false)
    case DistroSpecific => (true, true)
  }

  /** `GenerateRuntimeIdentifier(identifierType)`. */
  function GenerateDefault(h: Host, t: RuntimeIdentifierType): (r: Result<string, Error>)
    decreases Rank(t), 1
    ensures r == Generate(h, t, DefaultFlags(h.os, t).0, DefaultFlags(h.os, t).1)
  {
    if t == AnyGeneric then
      Generate(h, t, false, false)
    else if t == Generic || (t == Specific && (h.os.linux || h.os.freeBSD)) || t == VersionLessDistroSpecific then
      Generate(h, t, true, false)
    else
      // here t is DistroSpecific, or Specific off Linux and FreeBSD
      Generate(h, t, true, true)
  }

  /** `GetRuntimeIdentifier`: the distro-specific identifier on Linux, the
      specific one elsewhere. */
  function CurrentIdentifier(h: Host): (r: Result<string, Error>)
    ensures h.os.linux ==> r == Generate(h, DistroSpecific, true, true)
    ensures !h.os.linux && h.os.freeBSD ==> r == Generate(h, Specific, true, false)
    ensures !h.os.linux && !h.os.freeBSD ==> r == Generate(h, Specific, true, true)
  {
    if h.os.linux then GenerateDefault(h, DistroSpecific) else GenerateDefault(h, Specific)
  }

  /** `GetGenericRuntimeIdentifier`: "<os>-<arch>", never a version. */
  function GenericIdentifier(h: Host): (r: Result<string, Error>)
    ensures r.Ok? <==> OsName(h.os, h.osRelease, Generic).Ok? && ArchitectureToken(h.architecture).Ok?
    ensures r.Ok? ==> r.value == OsName(h.os, h.osRelease, Generic).value + "-" + ArchitectureToken(h.architecture).value
  {
    GenerateDefault(h, Generic)
  }

  /** The identifier types the candidate list asks for, in order. */
  function CandidateTypes(os: Platforms): seq<RuntimeIdentifierType> {
    [AnyGeneric, Generic, Specific] + (if os.linux then [VersionLessDistroSpecific, DistroSpecific] else [])
  }

  /** The type at index `i` is the first whose default identifier fails. */
  predicate IsFirstFailure(h: Host, types: seq<RuntimeIdentifierType>, i: int) {
    && 0 <= i < |types|
    && GenerateDefault(h, types[i]).Err?
    && forall j :: 0 <= j < i ==> GenerateDefault(h, types[j]).Ok?
  }

  /** The default identifier of each type in order; the first exception
      aborts the whole list. */
  function Collect(h: Host, types: seq<RuntimeIdentifierType>): (r: Result<seq<string>, Error>)
    ensures r.Ok? ==> |r.value| == |types|
    ensures r.Ok? ==> forall i :: 0 <= i < |types| ==> Ok(r.value[i]) == GenerateDefault(h, types[i])
    ensures r.Err? ==> exists i :: IsFirstFailure(h, types, i) && r.error == GenerateDefault(h, types[i]).error
    ensures r.Err? <==> exists i :: 0 <= i < |types| && GenerateDefault(h, types[i]).Err?
    decreases |types|
  {
    if |types| == 0 then Ok([])
    else
      match GenerateDefault(h, types[0])
      case Err(e) =>
        assert IsFirstFailure(h, types, 0);
        Err(e)
      case Ok(x) =>
        var rest := Collect(h, types[1..]);
        FailureShifts(h, types, rest);
        match rest
        case Err(e) => Err(e)
        case Ok(xs) => Ok([x] + xs)
  }

  /** After a successful first type, a failure of the rest is a failure of
      the whole list, at the next index. */
  lemma FailureShifts(h: Host, types: seq<RuntimeIdentifierType>, rest: Result<seq<string>, Error>)
    requires |types| > 0 && GenerateDefault(h, types[0]).Ok?
    requires rest.Err? ==> exists i :: IsFirstFailure(h, types[1..], i) && rest.error == GenerateDefault(h, types[1..][i]).error
    requires rest.Err? <==> exists i :: 0 <= i < |types[1..]| && GenerateDefault(h, types[1..][i]).Err?
    requires rest.Ok? ==> |rest.value| == |types| - 1
                          && forall i :: 0 <= i < |types| - 1 ==> Ok(rest.value[i]) == GenerateDefault(h, types[1..][i])
    ensures rest.Err? ==> exists i :: IsFirstFailure(h, types, i) && rest.error == GenerateDefault(h, types[i]).error
    ensures rest.Err? <==> exists i :: 0 <= i < |types| && GenerateDefault(h, types[i]).Err?
    ensures rest.Ok? ==> forall i :: 0 <= i < |types|
                           ==> Ok(([GenerateDefault(h, types[0]).value] + rest.value)[i]) == GenerateDefault(h, types[i])
  {
    if rest.Err? {
      var i :| IsFirstFailure(h, types[1..], i) && rest.error == GenerateDefault(h, types[1..][i]).error;
      assert types[1..][i] == types[i + 1];
      forall j | 0 <= j < i + 1
        ensures GenerateDefault(h, types[j]).Ok?
      {
        if j > 0 {
          assert types[1..][j - 1] == types[j];
        }
      }
      assert IsFirstFailure(h, types, i + 1);
    } else {
      forall i | 0 <= i < |types|
        ensures GenerateDefault(h, types[i]).Ok?
      {
        if i > 0 {
          assert types[1..][i - 1] == types[i];
        }
      }
      forall i | 0 <= i < |types|
        ensures Ok(([GenerateDefault(h, types[0]).value] + rest.value)[i]) == GenerateDefault(h, types[i])
      {
        if i > 0 {
          assert types[1..][i - 1] == types[i];
        }
      }
    }
  }

  /** `GetPossibleRuntimeIdentifierCandidates`: AnyGeneric, Generic and
      Specific, then on Linux VersionLessDistroSpecific and DistroSpecific
      (whose explicit flags there are its defaults), in that order; the
      first exception aborts the list. */
  function Candidates(h: Host): (r: Result<seq<string>, Error>)
    ensures r.Ok? ==> |r.value| == (if h.os.linux then 5 else 3)
    ensures r.Ok? ==> forall i :: 0 <= i < |r.value| ==> Ok(r.value[i]) == GenerateDefault(h, CandidateTypes(h.os)[i])
    ensures r.Err? <==> exists i :: 0 <= i < |CandidateTypes(h.os)| && GenerateDefault(h, CandidateTypes(h.os)[i]).Err?
    ensures r.Ok? ==> GenerateDefault(h, AnyGeneric).Ok? && GenerateDefault(h, Generic).Ok? && GenerateDefault(h, Specific).Ok?
    // the error is the one of the first candidate that fails
    ensures r.Err? ==> exists i :: IsFirstFailure(h, CandidateTypes(h.os), i)
                                   && r.error == GenerateDefault(h, CandidateTypes(h.os)[i]).error
  {
    assert GenerateDefault(h, DistroSpecific) == Generate(h, DistroSpecific, true, true);
    assert CandidateTypes(h.os)[0] == AnyGeneric && CandidateTypes(h.os)[1] == Generic;
    assert CandidateTypes(h.os)[2] == Specific;
    Collect(h, CandidateTypes(h.os))
  }

  // ---------------------------------------------------------------- properties

  /** Generic without the OS name is the AnyGeneric identifier, as long as a
      name resolves at all (it is looked up before anything else). */
  lemma GenericWithoutNameIsAnyGeneric(h: Host, v: bool, n': bool, v': bool)
    requires OsName(h.os, h.osRelease, Generic).Ok?
    ensures Generate(h, Generic, false, v) == Generate(h, AnyGeneric, n', v')
  {
  }

  /** AnyGeneric depends on the architecture alone. */
  lemma AnyGenericIgnoresOs(h1: Host, h2: Host, n: bool, v: bool)
    requires h1.architecture == h2.architecture
    ensures Generate(h1, AnyGeneric, n, v) == Generate(h2, AnyGeneric, n, v)
  {
  }

  /** Generic never embeds a version: hosts that differ only in their OS
      version get the same Generic identifier. */
  lemma GenericIgnoresVersion(h1: Host, h2: Host, n: bool, v: bool)
    requires h1.os == h2.os && h1.architecture == h2.architecture && h1.osRelease == h2.osRelease
    ensures Generate(h1, Generic, n, v) == Generate(h2, Generic, n, v)
  {
  }

  /** Specific with the default flags carries the OS version on Windows
      ("<os><ver>-<arch>") and on macOS ("<os>.<ver>-<arch>"). */
  lemma SpecificCarriesVersion(h: Host)
    requires !h.os.linux && !h.os.freeBSD && (h.os.windows || h.os.macOS)
    requires Parts(h, Specific).Some?
    ensures h.os.windows ==>
              GenerateDefault(h, Specific)
              == Ok(Parts(h, Specific).value.0 + Parts(h, Specific).value.2 + "-" + Parts(h, Specific).value.1)
    ensures !h.os.windows ==>
              GenerateDefault(h, Specific)
              == Ok(Parts(h, Specific).value.0 + "." + Parts(h, Specific).value.2 + "-" + Parts(h, Specific).value.1)
  {
  }

  /** A distro type used off Linux and FreeBSD is quietly the Specific
      identifier with both flags on, whatever flags were asked for. */
  lemma DistroTypeFallsBackToSpecific(h: Host, t: RuntimeIdentifierType, n: bool, v: bool)
    requires IsDistroType(t) && !h.os.linux && !h.os.freeBSD
    ensures Generate(h, t, n, v) == Generate(h, Specific, true, true)
  {
    NameIgnoresTypeOffLinux(h.os, h.osRelease, t, Specific);
  }

  /** Real os-release files carry `ID_LIKE=`, not `IDENTIFIER_LIKE=`: with no
      line answering for the latter, the Linux Specific identifier fails, and
      with it the whole candidate list. */
  lemma LinuxWithoutIdentifierLikeFails(h: Host)
    requires h.os.linux
    requires forall i :: 0 <= i < |h.osRelease| ==> !OsRelease.LineMatches(h.osRelease[i], IdentifierLikeKey)
    ensures GenerateDefault(h, Specific) == Err(PlatformNotSupported(Unspecified))
    ensures Candidates(h).Err?
  {
    OsRelease.LastValueIsLastMatch(h.osRelease, IdentifierLikeKey);
    assert CandidateTypes(h.os)[2] == Specific;
  }

  /** On a host that is not Linux the candidate list has no distro entries. */
  lemma CandidatesOffLinux(h: Host)
    requires !h.os.linux && Candidates(h).Ok?
    ensures Candidates(h).value
            == [GenerateDefault(h, AnyGeneric).value, GenerateDefault(h, Generic).value, GenerateDefault(h, Specific).value]
  {
    var c := Candidates(h).value;
    assert Ok(c[0]) == GenerateDefault(h, AnyGeneric);
    assert Ok(c[1]) == GenerateDefault(h, Generic);
    assert Ok(c[2]) == GenerateDefault(h, Specific);
  }

  // ---------------------------------------------------------------- examples

  const NoPlatforms := Platforms(false, false, false, false, false, false, false, false, false, false, false)

  /** The os-release lines of an Ubuntu 22.04 host, with the keys the code expects. */
  const UbuntuRelease: seq<string> :=
    ["NAME=Ubuntu", "IDENTIFIER=ubuntu", "IDENTIFIER_LIKE=debian", "VERSION=22.04 LTS"]

  /** The values Ubuntu's os-release yields for the two keys. */
  lemma UbuntuReleaseValues()
    ensures OsRelease.LastValue(UbuntuRelease, IdentifierKey) == "ubuntu"
    ensures OsRelease.LastValue(UbuntuRelease, IdentifierLikeKey) == "debian"
  {
    var lines := UbuntuRelease;
    assert lines[1] == IdentifierKey + "ubuntu";
    assert lines[2] == IdentifierLikeKey + "debian";
    OsRelease.KeyLineMatches(IdentifierKey, "ubuntu");
    OsRelease.KeyLineMatches(IdentifierLikeKey, "debian");
    OsRelease.DifferentLineMisses(lines[2], IdentifierKey, 10);
    OsRelease.DifferentLineMisses(lines[3], IdentifierKey, 0);
    OsRelease.DifferentLineMisses(lines[3], IdentifierLikeKey, 0);
    OsRelease.LastValueIsLastMatch(lines, IdentifierKey);
    OsRelease.LastValueIsLastMatch(lines, IdentifierLikeKey);
    assert OsRelease.IsLastMatch(lines, IdentifierKey, 1);
    assert OsRelease.IsLastMatch(lines, IdentifierLikeKey, 2);
    Strings.RemoveAllLeading(IdentifierKey, "ubuntu");
    Strings.RemoveAllLeading(IdentifierLikeKey, "debian");
  }

  /** An Ubuntu 22.04 host on arm64: Linux only, with the values above in its os-release. */
  predicate IsUbuntuHost(h: Host) {
    && h.os == NoPlatforms.(linux := true)
    && h.osVersion == RawVersion(22, 4, -1, -1)
    && h.architecture == Arm64
    && OsRelease.LastValue(h.osRelease, IdentifierKey) == "ubuntu"
    && OsRelease.LastValue(h.osRelease, IdentifierLikeKey) == "debian"
  }

  /** A host whose os-release holds the Ubuntu lines above is such a host. */
  lemma UbuntuReleaseMakesUbuntuHost(h: Host)
    requires h.os == NoPlatforms.(linux := true) && h.osVersion == RawVersion(22, 4, -1, -1)
    requires h.architecture == Arm64 && h.osRelease == UbuntuRelease
    ensures IsUbuntuHost(h)
  {
    UbuntuReleaseValues();
  }

  lemma UbuntuVersionToken(h: Host)
    requires IsUbuntuHost(h)
    ensures OsVersionToken(h) == Ok("22.4")
  {
    assert Strings.NatToString(22) == "22";
    assert ToString(h.osVersion) == "22.4";
  }

  lemma UbuntuDistroIdentifier(h: Host)
    requires IsUbuntuHost(h)
    ensures Generate(h, DistroSpecific, true, true) == Ok("ubuntu.22.4-arm64")
  {
    UbuntuVersionToken(h);
    assert Parts(h, DistroSpecific) == Some(("ubuntu", "arm64", "22.4"));
    assert "ubuntu" + "." == "ubuntu.";
    assert "ubuntu." + "22.4" == "ubuntu.22.4";
    assert "ubuntu.22.4" + "-" == "ubuntu.22.4-";
    assert "ubuntu.22.4-" + "arm64" == "ubuntu.22.4-arm64";
  }

  lemma UbuntuSpecificIdentifier(h: Host)
    requires IsUbuntuHost(h)
    ensures GenerateDefault(h, Specific) == Ok("debian-arm64")
  {
    UbuntuVersionToken(h);
    assert Parts(h, Specific) == Some(("debian", "arm64", "22.4"));
    assert "debian" + "" == "debian";
    assert "debian" + "-" == "debian-";
    assert "debian-" + "arm64" == "debian-arm64";
  }

  lemma UbuntuVersionLessIdentifier(h: Host)
    requires IsUbuntuHost(h)
    ensures GenerateDefault(h, VersionLessDistroSpecific) == Ok("ubuntu-arm64")
  {
    UbuntuVersionToken(h);
    assert Parts(h, VersionLessDistroSpecific) == Some(("ubuntu", "arm64", "22.4"));
    assert "ubuntu" + "" == "ubuntu";
    assert "ubuntu" + "-" == "ubuntu-";
    assert "ubuntu-" + "arm64" == "ubuntu-arm64";
  }

  lemma UbuntuGenericIdentifier(h: Host)
    requires IsUbuntuHost(h)
    ensures GenerateDefault(h, Generic) == Ok("linux-arm64")
  {
    assert "linux" + "" == "linux";
    assert "linux" + "-" == "linux-";
    assert "linux-" + "arm64" == "linux-arm64";
  }

  /** A Windows 11 host on x64. */
  const Windows11Host := Host(
    NoPlatforms.(windows := true),
    RawVersion(10, 0, 22000, 0),
    X64,
    [],
    ".NET 8.0.1",
    RawVersion(8, 0, 1, -1))

  lemma Windows11Identifiers()
    ensures GenerateDefault(Windows11Host, Specific) == Ok("win11-x64")
    ensures CurrentIdentifier(Windows11Host) == Ok("win11-x64")
    ensures Candidates(Windows11Host) == Ok(["any-x64", "win-x64", "win11-x64"])
  {
    assert OsName(Windows11Host.os, [], Specific) == Ok("win");
    assert OsVersionToken(Windows11Host) == Ok("11");
    assert "win" + "11" + "-" + "x64" == "win11-x64";
    assert "win" + "-" + "x64" == "win-x64";
    assert "any-" + "x64" == "any-x64";
    var types := CandidateTypes(Windows11Host.os);
    assert types == [AnyGeneric, Generic, Specific];
    assert GenerateDefault(Windows11Host, AnyGeneric) == Ok("any-x64");
    assert GenerateDefault(Windows11Host, Generic) == Ok("win-x64");
    forall i | 0 <= i < |types|
      ensures GenerateDefault(Windows11Host, types[i]).Ok?
    {
    }
    assert Candidates(Windows11Host).Ok?;
    var c := Candidates(Windows11Host).value;
    assert |c| == 3;
    assert Ok(c[0]) == GenerateDefault(Windows11Host, types[0]);
    assert Ok(c[1]) == GenerateDefault(Windows11Host, types[1]);
    assert Ok(c[2]) == GenerateDefault(Windows11Host, types[2]);
    assert c == ["any-x64", "win-x64", "win11-x64"];
  }

  /** The version tokens of the catalog for a few well-known releases. */
  lemma VersionTokenExamples()
    ensures WindowsVersionToken(RawVersion(6, 2, 9200, 0)) == Ok("8")
    ensures WindowsVersionToken(RawVersion(6, 3, 9600, 0)) == Ok("81")
    ensures WindowsVersionToken(RawVersion(10, 0, 10240, 0)) == Ok("10")
    ensures WindowsVersionToken(RawVersion(10, 0, 22000, 0)) == Ok("11")
    ensures WindowsVersionToken(RawVersion(6, 1, 9100, 0)) == Err(PlatformNotSupported(Unspecified))
    ensures MacVersionToken(RawVersion(10, 13, -1, -1)) == Ok("10.10")
    ensures MacVersionToken(RawVersion(11, 0, -1, -1)) == Ok("11")
    ensures MacVersionToken(RawVersion(10, 12, -1, -1)) == Err(PlatformNotSupported(Unspecified))
    ensures FreeBsdTrim("12.3.4.5") == Ok("12.3")
    ensures FreeBsdTrim("12.3") == Ok("12.3")
    ensures FreeBsdTrim("12") == Ok("12.0")
  {
    assert Strings.NatToString(11) == "11";
    assert Strings.NatToString(12) == "12";
    var v := RawVersion(12, 3, 4, 5);
    assert ToString(v) == "12.3.4.5";
    FreeBsdTrimKeepsMajorMinor(v);
    assert MajorMinor(v) == "12.3";
    assert ToString(RawVersion(12, 3, -1, -1)) == "12.3";
    assert Strings.CountChar("12", '.') == 0;
    assert "12" + ".0" == "12.0";
  }
}

=== FILE: runtime_information_polyfill.dfy ===
/** The `RuntimeInformation` polyfill: architecture detection, the framework
    description, the simple runtime identifier and `IsOSPlatform`. It reads
    the `OperatingSystem` polyfill's predicates over the same probe. */
module RuntimeInformationPolyfill {
  import opened Wrappers
  import opened Errors
  import opened Versions
  import opened Platform
  import opened OperatingSystemPolyfill
  import Strings
  import RidTypes
  import RuntimeIdentification

  /** What this class reads beyond the `OperatingSystem` probe. */
  datatype RuntimeProbe = RuntimeProbe(
    os: Probe,
    /** The Tizen test of the name lookup, which this model does not derive. */
    tizen: bool,
    /** Output of `systeminfo` (Windows). */
    systemInfo: string,
    /** Output of `uname -m` (elsewhere). */
    unameMachine: string,
    /** `Environment.Is64BitOperatingSystem` and `Environment.Is64BitProcess`. */
    is64BitOs: bool,
    is64BitProcess: bool,
    /** Output of `dotnet --version`; None when the process fails. */
    dotnetVersion: Option<string>,
    /** `Environment.Version`, the runtime's own version. */
    runtimeVersion: Version,
    /** The .NET Framework registry release value after `int.Parse`: the
        number, or what the lookup or the parse throws (a null query result
        is ArgumentNull, a non-number Format, a too large number Overflow). */
    releaseKey: Result<int, Error>)

  /** `Version.TryParse`. */
  type TryParser = string -> Option<Version>

  // ---------------------------------------------------------------- architecture

  /** An Apple mobile host, which is always treated as arm. */
  predicate IsAppleMobile(p: Probe) {
    IsIOS(p) || IsTvOS(p) || IsWatchOS(p)
  }

  /** `isArmBased` of `GetArchitectureInfo`. */
  predicate IsArmBased(rp: RuntimeProbe) {
    if IsWindows(rp.os) then Strings.Contains(Strings.ToLower(rp.systemInfo), "aarch")
    else if IsAppleMobile(rp.os) then true
    else Strings.Contains(Strings.ToLower(rp.unameMachine), "aarch")
  }

  predicate Is64Bit(a: Architecture) { a == X64 || a == Arm64 }

  predicate IsArmFamily(a: Architecture) { a == Arm || a == Arm64 }

  /** The decision table: bitness and arm-ness pick one of four values, and
      both can be read back from the result. */
  function ArchitectureFor(is64: bool, arm: bool): (r: Architecture)
    ensures r in {X86, X64, Arm, Arm64}
    ensures Is64Bit(r) == is64 && IsArmFamily(r) == arm
  {
    if is64 then (if arm then Arm64 else X64)
    else (if arm then Arm else X86)
  }

  /** The table is a bijection onto its four values. */
  lemma ArchitectureForRoundTrip(a: Architecture)
    requires a in {X86, X64, Arm, Arm64}
    ensures ArchitectureFor(Is64Bit(a), IsArmFamily(a)) == a
  {
  }

  /** `OSArchitecture`. */
  function OsArchitecture(rp: RuntimeProbe): (r: Architecture)
    ensures r in {X86, X64, Arm, Arm64}
    ensures Is64Bit(r) == rp.is64BitOs && IsArmFamily(r) == IsArmBased(rp)
  {
    ArchitectureFor(rp.is64BitOs, IsArmBased(rp))
  }

  /** `ProcessArchitecture`: the same table on the process bitness. */
  function ProcessArchitecture(rp: RuntimeProbe): (r: Architecture)
    ensures r in {X86, X64, Arm, Arm64}
    ensures Is64Bit(r) == rp.is64BitProcess && IsArmFamily(r) == IsArmBased(rp)
  {
    ArchitectureFor(rp.is64BitProcess, IsArmBased(rp))
  }

  /** OS and process architectures differ at most in bitness. */
  lemma ArchitecturesShareFamily(rp: RuntimeProbe)
    ensures IsArmFamily(OsArchitecture(rp)) == IsArmFamily(ProcessArchitecture(rp))
    ensures rp.is64BitOs == rp.is64BitProcess ==> OsArchitecture(rp) == ProcessArchitecture(rp)
  {
  }

  /** Apple mobile hosts other than Windows are arm, whatever `uname` says. */
  lemma AppleMobileIsArm(rp: RuntimeProbe)
    requires !IsWindows(rp.os) && IsAppleMobile(rp.os)
    ensures OsArchitecture(rp) in {Arm, Arm64}
  {
  }

  /** Only "aarch" counts as arm: a 32-bit Linux on "armv7l" is classified x86. */
  lemma Armv7IsClassifiedX86(rp: RuntimeProbe)
    requires !IsWindows(rp.os) && !IsAppleMobile(rp.os)
    requires rp.unameMachine == "armv7l" && !rp.is64BitOs
    ensures OsArchitecture(rp) == X86
  {
    var m := Strings.ToLower(rp.unameMachine);
    assert m == "armv7l";
    NoAarch(m);
  }

  /** "armv7l" holds no "aarch": no suffix of it starts with that word. */
  lemma NoAarch(m: string)
    requires m == "armv7l"
    ensures !Strings.Contains(m, "aarch")
  {
    assert m[..5] != "aarch" by { assert m[1] == 'r'; }
    assert m[1..] == "rmv7l";
    Strings.AbsentFirstChar(m[1..], "aarch");
  }

  /** `GetArchitectureString`: only four architectures have a token here. */
  function ArchitectureString(a: Architecture): (r: Result<string, Error>)
    ensures r.Ok? <==> a in {Arm, Arm64, X64, X86}
    ensures r.Err? ==> r.error == PlatformNotSupported(Unspecified)
    // where both have a token, it is the RID generator's token
    ensures r.Ok? ==> r == RuntimeIdentification.ArchitectureToken(a)
  {
    match a
    case Arm => Ok("arm")
    case Arm64 => Ok("arm64")
    case X64 => Ok("x64")
    case X86 => Ok("x86")
    case _ => Err(PlatformNotSupported(Unspecified))
  }

  /** The generator knows s390x; this table does not. */
  lemma S390xOnlyInGenerator()
    ensures RuntimeIdentification.ArchitectureToken(S390x) == Ok("s390x")
    ensures ArchitectureString(S390x).Err?
  {
  }

  // ---------------------------------------------------------------- framework description

  /** The label put in front of a parsed `dotnet --version` release. */
  function ReleasePrefix(major: int): (r: string)
    ensures major < 4 ==> r == ".NET Core "
    ensures major > 4 ==> r == ".NET "
    ensures major == 4 ==> r == ".NET Core CLR "
  {
    if major < 4 then ".NET Core "
    else if major > 4 then ".NET "
    else ".NET Core CLR "
  }

  /** The release `GetNewNewDescription` asks about: `dotnet --version` on
      Windows and on hosts that are not Apple mobile, else the runtime version. */
  function ReleaseText(rp: RuntimeProbe): Option<string> {
    if IsWindows(rp.os) || !IsAppleMobile(rp.os) then rp.dotnetVersion
    else Some(ToString(rp.runtimeVersion))
  }

  /** `GetNewNewDescription`; None when the process throws. */
  function NewDescription(rp: RuntimeProbe, tryParse: TryParser): (r: Option<string>)
    ensures r.None? <==> ReleaseText(rp).None?
    ensures ReleaseText(rp).Some? && tryParse(ReleaseText(rp).value).Some?
            ==> r == Some(ReleasePrefix(tryParse(ReleaseText(rp).value).value.major) + ReleaseText(rp).value)
    ensures ReleaseText(rp).Some? && tryParse(ReleaseText(rp).value).None?
            ==> r == Some(".NET CLR " + ToString(rp.runtimeVersion))
  {
    match ReleaseText(rp)
    case None => None
    case Some(release) =>
      match tryParse(release)
      case Some(v) => Some(ReleasePrefix(v.major) + release)
      case None => Some(".NET CLR " + ToString(rp.runtimeVersion))
  }

  /** The case labels of the release-key switch. Each is a bitwise OR of the
      keys it lists, so it is one integer, not a set of alternatives. */
  const Net461Label: int := (394254 as bv32 | 394271 as bv32) as int
  const Net462Label: int := (394802 as bv32 | 394806 as bv32) as int
  const Net47Label: int := (460798 as bv32 | 460805 as bv32) as int
  const Net471Label: int := (461308 as bv32 | 461310 as bv32) as int
  const Net472Label: int := (461808 as bv32 | 461814 as bv32) as int
  const Net48Label: int := (528040 as bv32 | 528372 as bv32 | 528449 as bv32 | 528049 as bv32) as int
  const Net481Label: int := (533320 as bv32 | 533325 as bv32) as int

  /** The labels' values. Two of them (4.7, 4.8) equal none of the keys they were written from. */
  lemma LabelValues()
    ensures Net461Label == 394271 && Net462Label == 394806 && Net47Label == 462847
    ensures Net471Label == 461310 && Net472Label == 461814 && Net48Label == 532477
    ensures Net481Label == 533325
  {
  }

  /** The switch of `GetNetFrameworkDescription`. */
  function ReleaseVersion(key: int): (r: Option<string>)
    ensures r.Some? <==> key in {394271, 394806, 462847, 461310, 461814, 532477, 533325}
    ensures key == 394271 ==> r == Some("4.6.1")
    ensures key == 394806 ==> r == Some("4.6.2")
    ensures key == 462847 ==> r == Some("4.7")
    ensures key == 461310 ==> r == Some("4.7.1")
    ensures key == 461814 ==> r == Some("4.7.2")
    ensures key == 532477 ==> r == Some("4.8")
    ensures key == 533325 ==> r == Some("4.8.1")
  {
    LabelValues();
    if key == Net461Label then Some("4.6.1")
    else if key == Net462Label then Some("4.6.2")
    else if key == Net47Label then Some("4.7")
    else if key == Net471Label then Some("4.7.1")
    else if key == Net472Label then Some("4.7.2")
    else if key == Net48Label then Some("4.8")
    else if key == Net481Label then Some("4.8.1")
    else None
  }

  /** The keys Microsoft publishes for each .NET Framework 4.6.1 and later release. */
  function PublishedRelease(key: int): Option<string> {
    if key in {394254, 394271} then Some("4.6.1")
    else if key in {394802, 394806} then Some("4.6.2")
    else if key in {460798, 460805} then Some("4.7")
    else if key in {461308, 461310} then Some("4.7.1")
    else if key in {461808, 461814} then Some("4.7.2")
    else if key in {528040, 528372, 528449, 528049} then Some("4.8")
    else if key in {533320, 533325} then Some("4.8.1")
    else None
  }

  /** Where the switch names a version it names the published one, but it
      recognises only five published keys (the larger of each 4.6.1, 4.6.2,
      4.7.1, 4.7.2 and 4.8.1 pair) and none for 4.7 or 4.8. */
  lemma SwitchAgainstPublishedKeys(key: int)
    ensures ReleaseVersion(key).Some? && PublishedRelease(key).Some? ==> ReleaseVersion(key) == PublishedRelease(key)
    ensures ReleaseVersion(key).Some? && PublishedRelease(key).Some?
            <==> key in {394271, 394806, 461310, 461814, 533325}
    ensures ReleaseVersion(key).Some? && PublishedRelease(key).None? <==> key in {462847, 532477}
  {
    LabelValues();
  }

  /** `GetNetFrameworkDescription`. The registry is read through `reg
      query`, which refuses to run off Windows; on Windows a failed lookup
      or parse propagates. */
  function NetFrameworkDescription(rp: RuntimeProbe): (r: Result<string, Error>)
    ensures !IsWindows(rp.os) ==> r == Err(PlatformNotSupported(Unspecified))
    ensures IsWindows(rp.os) ==> (r.Err? <==> rp.releaseKey.Err?)
    ensures IsWindows(rp.os) && rp.releaseKey.Err? ==> r == Err(rp.releaseKey.error)
    ensures r.Ok? ==> Strings.IsPrefix(".NET Framework ", r.value)
    // a recognised key names its release
    ensures r.Ok? && ReleaseVersion(rp.releaseKey.value).Some?
            ==> r.value == ".NET Framework " + ReleaseVersion(rp.releaseKey.value).value
    // any other key falls back to the runtime's own version
    ensures r.Ok? && ReleaseVersion(rp.releaseKey.value).None?
            ==> r.value == ".NET Framework " + ToString(rp.runtimeVersion)
  {
    if !IsWindows(rp.os) then Err(PlatformNotSupported(Unspecified))
    else
      match rp.releaseKey
      case Err(e) => Err(e)
      case Ok(key) =>
        var version := match ReleaseVersion(key) case Some(v) => v case None => ToString(rp.runtimeVersion);
        Ok(".NET Framework " + version)
  }

  /** On a Windows host with the 4.8 key, the description names 4.8 only
      when the key equals the OR-combined label, 532477. */
  lemma NetFrameworkDescriptionOf48(rp: RuntimeProbe)
    requires IsWindows(rp.os) && rp.releaseKey == Ok(532477)
    ensures NetFrameworkDescription(rp) == Ok(".NET Framework 4.8")
  {
    assert ReleaseVersion(532477) == Some("4.8");
    assert ".NET Framework " + "4.8" == ".NET Framework 4.8";
  }

  /** `GetFrameworkDescription`: the new description, or the .NET Framework
      one when the former throws. */
  function FrameworkDescription(rp: RuntimeProbe, tryParse: TryParser): (r: Result<string, Error>)
    ensures ReleaseText(rp).Some? ==> r == Ok(NewDescription(rp, tryParse).value)
    ensures ReleaseText(rp).None? ==> r == NetFrameworkDescription(rp)
    ensures r.Ok? ==> Strings.IsPrefix(".NET ", r.value)
  {
    match NewDescription(rp, tryParse)
    case Some(d) =>
      assert Strings.IsPrefix(".NET ", d) by {
        assert d[..5] == ".NET ";
      }
      Ok(d)
    case None =>
      var f := NetFrameworkDescription(rp);
      assert f.Ok? ==> f.value[..5] == (f.value[..15])[..5];
      f
  }

  // ---------------------------------------------------------------- OS version and identifier

  /** `GetOsVersionString`: starts from "", so on an OS that is none of
      Windows, Linux, FreeBSD or macOS the result is "". Windows knows only
      10 and 11; Linux and FreeBSD use the fallback version; macOS compares
      the `sw_vers` version and prints the fallback major. */
  function OsVersionString(p: Probe, parse: Parser): (r: Result<string, Error>)
    ensures !IsWindows(p) && !IsLinux(p) && !IsFreeBSD(p) && !IsMacOS(p) ==> r == Ok("")
    ensures IsWindows(p) && !IsLinux(p) && !IsFreeBSD(p) && !IsMacOS(p) ==> r == WindowsToken(p, parse)
    ensures IsWindows(p) && !IsLinux(p) && !IsFreeBSD(p) && !IsMacOS(p) && r.Ok? ==> r.value in {"10", "11"}
    ensures IsWindows(p) && parse(WindowsVersionText(p)).Err? ==> r == Err(parse(WindowsVersionText(p)).error)
    // a failing Windows token aborts before any later platform is looked at
    ensures IsWindows(p) && WindowsToken(p, parse).Err? ==> r == WindowsToken(p, parse)
    ensures IsLinux(p) && !IsFreeBSD(p) && !IsMacOS(p) && !(IsWindows(p) && WindowsToken(p, parse).Err?)
            ==> r == Ok(ToString(p.osVersion))
    ensures IsFreeBSD(p) && !IsMacOS(p) && !(IsWindows(p) && WindowsToken(p, parse).Err?)
            ==> r == RuntimeIdentification.FreeBsdTrim(ToString(p.osVersion))
    // macOS is decided last and overrides the others, unless an earlier step threw
    ensures IsMacOS(p) && !(IsWindows(p) && WindowsToken(p, parse).Err?)
            && !(IsFreeBSD(p) && RuntimeIdentification.FreeBsdTrim(ToString(p.osVersion)).Err?)
            ==> r == MacToken(p, parse)
  {
    var w :- if IsWindows(p) then WindowsToken(p, parse) else Ok("");
    var v1 := w;
    var v2 := if IsLinux(p) then ToString(p.osVersion) else v1;
    var f :- if IsFreeBSD(p) then RuntimeIdentification.FreeBsdTrim(ToString(p.osVersion)) else Ok("");
    var v3 := if IsFreeBSD(p) then f else v2;
    var m :- if IsMacOS(p) then MacToken(p, parse) else Ok("");
    Ok(if IsMacOS(p) then m else v3)
  }

  /** The Windows part: Windows 10 and 11 or an end-of-life error. The
      parsed description is compared to the lower bounds, the fallback
      version to Windows 10's upper bound. */
  function WindowsToken(p: Probe, parse: Parser): (r: Result<string, Error>)
    requires IsWindows(p)
    ensures parse(WindowsVersionText(p)).Err? ==> r == Err(parse(WindowsVersionText(p)).error)
    // Windows 10: at least 10.0.10240 by the description, below 10.0.20349 by the fallback version
    ensures r == Ok("10") <==> IsWindowsVersionAtLeast(p, parse, 10, 0, 10240, 0) == Ok(true)
                               && Less(p.osVersion, RawVersion(10, 0, 20349, -1))
    // Windows 11: not Windows 10, and at least 10.0.22000 by the description
    ensures r == Ok("11") <==> !(IsWindowsVersionAtLeast(p, parse, 10, 0, 10240, 0) == Ok(true)
                                 && Less(p.osVersion, RawVersion(10, 0, 20349, -1)))
                               && IsWindowsVersionAtLeast(p, parse, 10, 0, 22000, 0) == Ok(true)
    // a readable description that is neither is end-of-life
    ensures parse(WindowsVersionText(p)).Ok? ==> r in {Ok("10"), Ok("11"), Err(PlatformNotSupported(EndOfLife))}
    ensures r.Ok? ==> r.value in {"10", "11"}
  {
    var w :- parse(WindowsVersionText(p));
    var isWindows10 := AtLeast(w, RawVersion(10, 0, 10240, 0)) && Less(p.osVersion, RawVersion(10, 0, 20349, -1));
    var isWindows11 := AtLeast(w, RawVersion(10, 0, 22000, 0));
    if isWindows10 then Ok("10")
    else if isWindows11 then Ok("11")
    else Err(PlatformNotSupported(EndOfLife))
  }

  /** Where the parsed and the fallback version agree and are complete, this
      formatter agrees with the RID generator on Windows 10 and 11, and
      refuses the 8 and 8.1 that the generator still names. */
  lemma WindowsTokenAgainstGenerator(p: Probe, parse: Parser)
    requires IsWindows(p)
    requires parse(WindowsVersionText(p)) == Ok(p.osVersion)
    requires p.osVersion.build >= 0 && p.osVersion.revision >= 0
    ensures WindowsToken(p, parse).Ok? ==> WindowsToken(p, parse) == RuntimeIdentification.WindowsVersionToken(p.osVersion)
    ensures RuntimeIdentification.WindowsVersionToken(p.osVersion) in {Ok("8"), Ok("81")}
            ==> WindowsToken(p, parse) == Err(PlatformNotSupported(EndOfLife))
  {
    var v := p.osVersion;
    PaddedAgreesWhenComplete(v, 10, 0, 10240, 0);
    PaddedAgreesWhenComplete(v, 10, 0, 22000, 0);
  }

  /** The macOS part: below 10.13 fails; from 11 on the fallback major; in between "major.major". */
  function MacToken(p: Probe, parse: Parser): (r: Result<string, Error>)
    requires IsMacOS(p)
    ensures r.Ok? <==> IsMacOSVersionAtLeast(p, parse, 10, 13, 0) == Ok(true)
    ensures r.Ok? && IsMacOSVersionAtLeast(p, parse, 11, 0, 0) == Ok(true)
            ==> r.value == Strings.NatToString(p.osVersion.major)
    ensures r.Ok? && IsMacOSVersionAtLeast(p, parse, 11, 0, 0) != Ok(true)
            ==> r.value == Strings.NatToString(p.osVersion.major) + "." + Strings.NatToString(p.osVersion.major)
    // a failing first comparison passes its error on; below 10.13 the host is refused
    ensures IsMacOSVersionAtLeast(p, parse, 10, 13, 0).Err? ==> r == Err(IsMacOSVersionAtLeast(p, parse, 10, 13, 0).error)
    ensures IsMacOSVersionAtLeast(p, parse, 10, 13, 0) == Ok(false) ==> r == Err(PlatformNotSupported(Unspecified))
  {
    // once the first comparison has read the version, the second cannot fail
    var highSierra :- IsMacOSVersionAtLeast(p, parse, 10, 13, 0);
    if !highSierra then Err(PlatformNotSupported(Unspecified))
    else if IsMacOSVersionAtLeast(p, parse, 11, 0, 0) == Ok(true) then Ok(Strings.NatToString(p.osVersion.major))
    else Ok(Strings.NatToString(p.osVersion.major) + "." + Strings.NatToString(p.osVersion.major))
  }

  /** Where `sw_vers` reads back the fallback version and that version has a
      build, this formatter agrees with the RID generator: both give the
      major from 11 on and "10.10" from 10.13 up to 11. */
  lemma MacTokenAgainstGenerator(p: Probe, parse: Parser)
    requires IsMacOS(p)
    requires parse(MacVersionText(p)) == Ok(p.osVersion)
    requires p.osVersion.build >= 0
    ensures MacToken(p, parse) == RuntimeIdentification.MacVersionToken(p.osVersion)
  {
    var v := p.osVersion;
    assert AtLeast(v, RawVersion(10, 13, 0, -1)) <==> AtLeastPadded(v, 10, 13, 0, 0);
    assert AtLeast(v, RawVersion(11, 0, 0, -1)) <==> AtLeastPadded(v, 11, 0, 0, 0);
  }

  /** The platform snapshot the name lookup sees on this probe. */
  function PlatformsOf(rp: RuntimeProbe): (r: Platforms)
    // the polyfill's implications between predicates survive into the snapshot
    ensures r.iOS ==> r.watchOS && r.macCatalyst
    ensures r.macOS ==> r.macCatalyst
  {
    var p := rp.os;
    Platforms(
      windows := IsWindows(p), macOS := IsMacOS(p), linux := IsLinux(p), freeBSD := IsFreeBSD(p),
      android := IsAndroid(p), iOS := IsIOS(p), tvOS := IsTvOS(p), watchOS := IsWatchOS(p),
      tizen := rp.tizen, macCatalyst := IsMacCatalyst(p), browser := IsBrowser(p))
  }

  /** `GetRuntimeIdentifier`: "<generic name><version>-<arch>" on Windows,
      "<generic name>-<arch>" elsewhere. */
  function RuntimeIdentifier(rp: RuntimeProbe, parse: Parser): (r: Result<string, Error>)
    ensures r.Ok? ==> RuntimeIdentification.OsName(PlatformsOf(rp), [], RidTypes.Generic).Ok?
    ensures r.Ok? && !IsWindows(rp.os)
            ==> r.value == RuntimeIdentification.OsName(PlatformsOf(rp), [], RidTypes.Generic).value
                           + "-" + ArchitectureString(OsArchitecture(rp)).value
    ensures r.Ok? && IsWindows(rp.os)
            ==> OsVersionString(rp.os, parse).Ok?
                && r.value == RuntimeIdentification.OsName(PlatformsOf(rp), [], RidTypes.Generic).value
                           + OsVersionString(rp.os, parse).value + "-" + ArchitectureString(OsArchitecture(rp)).value
    // the architecture never fails: the detected value is always one of the four
    ensures r.Err? ==> RuntimeIdentification.OsName(PlatformsOf(rp), [], RidTypes.Generic).Err?
                       || (IsWindows(rp.os) && OsVersionString(rp.os, parse).Err?)
  {
    var name :- RuntimeIdentification.OsName(PlatformsOf(rp), [], RidTypes.Generic);
    var version :- if IsWindows(rp.os) then OsVersionString(rp.os, parse) else Ok("");
    match ArchitectureString(OsArchitecture(rp))
    case Err(e) => Err(e)
    case Ok(arch) => Ok(name + version + "-" + arch)
  }

  /** iOS implies watchOS and the name lookup lets watchOS win, so an iOS
      host off Linux is named "watchos". */
  lemma IOSHostIsNamedWatchOS(rp: RuntimeProbe)
    requires IsIOS(rp.os) && !IsLinux(rp.os)
    ensures RuntimeIdentification.OsName(PlatformsOf(rp), [], RidTypes.Generic) == Ok("watchos")
  {
  }

  /** Off Windows the identifier never fails on a named host, and never
      carries a version: the version fields of the probe do not matter. */
  lemma IdentifierOffWindows(rp: RuntimeProbe, parse: Parser)
    requires !IsWindows(rp.os)
    requires RuntimeIdentification.OsName(PlatformsOf(rp), [], RidTypes.Generic).Ok?
    ensures RuntimeIdentifier(rp, parse).Ok?
    ensures RuntimeIdentifier(rp, parse)
            == RuntimeIdentifier(rp.(os := rp.os.(osVersion := RawVersion(0, 0, -1, -1), swVers := "")), parse)
  {
    var rp2 := rp.(os := rp.os.(osVersion := RawVersion(0, 0, -1, -1), swVers := ""));
    SameHostShape(rp, rp2);
    IdentifierValueOffWindows(rp, parse);
    IdentifierValueOffWindows(rp2, parse);
  }

  /** Two snapshots that differ only in their version fields agree on the
      platform tests and the architecture. */
  lemma SameHostShape(rp: RuntimeProbe, rp2: RuntimeProbe)
    requires rp2 == rp.(os := rp.os.(osVersion := rp2.os.osVersion, swVers := rp2.os.swVers))
    ensures PlatformsOf(rp2) == PlatformsOf(rp)
    ensures OsArchitecture(rp2) == OsArchitecture(rp)
  {
  }

  /** Off Windows a named host's identifier is its name, a dash and its architecture. */
  lemma IdentifierValueOffWindows(rp: RuntimeProbe, parse: Parser)
    requires !IsWindows(rp.os)
    requires RuntimeIdentification.OsName(PlatformsOf(rp), [], RidTypes.Generic).Ok?
    ensures RuntimeIdentifier(rp, parse)
            == Ok(RuntimeIdentification.OsName(PlatformsOf(rp), [], RidTypes.Generic).value
                  + "-" + ArchitectureString(OsArchitecture(rp)).value)
  {
  }

  // ---------------------------------------------------------------- IsOSPlatform

  /** `IsOSPlatform(OSPlatform)`, the platform given by its name.
      `OSPlatform` equality ignores case; the other tests are substring
      tests on the lower-cased name. */
  function IsOSPlatform(p: Probe, platform: string): (r: bool)
    ensures r <==> || (IsWindows(p) && Strings.EqualsIgnoreCase(platform, "WINDOWS"))
                   || (IsLinux(p) && Strings.EqualsIgnoreCase(platform, "LINUX"))
                   || (IsMacOS(p) && Strings.EqualsIgnoreCase(platform, "OSX"))
                   || (Strings.Contains(Strings.ToLower(platform), "freebsd") && IsFreeBSD(p))
                   || (Strings.Contains(Strings.ToLower(platform), "android") && IsAndroid(p))
                   || (Strings.Contains(Strings.ToLower(platform), "ios") && IsIOS(p))
                   || (Strings.Contains(Strings.ToLower(platform), "tvos") && IsTvOS(p))
                   || (Strings.Contains(Strings.ToLower(platform), "watchos") && IsWatchOS(p))
                   || (Strings.Contains(Strings.ToLower(platform), "browser") && IsBrowser(p))
  {
    if (IsWindows(p) && Strings.EqualsIgnoreCase(platform, "WINDOWS"))
       || (IsLinux(p) && Strings.EqualsIgnoreCase(platform, "LINUX"))
       || (IsMacOS(p) && Strings.EqualsIgnoreCase(platform, "OSX")) then
      true
    else
      var name := Strings.ToLower(platform);
      if Strings.Contains(name, "freebsd") && IsFreeBSD(p) then true
      else if Strings.Contains(name, "android") && IsAndroid(p) then true
      else if Strings.Contains(name, "ios") && IsIOS(p) then true
      else if Strings.Contains(name, "tvos") && IsTvOS(p) then true
      else if Strings.Contains(name, "watchos") && IsWatchOS(p) then true
      else if Strings.Contains(name, "browser") && IsBrowser(p) then true
      else false
  }

  /** A Windows host answers true for "Windows" in any case, and the
      answer for a name never depends on the name's case. */
  lemma PlatformNamesIgnoreCase(p: Probe, a: string, b: string)
    requires Strings.ToLower(a) == Strings.ToLower(b)
    ensures IsOSPlatform(p, a) == IsOSPlatform(p, b)
    ensures IsWindows(p) ==> IsOSPlatform(p, "Windows") && IsOSPlatform(p, "windows")
  {
    CaseFoldsAgree(a, b);
    assert Strings.ToUpper("Windows") == "WINDOWS";
    assert Strings.ToUpper("windows") == "WINDOWS";
  }

  /** Strings with the same lower-cased form have the same upper-cased form. */
  lemma CaseFoldsAgree(a: string, b: string)
    requires Strings.ToLower(a) == Strings.ToLower(b)
    ensures Strings.ToUpper(a) == Strings.ToUpper(b)
  {
    assert |a| == |b|;
    forall i | 0 <= i < |a|
      ensures Strings.ToUpper(a)[i] == Strings.ToUpper(b)[i]
    {
      assert Strings.LowerChar(a[i]) == Strings.LowerChar(b[i]);
    }
  }

  /** Since every iOS host is also watchOS, an iOS host answers true for "watchOS". */
  lemma IOSHostIsWatchOSPlatform(p: Probe)
    requires IsIOS(p)
    ensures IsOSPlatform(p, "watchOS")
  {
    assert Strings.ToLower("watchOS") == "watchos";
    assert Strings.IsPrefix("watchos", "watchos");
    assert Strings.Contains("watchos", "watchos");
  }
}

=== FILE: strings.dfy ===
/** Ordinal string operations of .NET, on `seq<char>`.
    Case mapping covers ASCII letters only. */
module Strings {

  predicate IsPrefix(p: string, s: string) {
    |p| <= |s| && s[..|p|] == p
  }

  /** `s.Contains(sub)` with ordinal comparison. */
  predicate Contains(s: string, sub: string)
    decreases |s|
  {
    IsPrefix(sub, s) || (|s| > 0 && Contains(s[1..], sub))
  }

  function LowerChar(c: char): char {
    if 'A' <= c <= 'Z' then (c as int + 32) as char else c
  }

  function UpperChar(c: char): char {
    if 'a' <= c <= 'z' then (c as int - 32) as char else c
  }

  /** `s.ToLower()`. */
  function ToLower(s: string): (r: string)
    ensures |r| == |s|
    ensures forall i :: 0 <= i < |s| ==> r[i] == LowerChar(s[i])
  {
    seq(|s|, i requires 0 <= i < |s| => LowerChar(s[i]))
  }

  /** `s.ToUpper()`. */
  function ToUpper(s: string): (r: string)
    ensures |r| == |s|
    ensures forall i :: 0 <= i < |s| ==> r[i] == UpperChar(s[i])
  {
    seq(|s|, i requires 0 <= i < |s| => UpperChar(s[i]))
  }

  /** `s.Replace(pat, string.Empty)`: scans left to right and drops every
      non-overlapping occurrence of `pat`. */
  function RemoveAll(s: string, pat: string): (r: string)
    requires |pat| > 0
    ensures |r| <= |s|
    ensures !Contains(s, pat) ==> r == s
    decreases |s|
  {
    if |s| < |pat| then s
    else if IsPrefix(pat, s) then RemoveAll(s[|pat|..], pat)
    else [s[0]] + RemoveAll(s[1..], pat)
  }

  /** A string that starts with the pattern loses exactly that leading copy
      first, and the scan resumes right after it. */
  lemma RemoveAllLeading(pat: string, v: string)
    requires |pat| > 0
    ensures RemoveAll(pat + v, pat) == RemoveAll(v, pat)
  {
    assert (pat + v)[..|pat|] == pat;
    assert (pat + v)[|pat|..] == v;
  }

  /** Removing a one-character pattern leaves no copy of that character. */
  lemma {:induction false} RemoveAllCharGone(s: string, c: char)
    ensures forall i :: 0 <= i < |RemoveAll(s, [c])| ==> RemoveAll(s, [c])[i] != c
    decreases |s|
  {
    if |s| < 1 {
    } else if IsPrefix([c], s) {
      RemoveAllCharGone(s[1..], c);
    } else {
      RemoveAllCharGone(s[1..], c);
      var rest := RemoveAll(s[1..], [c]);
      assert RemoveAll(s, [c]) == [s[0]] + rest;
      assert s[0] != c;
    }
  }

  /** No character of `s` is `c`. */
  predicate Lacks(s: string, c: char) {
    forall i :: 0 <= i < |s| ==> s[i] != c
  }

  lemma LacksAppend(a: string, b: string, c: char)
    ensures Lacks(a + b, c) <==> Lacks(a, c) && Lacks(b, c)
  {
    if Lacks(a, c) && Lacks(b, c) {
      forall i | 0 <= i < |a + b|
        ensures (a + b)[i] != c
      {
        if i >= |a| {
          assert (a + b)[i] == b[i - |a|];
        }
      }
    }
    if Lacks(a + b, c) {
      forall i | 0 <= i < |a|
        ensures a[i] != c
      {
        assert (a + b)[i] == a[i];
      }
      forall i | 0 <= i < |b|
        ensures b[i] != c
      {
        assert (a + b)[|a| + i] == b[i];
      }
    }
  }

  /** The rest of a string lacks whatever the string lacks. */
  lemma LacksTail(s: string, c: char)
    requires |s| > 0 && Lacks(s, c)
    ensures s[0] != c && Lacks(s[1..], c)
  {
    forall i | 0 <= i < |s[1..]|
      ensures s[1..][i] != c
    {
      assert s[1..][i] == s[i + 1];
    }
  }

  /** `s` with every `c` dropped and its other characters kept in order,
      built from the end: the reference for removing a one-character pattern. */
  function Without(s: string, c: char): (r: string)
    ensures Lacks(r, c)
    ensures |r| <= |s|
    ensures Lacks(s, c) ==> r == s
    decreases |s|
  {
    if |s| == 0 then ""
    else
      var init := Without(s[..|s| - 1], c);
      if s[|s| - 1] == c then init
      else
        assert Lacks(s, c) ==> s == s[..|s| - 1] + [s[|s| - 1]];
        init + [s[|s| - 1]]
  }

  /** Dropping a character works part by part. */
  lemma {:induction false} WithoutAppend(a: string, b: string, c: char)
    ensures Without(a + b, c) == Without(a, c) + Without(b, c)
    decreases |b|
  {
    if |b| == 0 {
      assert a + b == a;
    } else {
      var b' := b[..|b| - 1];
      WithoutAppend(a, b', c);
      WithoutLast(a + b, c);
      WithoutLast(b, c);
      assert (a + b)[..|a + b| - 1] == a + b';
      assert (a + b)[|a + b| - 1] == b[|b| - 1];
    }
  }

  /** One step of `Without`, from the end. */
  lemma WithoutLast(s: string, c: char)
    requires |s| > 0
    ensures Without(s, c) == Without(s[..|s| - 1], c) + (if s[|s| - 1] == c then "" else [s[|s| - 1]])
  {
  }

  /** Removing a one-character pattern keeps exactly the other characters, in order. */
  lemma {:induction false} RemoveCharIsWithout(s: string, c: char)
    ensures RemoveAll(s, [c]) == Without(s, c)
    decreases |s|
  {
    if |s| > 0 {
      RemoveCharIsWithout(s[1..], c);
      WithoutFront(s, c);
      if s[0] == c {
        assert IsPrefix([c], s);
      } else {
        assert !IsPrefix([c], s);
      }
    }
  }

  /** Dropping a character other than the separator commutes with taking the first line. */
  lemma {:induction false} FirstLineWithout(s: string, c: char, sep: char)
    requires c != sep
    ensures FirstLine(Without(s, c), sep) == Without(FirstLine(s, sep), c)
    decreases |s|
  {
    if |s| == 0 {
      assert FirstLine(s, sep) == "";
    } else if s[0] == sep {
      FirstLineWithoutAtSep(s, c, sep);
    } else {
      var rest := s[1..];
      FirstLineWithout(rest, c, sep);
      FirstLineWithoutStep(s, c, sep);
    }
  }

  lemma FirstLineWithoutAtSep(s: string, c: char, sep: char)
    requires c != sep && |s| > 0 && s[0] == sep
    ensures FirstLine(Without(s, c), sep) == Without(FirstLine(s, sep), c)
  {
    WithoutFront(s, c);
    FirstLineCons(sep, Without(s[1..], c), sep);
    assert FirstLine(s, sep) == "";
  }

  lemma FirstLineWithoutStep(s: string, c: char, sep: char)
    requires c != sep && |s| > 0 && s[0] != sep
    requires FirstLine(Without(s[1..], c), sep) == Without(FirstLine(s[1..], sep), c)
    ensures FirstLine(Without(s, c), sep) == Without(FirstLine(s, sep), c)
  {
    var rest := s[1..];
    var line := FirstLine(rest, sep);
    WithoutFront(s, c);
    assert FirstLine(s, sep) == [s[0]] + line;
    WithoutFront([s[0]] + line, c);
    assert ([s[0]] + line)[1..] == line;
    if s[0] == c {
      assert Without(s, c) == Without(rest, c);
      assert Without([s[0]] + line, c) == Without(line, c);
    } else {
      assert Without(s, c) == [s[0]] + Without(rest, c);
      FirstLineCons(s[0], Without(rest, c), sep);
      assert Without([s[0]] + line, c) == [s[0]] + Without(line, c);
    }
  }

  /** The first line of a string that starts with `x`. */
  lemma FirstLineCons(x: char, t: string, sep: char)
    ensures FirstLine([x] + t, sep) == if x == sep then "" else [x] + FirstLine(t, sep)
  {
    assert ([x] + t)[0] == x && ([x] + t)[1..] == t;
  }

  /** `Without` seen from the front: the first character stays unless it is `c`. */
  lemma WithoutFront(s: string, c: char)
    requires |s| > 0
    ensures Without(s, c) == (if s[0] == c then "" else [s[0]]) + Without(s[1..], c)
  {
    WithoutAppend([s[0]], s[1..], c);
    assert [s[0]] + s[1..] == s;
    assert [s[0]][..0] == "";
  }

  /** Removing a pattern from `head + tail`, where `head` is free of the
      pattern's first character, keeps `head` in front. */
  lemma {:induction false} RemoveAllKeepsHead(head: string, tail: string, pat: string)
    requires |pat| > 0
    requires Lacks(head, pat[0])
    ensures RemoveAll(head + tail, pat) == head + RemoveAll(tail, pat)
    decreases |head|
  {
    if |head| > 0 {
      LacksTail(head, pat[0]);
      RemoveAllKeepsHead(head[1..], tail, pat);
      KeepFirst(head, tail, pat);
    } else {
      assert head + tail == tail;
    }
  }

  /** The step of `RemoveAllKeepsHead` and `RemoveAllKeepsHeadAfterFirst`:
      no copy starts at the front, and the rest already keeps its head. */
  lemma KeepFirst(head: string, tail: string, pat: string)
    requires |pat| > 0 && |head| > 0
    requires !IsPrefix(pat, head + tail)
    requires RemoveAll(head[1..] + tail, pat) == head[1..] + RemoveAll(tail, pat)
    ensures RemoveAll(head + tail, pat) == head + RemoveAll(tail, pat)
  {
    var s := head + tail;
    assert s[1..] == head[1..] + tail;
    RemoveAllStep(s, pat);
    assert head == [head[0]] + head[1..];
  }

  /** As `RemoveAllKeepsHead`, for a head whose first character may start
      the pattern as long as no copy starts there. */
  lemma RemoveAllKeepsHeadAfterFirst(head: string, tail: string, pat: string)
    requires |pat| > 0 && |head| > 0
    requires !IsPrefix(pat, head + tail)
    requires Lacks(head[1..], pat[0])
    ensures RemoveAll(head + tail, pat) == head + RemoveAll(tail, pat)
  {
    RemoveAllKeepsHead(head[1..], tail, pat);
    KeepFirst(head, tail, pat);
  }

  /** A string that does not start with the pattern keeps its first character. */
  lemma RemoveAllStep(s: string, pat: string)
    requires |pat| > 0 && |s| > 0 && !IsPrefix(pat, s)
    ensures RemoveAll(s, pat) == [s[0]] + RemoveAll(s[1..], pat)
  {
    if |s| < |pat| {
      assert RemoveAll(s[1..], pat) == s[1..];
      assert s == [s[0]] + s[1..];
    }
  }

  /** A string lacking the pattern's first character loses nothing. */
  lemma RemoveAllUnchanged(s: string, pat: string)
    requires |pat| > 0 && Lacks(s, pat[0])
    ensures RemoveAll(s, pat) == s
  {
    AbsentFirstChar(s, pat);
  }

  /** One copy of the pattern between two parts that lack its first
      character is exactly what goes. */
  lemma RemoveOneCopy(a: string, pat: string, b: string)
    requires |pat| > 0 && Lacks(a, pat[0]) && Lacks(b, pat[0])
    ensures RemoveAll(a + pat + b, pat) == a + b
  {
    assert a + pat + b == a + (pat + b);
    RemoveAllKeepsHead(a, pat + b, pat);
    RemoveAllLeading(pat, b);
    RemoveAllUnchanged(b, pat);
  }

  /** A pattern whose first character never occurs in `s` does not occur in `s`. */
  lemma {:induction false} AbsentFirstChar(s: string, pat: string)
    requires |pat| > 0
    requires forall i :: 0 <= i < |s| ==> s[i] != pat[0]
    ensures !Contains(s, pat)
    decreases |s|
  {
    if |s| > 0 {
      if |pat| <= |s| {
        assert s[..|pat|][0] == s[0];
      }
      AbsentFirstChar(s[1..], pat);
    }
  }

  /** Number of occurrences of `c` in `s`. */
  function CountChar(s: string, c: char): nat
    decreases |s|
  {
    if |s| == 0 then 0 else (if s[0] == c then 1 else 0) + CountChar(s[1..], c)
  }

  lemma {:induction false} CountCharAppend(a: string, b: string, c: char)
    ensures CountChar(a + b, c) == CountChar(a, c) + CountChar(b, c)
    decreases |a|
  {
    if |a| == 0 {
      assert a + b == b;
    } else {
      assert (a + b)[1..] == a[1..] + b;
      CountCharAppend(a[1..], b, c);
    }
  }

  /** The part of `s` before its first `sep`: `s.Split(sep)[0]`. */
  function FirstLine(s: string, sep: char): (r: string)
    ensures IsPrefix(r, s)
    ensures forall i :: 0 <= i < |r| ==> r[i] != sep
    ensures |r| == |s| || s[|r|] == sep
    decreases |s|
  {
    if |s| == 0 then ""
    else if s[0] == sep then ""
    else [s[0]] + FirstLine(s[1..], sep)
  }

  /** The first line of `head`, a separator and anything else is `head`. */
  lemma FirstLineOfJoin(head: string, tail: string, sep: char)
    requires Lacks(head, sep)
    ensures FirstLine(head + [sep] + tail, sep) == head
  {
    var s := head + [sep] + tail;
    assert s[..|head|] == head;
    FirstLineStopsAt(s, |head|, sep);
  }

  /** `s.Split(sep)`: the pieces between separators, in order. */
  function Split(s: string, sep: char): (r: seq<string>)
    ensures |r| >= 1
    ensures forall i :: 0 <= i < |r| ==> Lacks(r[i], sep)
    decreases |s|
  {
    var f := FirstLine(s, sep);
    if |f| == |s| then
      assert s[..|f|] == s;
      [s]
    else [f] + Split(s[|f| + 1..], sep)
  }

  /** A piece without the separator, the separator and the rest split into
      that piece followed by the pieces of the rest. */
  lemma SplitJoin(head: string, tail: string, sep: char)
    requires Lacks(head, sep)
    ensures Split(head + [sep] + tail, sep) == [head] + Split(tail, sep)
  {
    FirstLineOfJoin(head, tail, sep);
    assert (head + [sep] + tail)[|head| + 1..] == tail;
  }

  /** A string without the separator is a single piece. */
  lemma SplitWhole(s: string, sep: char)
    requires Lacks(s, sep)
    ensures Split(s, sep) == [s]
  {
  }

  /** Two, three and four separator-free pieces joined by the separator split back into themselves. */
  lemma SplitTwoPieces(x: string, y: string, sep: char)
    requires Lacks(x, sep) && Lacks(y, sep)
    ensures Split(x + [sep] + y, sep) == [x, y]
  {
    SplitWhole(y, sep);
    SplitJoin(x, y, sep);
  }

  lemma SplitThreePieces(x: string, y: string, z: string, sep: char)
    requires Lacks(x, sep) && Lacks(y, sep) && Lacks(z, sep)
    ensures Split(x + [sep] + (y + [sep] + z), sep) == [x, y, z]
  {
    SplitTwoPieces(y, z, sep);
    SplitJoin(x, y + [sep] + z, sep);
  }

  lemma SplitFourPieces(w: string, x: string, y: string, z: string, sep: char)
    requires Lacks(w, sep) && Lacks(x, sep) && Lacks(y, sep) && Lacks(z, sep)
    ensures Split(w + [sep] + (x + [sep] + (y + [sep] + z)), sep) == [w, x, y, z]
  {
    SplitThreePieces(x, y, z, sep);
    SplitJoin(w, x + [sep] + (y + [sep] + z), sep);
  }

  /** Four dot-free pieces joined by dots, as a version prints, split back into themselves. */
  lemma SplitDottedFour(w: string, x: string, y: string, z: string)
    requires Lacks(w, '.') && Lacks(x, '.') && Lacks(y, '.') && Lacks(z, '.')
    ensures Split(w + "." + x + ("." + y) + ("." + z), '.') == [w, x, y, z]
  {
    DottedFourRegrouped(w, x, y, z);
    SplitFourPieces(w, x, y, z, '.');
  }

  lemma DottedFourRegrouped(w: string, x: string, y: string, z: string)
    ensures w + "." + x + ("." + y) + ("." + z) == w + ['.'] + (x + ['.'] + (y + ['.'] + z))
  {
  }

  /** A digit string holds no dot. */
  lemma DigitsLackDot(s: string)
    requires AllDigits(s)
    ensures Lacks(s, '.')
  {
    forall i | 0 <= i < |s|
      ensures s[i] != '.'
    {
      assert IsDigit(s[i]);
    }
  }

  /** `FirstLine` stops at the first separator. */
  lemma {:induction false} FirstLineStopsAt(s: string, k: nat, sep: char)
    requires k < |s| && s[k] == sep
    requires forall i :: 0 <= i < k ==> s[i] != sep
    ensures FirstLine(s, sep) == s[..k]
    decreases k
  {
    if k > 0 {
      FirstLineStopsAt(s[1..], k - 1, sep);
      assert s[..k] == [s[0]] + s[1..][..k - 1];
    }
  }

  predicate IsDigit(c: char) {
    '0' <= c <= '9'
  }

  predicate AllDigits(s: string) {
    forall i :: 0 <= i < |s| ==> IsDigit(s[i])
  }

  function DigitChar(d: nat): (c: char)
    requires d < 10
    ensures IsDigit(c)
  {
    ('0' as int + d) as char
  }

  /** Decimal value of a digit string (the inverse of NatToString). */
  function DigitsValue(s: string): nat
    requires forall i :: 0 <= i < |s| ==> IsDigit(s[i])
    decreases |s|
  {
    if |s| == 0 then 0
    else
      assert IsDigit(s[|s| - 1]);
      DigitsValue(s[..|s| - 1]) * 10 + (s[|s| - 1] as int - '0' as int)
  }

  /** Decimal rendering of a natural number, as `int.ToString()` prints it. */
  function NatToString(n: nat): (r: string)
    ensures |r| >= 1
    ensures forall i :: 0 <= i < |r| ==> IsDigit(r[i])
    ensures |r| == 1 <==> n < 10
    decreases n
  {
    if n < 10 then [DigitChar(n)] else NatToString(n / 10) + [DigitChar(n % 10)]
  }

  /** Reading the digits back gives the number: the rendering loses nothing. */
  lemma {:induction false} NatToStringRoundTrip(n: nat)
    ensures DigitsValue(NatToString(n)) == n
    decreases n
  {
    if n >= 10 {
      NatToStringRoundTrip(n / 10);
      var s := NatToString(n);
      assert s[..|s| - 1] == NatToString(n / 10);
    }
  }

  /** Two numbers print the same exactly when they are equal. */
  lemma NatToStringInjective(m: nat, n: nat)
    ensures NatToString(m) == NatToString(n) <==> m == n
  {
    if NatToString(m) == NatToString(n) {
      NatToStringRoundTrip(m);
      NatToStringRoundTrip(n);
    }
  }

  /** `int.ToString()` for a possibly negative integer. */
  function IntToString(i: int): (r: string)
    ensures |r| >= 1
    ensures i < 0 <==> r[0] == '-'
    ensures forall k :: 0 <= k < |r| ==> r[k] != '.'
  {
    if i < 0 then "-" + NatToString(-i) else NatToString(i)
  }

  predicate IsSuffix(p: string, s: string) {
    |p| <= |s| && s[|s| - |p|..] == p
  }

  /** Case mapping works character by character, so it distributes over concatenation. */
  lemma ToLowerAppend(a: string, b: string)
    ensures ToLower(a + b) == ToLower(a) + ToLower(b)
  {
  }

  /** A character that cannot start `sub` adds no copy of it in front. */
  lemma ContainsAfterOther(c: char, s: string, sub: string)
    requires |sub| > 0 && sub[0] != c
    requires !Contains(s, sub)
    ensures !Contains([c] + s, sub)
  {
    assert ([c] + s)[1..] == s;
    if |sub| <= |[c] + s| {
      assert ([c] + s)[..|sub|][0] == c;
    }
  }

  /** A string built around `sub` contains it, wherever it sits. */
  lemma {:induction false} ContainsInfix(a: string, sub: string, b: string)
    ensures Contains(a + sub + b, sub)
    decreases |a|
  {
    if |a| == 0 {
      assert a + sub + b == sub + b;
      assert (sub + b)[..|sub|] == sub;
    } else {
      ContainsInfix(a[1..], sub, b);
      assert (a + sub + b)[1..] == a[1..] + sub + b;
    }
  }

  /** Joining with a separator that the left parts do not contain can be undone. */
  lemma {:induction false} SplitAtFirst(x: string, y: string, x': string, y': string, sep: char)
    requires forall i :: 0 <= i < |x| ==> x[i] != sep
    requires forall i :: 0 <= i < |x'| ==> x'[i] != sep
    requires x + [sep] + y == x' + [sep] + y'
    ensures x == x' && y == y'
    decreases |x|
  {
    if |x| == 0 || |x'| == 0 {
      assert (x + [sep] + y)[0] == (x' + [sep] + y')[0];
      assert |x| == 0 && |x'| == 0;
      assert y == (x + [sep] + y)[1..];
      assert y' == (x' + [sep] + y')[1..];
    } else {
      assert (x + [sep] + y)[0] == (x' + [sep] + y')[0];
      assert (x + [sep] + y)[1..] == x[1..] + [sep] + y;
      assert (x' + [sep] + y')[1..] == x'[1..] + [sep] + y';
      SplitAtFirst(x[1..], y, x'[1..], y', sep);
      assert x == [x[0]] + x[1..];
      assert x' == [x'[0]] + x'[1..];
    }
  }

  /** A word inside a string shows up in its lower-cased form, whatever its case and position. */
  lemma LowerContainsWord(pre: string, word: string, post: string)
    ensures Contains(ToLower(pre + word + post), ToLower(word))
  {
    ToLowerAppend(pre + word, post);
    ToLowerAppend(pre, word);
    ContainsInfix(ToLower(pre), ToLower(word), ToLower(post));
  }

  /** `string.Equals(a, b, StringComparison.OrdinalIgnoreCase)`. */
  predicate EqualsIgnoreCase(a: string, b: string) {
    ToUpper(a) == ToUpper(b)
  }
}

=== FILE: target_framework_identification.dfy ===
/** `TargetFrameworkIdentification`: classifies the running framework from
    its description and builds its Target Framework Moniker (TFM). The
    framework version is the already parsed one stored in the host
    snapshot. */
module TargetFrameworkIdentification {
  import opened Wrappers
  import opened Errors
  import opened Versions
  import opened Platform
  import Strings
  import RuntimeIdentification

  datatype TargetFrameworkType = DotNet | DotNetCore | DotNetFramework | Mono

  datatype TargetFrameworkMonikerType = Generic | OperatingSystemSpecific | OperatingSystemVersionSpecific

  // ---------------------------------------------------------------- classification

  /** `frameworkVersion.IsOlderThan(new Version(5, 0, 0))`, in `System.Version` order. */
  predicate OlderThanNet5(v: Version) {
    Less(v, RawVersion(5, 0, 0, -1))
  }

  /** `GetFrameworkType`: substring tests on the lower-cased description. */
  function FrameworkType(description: string, version: Version): (r: TargetFrameworkType)
    ensures r == Mono <==> Strings.Contains(Strings.ToLower(description), "mono")
    ensures r == DotNetFramework
            <==> !Strings.Contains(Strings.ToLower(description), "mono")
                 && (Strings.Contains(Strings.ToLower(description), "framework")
                     || (OlderThanNet5(version) && !Strings.Contains(Strings.ToLower(description), "core")))
    // "core" only decides once neither "mono" nor "framework" did; the age test cannot claim it
    ensures r == DotNetCore
            <==> !Strings.Contains(Strings.ToLower(description), "mono")
                 && !Strings.Contains(Strings.ToLower(description), "framework")
                 && Strings.Contains(Strings.ToLower(description), "core")
    ensures r == DotNet
            <==> !Strings.Contains(Strings.ToLower(description), "mono")
                 && !Strings.Contains(Strings.ToLower(description), "framework")
                 && !Strings.Contains(Strings.ToLower(description), "core")
                 && !OlderThanNet5(version)
  {
    var d := Strings.ToLower(description);
    if Strings.Contains(d, "mono") then Mono
    else if Strings.Contains(d, "framework")
            || (OlderThanNet5(version) && !Strings.Contains(d, "mono") && !Strings.Contains(d, "core")) then
      DotNetFramework
    else if Strings.Contains(d, "core") then DotNetCore
    else DotNet
  }

  /** "Mono" anywhere in the description makes it Mono, whatever the version. */
  lemma MonoAnywhere(pre: string, post: string, version: Version)
    ensures FrameworkType(pre + "Mono" + post, version) == Mono
  {
    Strings.LowerContainsWord(pre, "Mono", post);
    assert Strings.ToLower("Mono") == "mono";
  }

  /** Without "Mono", "Framework" anywhere makes it .NET Framework, whatever the version. */
  lemma FrameworkAnywhere(pre: string, post: string, version: Version)
    requires !Strings.Contains(Strings.ToLower(pre + "Framework" + post), "mono")
    ensures FrameworkType(pre + "Framework" + post, version) == DotNetFramework
  {
    Strings.LowerContainsWord(pre, "Framework", post);
    assert Strings.ToLower("Framework") == "framework";
  }

  /** For a description naming none of the three words, the version alone
      separates .NET Framework from .NET 5 and later. */
  lemma PlainDescriptionSplitsAtFive(description: string, version: Version)
    requires !Strings.Contains(Strings.ToLower(description), "mono")
    requires !Strings.Contains(Strings.ToLower(description), "framework")
    requires !Strings.Contains(Strings.ToLower(description), "core")
    ensures FrameworkType(description, version) == (if OlderThanNet5(version) then DotNetFramework else DotNet)
    ensures version.major > 5 ==> FrameworkType(description, version) == DotNet
    ensures version.major < 5 ==> FrameworkType(description, version) == DotNetFramework
    // "5.0" without a build sorts below 5.0.0, so it counts as .NET Framework
    ensures version == RawVersion(5, 0, -1, -1) ==> FrameworkType(description, version) == DotNetFramework
  {
  }

  /** The text `GetFrameworkVersion` hands to the version parser: the
      lower-cased description without ".net", "core", "framework", "mono",
      "xamarin" and spaces, in that order. */
  function FrameworkVersionText(description: string): (r: string)
    ensures forall i :: 0 <= i < |r| ==> r[i] != ' '
    ensures |r| <= |description|
  {
    var words := Strings.RemoveAll(Strings.RemoveAll(Strings.RemoveAll(Strings.RemoveAll(Strings.RemoveAll(
                   Strings.ToLower(description), ".net"), "core"), "framework"), "mono"), "xamarin");
    Strings.RemoveAllCharGone(words, ' ');
    Strings.RemoveAll(words, " ")
  }

  /** A description that names none of the words and has no spaces is
      passed on lower-cased and otherwise unchanged. */
  lemma BareVersionTextUnchanged(description: string)
    requires forall w :: w in [".net", "core", "framework", "mono", "xamarin", " "]
                         ==> !Strings.Contains(Strings.ToLower(description), w)
    ensures FrameworkVersionText(description) == Strings.ToLower(description)
  {
  }

  /** A description ".NET <v>" whose version part names none of the words
      reaches the parser as that part, lower-cased and without spaces. */
  lemma FrameworkVersionTextReadsBack(v: string)
    requires forall w :: w in [".net", "core", "framework", "mono", "xamarin"]
                         ==> !Strings.Contains(Strings.ToLower(v), w)
    ensures FrameworkVersionText(".NET " + v) == Strings.Without(Strings.ToLower(v), ' ')
  {
    var lv := Strings.ToLower(v);
    var t := " " + lv;
    Strings.ToLowerAppend(".NET ", v);
    assert Strings.ToLower(".NET ") == ".net ";
    assert ".net " + lv == ".net" + t;
    Strings.RemoveAllLeading(".net", t);
    WordStaysAbsent(lv, ".net");
    WordStaysAbsent(lv, "core");
    WordStaysAbsent(lv, "framework");
    WordStaysAbsent(lv, "mono");
    WordStaysAbsent(lv, "xamarin");
    assert " " == [' '];
    Strings.RemoveCharIsWithout(t, ' ');
    Strings.WithoutAppend(" ", lv, ' ');
    Strings.WithoutLast(" ", ' ');
  }

  /** One removal step of `FrameworkVersionTextReadsBack`: a word absent from
      the version part is absent after the leading space too. */
  lemma WordStaysAbsent(lv: string, word: string)
    requires |word| > 0 && word[0] != ' '
    requires !Strings.Contains(lv, word)
    ensures Strings.RemoveAll(" " + lv, word) == " " + lv
  {
    Strings.ContainsAfterOther(' ', lv, word);
  }

  // ---------------------------------------------------------------- monikers per framework

  /** How a reader takes "<prefix><digits>.<digits>" apart: the digits up to
      the first dot read as `major`, those after it as `minor`. */
  predicate ReadsAs(s: string, prefix: string, major: nat, minor: nat) {
    && Strings.IsPrefix(prefix, s)
    && (var body := s[|prefix|..];
        var m := Strings.FirstLine(body, '.');
        && 0 < |m| < |body| - 1
        && Strings.AllDigits(m) && Strings.DigitsValue(m) == major
        && Strings.AllDigits(body[|m| + 1..]) && Strings.DigitsValue(body[|m| + 1..]) == minor)
  }

  /** "<prefix><major>.<minor>", the shape of the .NET and .NET Core monikers. */
  function Dotted(prefix: string, v: Version): (r: string)
    ensures ReadsAs(r, prefix, v.major, v.minor)
  {
    DottedReadsBack(prefix, v.major, v.minor);
    prefix + Strings.NatToString(v.major) + "." + Strings.NatToString(v.minor)
  }

  /** Printing major and minor around a dot and reading them back gives both. */
  lemma DottedReadsBack(prefix: string, major: nat, minor: nat)
    ensures ReadsAs(prefix + Strings.NatToString(major) + "." + Strings.NatToString(minor), prefix, major, minor)
  {
    Strings.NatToStringRoundTrip(major);
    Strings.NatToStringRoundTrip(minor);
    DigitRunsReadBack(prefix, Strings.NatToString(major), Strings.NatToString(minor));
  }

  /** Two non-empty digit runs around a dot read back as their values. */
  lemma DigitRunsReadBack(prefix: string, ma: string, mi: string)
    requires 0 < |ma| && 0 < |mi| && Strings.AllDigits(ma) && Strings.AllDigits(mi)
    ensures ReadsAs(prefix + ma + "." + mi, prefix, Strings.DigitsValue(ma), Strings.DigitsValue(mi))
  {
    var s := prefix + ma + "." + mi;
    var body := ma + ['.'] + mi;
    assert s == prefix + body;
    assert s[|prefix|..] == body;
    assert Strings.Lacks(ma, '.') by {
      forall i | 0 <= i < |ma|
        ensures ma[i] != '.'
      {
        assert Strings.IsDigit(ma[i]);
      }
    }
    Strings.FirstLineOfJoin(ma, mi, '.');
    assert body[|ma| + 1..] == mi;
  }

  /** The dotted moniker names major and minor exactly: two versions share
      it precisely when they agree on both. */
  lemma DottedDeterminesMajorMinor(prefix: string, a: Version, b: Version)
    ensures Dotted(prefix, a) == Dotted(prefix, b) <==> a.major == b.major && a.minor == b.minor
  {
    var ma, na := Strings.NatToString(a.major), Strings.NatToString(a.minor);
    var mb, nb := Strings.NatToString(b.major), Strings.NatToString(b.minor);
    if Dotted(prefix, a) == Dotted(prefix, b) {
      assert prefix + (ma + "." + na) == Dotted(prefix, a);
      assert prefix + (mb + "." + nb) == Dotted(prefix, b);
      assert ma + "." + na == (prefix + (ma + "." + na))[|prefix|..];
      assert mb + "." + nb == (prefix + (mb + "." + nb))[|prefix|..];
      Strings.SplitAtFirst(ma, na, mb, nb, '.');
      Strings.NatToStringInjective(a.major, b.major);
      Strings.NatToStringInjective(a.minor, b.minor);
    }
  }

  /** `GetNetTFM`: "net<major>.<minor>". */
  function NetTfm(v: Version): (r: string)
    ensures ReadsAs(r, "net", v.major, v.minor)
    ensures IsDigitAt(r, 3)
  {
    Dotted("net", v)
  }

  /** `GetNetCoreTFM`: "netcoreapp<major>.<minor>". */
  function NetCoreTfm(v: Version): (r: string)
    ensures ReadsAs(r, "netcoreapp", v.major, v.minor)
  {
    Dotted("netcoreapp", v)
  }

  predicate IsDigitAt(s: string, i: nat) {
    i < |s| && Strings.IsDigit(s[i])
  }

  /** A .NET moniker never equals a .NET Core one: the fourth character is a
      digit in one and 'c' in the other. */
  lemma NetAndNetCoreDiffer(a: Version, b: Version)
    ensures NetTfm(a) != NetCoreTfm(b)
  {
    assert NetCoreTfm(b)[..10] == "netcoreapp";
    assert NetCoreTfm(b)[3] == "netcoreapp"[3] == 'c';
  }

  /** `GetNetFrameworkTFM`: major, minor and (unless it is 0) build, with
      no separator and no "net" prefix. An undefined build (-1) prints as "-1". */
  function NetFrameworkTfm(v: Version): (r: string)
    ensures Strings.IsPrefix(Strings.NatToString(v.major) + Strings.NatToString(v.minor), r)
    ensures v.build == 0 ==> r == Strings.NatToString(v.major) + Strings.NatToString(v.minor)
    ensures v.build >= 0 ==> forall i :: 0 <= i < |r| ==> Strings.IsDigit(r[i])
    ensures v.build == -1 ==> Strings.IsSuffix("-1", r)
    ensures forall i :: 0 <= i < |r| ==> r[i] != '.'
    // what follows major and minor is the build, read back as a number
    ensures var mm := Strings.NatToString(v.major) + Strings.NatToString(v.minor);
            v.build > 0 ==> |r| > |mm| && Strings.AllDigits(r[|mm|..]) && Strings.DigitsValue(r[|mm|..]) == v.build
    ensures var mm := Strings.NatToString(v.major) + Strings.NatToString(v.minor);
            v.build == -1 ==> r[|mm|..] == "-1"
  {
    var mm := Strings.NatToString(v.major) + Strings.NatToString(v.minor);
    if v.build != 0 then
      assert v.build == -1 ==> Strings.IntToString(v.build) == "-1";
      BuildReadsBack(mm, v.build);
      mm + Strings.IntToString(v.build)
    else mm
  }

  /** The build appended after major and minor reads back as itself. */
  lemma BuildReadsBack(mm: string, build: int)
    ensures (mm + Strings.IntToString(build))[|mm|..] == Strings.IntToString(build)
    ensures build > 0 ==> Strings.DigitsValue((mm + Strings.IntToString(build))[|mm|..]) == build
  {
    if build > 0 {
      Strings.NatToStringRoundTrip(build);
    }
  }

  /** Monikers of some released frameworks. The .NET Framework one has no
      "net" in front and keeps a non-zero build. */
  lemma MonikerExamples()
    ensures NetTfm(RawVersion(8, 0, -1, -1)) == "net8.0"
    ensures NetCoreTfm(RawVersion(3, 1, -1, -1)) == "netcoreapp3.1"
    ensures NetFrameworkTfm(RawVersion(4, 7, 2, -1)) == "472"
    ensures NetFrameworkTfm(RawVersion(4, 8, 0, -1)) == "48"
  {
    assert Strings.NatToString(8) == "8" && Strings.NatToString(0) == "0";
    assert Strings.NatToString(3) == "3" && Strings.NatToString(1) == "1";
    assert Strings.NatToString(4) == "4" && Strings.NatToString(7) == "7" && Strings.NatToString(2) == "2";
    assert Strings.IntToString(2) == "2";
  }

  /** Without separators the framework moniker is ambiguous: 1.11 and 11.1 share one. */
  lemma NetFrameworkTfmAmbiguous()
    ensures NetFrameworkTfm(RawVersion(1, 11, 0, -1)) == NetFrameworkTfm(RawVersion(11, 1, 0, -1))
  {
    assert Strings.NatToString(11) == "11";
    assert Strings.NatToString(1) == "1";
  }

  /** `GetMonoTFM`: "mono", then "-android" on Android, else "-ios" on iOS. */
  function MonoTfm(os: Platforms): (r: string)
    ensures Strings.IsPrefix("mono", r)
    ensures r == "mono-android" <==> os.android
    ensures r == "mono-ios" <==> !os.android && os.iOS
    ensures r == "mono" <==> !os.android && !os.iOS
  {
    if os.android then "mono-android"
    else if os.iOS then "mono-ios"
    else "mono"
  }

  // ---------------------------------------------------------------- OS suffix

  /** The platforms the suffix chain tests, in the order it tests them. */
  datatype SuffixPlatform = MacOS | MacCatalyst | Windows | LinuxOrFreeBSD | Android | IOS | TvOS | WatchOS | Tizen

  const SuffixOrder: seq<SuffixPlatform> :=
    [MacOS, MacCatalyst, Windows, LinuxOrFreeBSD, Android, IOS, TvOS, WatchOS, Tizen]

  predicate Holds(os: Platforms, p: SuffixPlatform) {
    match p
    case MacOS => os.macOS
    case MacCatalyst => os.macCatalyst
    case Windows => os.windows
    case LinuxOrFreeBSD => os.linux || os.freeBSD
    case Android => os.android
    case IOS => os.iOS
    case TvOS => os.tvOS
    case WatchOS => os.watchOS
    case Tizen => os.tizen
  }

  /** What a platform contributes when no version is asked for: Linux and
      FreeBSD have no OS-specific moniker. */
  function Label(p: SuffixPlatform): string {
    match p
    case MacOS => "-macos"
    case MacCatalyst => "-maccatalyst"
    case Windows => "-windows"
    case LinuxOrFreeBSD => ""
    case Android => "-android"
    case IOS => "-ios"
    case TvOS => "-tvos"
    case WatchOS => "-watchos"
    case Tizen => "-tizen"
  }

  /** The platform at index `i` is the first in test order that holds. Unlike
      the RID name, the FIRST match decides here. */
  predicate IsFirstMatch(os: Platforms, i: nat) {
    && i < |SuffixOrder|
    && Holds(os, SuffixOrder[i])
    && forall j :: 0 <= j < i ==> !Holds(os, SuffixOrder[j])
  }

  /** The `if`/`else if` chain of `GetOsSpecificNetTFM`. */
  function PlatformSuffix(h: Host, kind: TargetFrameworkMonikerType): (r: Result<string, Error>)
    ensures r.Ok? ==> r.value == "" || r.value[0] == '-'
    // only the version-specific kind can fail, and only on macOS or Windows
    ensures r.Err? ==> kind == OperatingSystemVersionSpecific && (IsFirstMatch(h.os, 0) || IsFirstMatch(h.os, 2))
  {
    var os := h.os;
    if os.macOS then
      if kind == OperatingSystemVersionSpecific then
        var token :- RuntimeIdentification.OsVersionToken(h);
        Ok("-macos" + "." + token)
      else Ok("-macos")
    else if os.macCatalyst then Ok("-maccatalyst")
    else if os.windows then
      if kind == OperatingSystemVersionSpecific then
        var v := h.osVersion;
        if AtLeastPadded(v, 6, 2, 9200, 0) || AtLeastPadded(v, 6, 3, 9600, 0) then
          var token :- RuntimeIdentification.OsVersionToken(h);
          Ok("-windows" + token)
        else if AtLeastPadded(v, 10, 0, 14393, 0) then
          Ok("-windows" + ToString(v))
        else Err(PlatformNotSupported(Unspecified))
      else Ok("-windows")
    else if os.linux || os.freeBSD then Ok("")
    else if os.android then Ok("-android")
    else if os.iOS then Ok("-ios")
    else if os.tvOS then Ok("-tvos")
    else if os.watchOS then Ok("-watchos")
    else if os.tizen then Ok("-tizen")
    else Ok("")
  }

  /** Without a version, the suffix is the label of the first platform that
      holds: the chain agrees with the ordered table. */
  lemma {:induction false} SuffixIsFirstMatchLabel(h: Host, kind: TargetFrameworkMonikerType, i: nat)
    requires kind != OperatingSystemVersionSpecific
    requires IsFirstMatch(h.os, i)
    ensures PlatformSuffix(h, kind) == Ok(Label(SuffixOrder[i]))
  {
    var os := h.os;
    if i > 0 { assert !Holds(os, SuffixOrder[0]); }
    if i > 1 { assert !Holds(os, SuffixOrder[1]); }
    if i > 2 { assert !Holds(os, SuffixOrder[2]); }
    if i > 3 { assert !Holds(os, SuffixOrder[3]); }
    if i > 4 { assert !Holds(os, SuffixOrder[4]); }
    if i > 5 { assert !Holds(os, SuffixOrder[5]); }
    if i > 6 { assert !Holds(os, SuffixOrder[6]); }
    if i > 7 { assert !Holds(os, SuffixOrder[7]); }
  }

  /** A host that matches none of the chain's platforms gets no suffix. */
  lemma NoPlatformNoSuffix(h: Host, kind: TargetFrameworkMonikerType)
    requires forall p :: !Holds(h.os, p)
    ensures PlatformSuffix(h, kind) == Ok("")
  {
    assert !Holds(h.os, MacOS) && !Holds(h.os, MacCatalyst) && !Holds(h.os, Windows);
    assert !Holds(h.os, LinuxOrFreeBSD) && !Holds(h.os, Android) && !Holds(h.os, IOS);
    assert !Holds(h.os, TvOS) && !Holds(h.os, WatchOS) && !Holds(h.os, Tizen);
  }

  /** With a version, every platform but macOS and Windows still gets its plain label. */
  lemma {:induction false} VersionSuffixOffMacAndWindows(h: Host, i: nat)
    requires IsFirstMatch(h.os, i) && i != 0 && i != 2
    ensures PlatformSuffix(h, OperatingSystemVersionSpecific) == Ok(Label(SuffixOrder[i]))
  {
    var os := h.os;
    assert !Holds(os, SuffixOrder[0]);
    if i > 1 { assert !Holds(os, SuffixOrder[1]); }
    if i > 2 { assert !Holds(os, SuffixOrder[2]); }
    if i > 3 { assert !Holds(os, SuffixOrder[3]); }
    if i > 4 { assert !Holds(os, SuffixOrder[4]); }
    if i > 5 { assert !Holds(os, SuffixOrder[5]); }
    if i > 6 { assert !Holds(os, SuffixOrder[6]); }
    if i > 7 { assert !Holds(os, SuffixOrder[7]); }
  }

  /** macOS appends "." and the RID version string, and fails when that does. */
  lemma MacVersionSuffix(h: Host)
    requires h.os.macOS
    ensures PlatformSuffix(h, OperatingSystemVersionSpecific).Ok? <==> RuntimeIdentification.OsVersionToken(h).Ok?
    ensures PlatformSuffix(h, OperatingSystemVersionSpecific).Ok?
            ==> PlatformSuffix(h, OperatingSystemVersionSpecific).value
                == "-macos." + RuntimeIdentification.OsVersionToken(h).value
  {
  }

  /** The "at least 10.0.14393" branch is dead: any such version is already
      at least 6.2.9200, so Windows always takes the RID version string. */
  lemma FullWindowsVersionBranchUnreachable(v: Version)
    ensures AtLeastPadded(v, 10, 0, 14393, 0) ==> AtLeastPadded(v, 6, 2, 9200, 0)
  {
  }

  /** Windows below 6.2.9200 has no versioned suffix; from there on the
      suffix is "-windows" and the RID version string, with no separator. */
  lemma WindowsVersionSuffix(h: Host)
    requires !h.os.macOS && !h.os.macCatalyst && h.os.windows
    ensures !AtLeastPadded(h.osVersion, 6, 2, 9200, 0)
            ==> PlatformSuffix(h, OperatingSystemVersionSpecific) == Err(PlatformNotSupported(Unspecified))
    ensures AtLeastPadded(h.osVersion, 6, 2, 9200, 0)
            ==> (PlatformSuffix(h, OperatingSystemVersionSpecific).Ok? <==> RuntimeIdentification.OsVersionToken(h).Ok?)
    ensures AtLeastPadded(h.osVersion, 6, 2, 9200, 0) && PlatformSuffix(h, OperatingSystemVersionSpecific).Ok?
            ==> PlatformSuffix(h, OperatingSystemVersionSpecific).value
                == "-windows" + RuntimeIdentification.OsVersionToken(h).value
  {
    FullWindowsVersionBranchUnreachable(h.osVersion);
  }

  /** "-browser" is owed when the framework is 8 or later on a browser host. */
  predicate BrowserApplies(h: Host) {
    h.frameworkVersion.major >= 8 && h.os.browser
  }

  /** `GetOsSpecificNetTFM`: the chain, then "-browser" outside it. */
  function OsSpecificSuffix(h: Host, kind: TargetFrameworkMonikerType): (r: Result<string, Error>)
    ensures r.Ok? <==> PlatformSuffix(h, kind).Ok?
    ensures r.Err? ==> r == PlatformSuffix(h, kind)
    ensures r.Ok? ==> r.value == "" || r.value[0] == '-'
    ensures r.Ok? && BrowserApplies(h) ==> r.value == PlatformSuffix(h, kind).value + "-browser"
    ensures r.Ok? && !BrowserApplies(h) ==> r == PlatformSuffix(h, kind)
  {
    var chain :- PlatformSuffix(h, kind);
    if BrowserApplies(h) then Ok(chain + "-browser") else Ok(chain)
  }

  /** Below version-specific monikers the operating system version is never consulted. */
  lemma SuffixIgnoresOsVersion(h1: Host, h2: Host, kind: TargetFrameworkMonikerType)
    requires kind != OperatingSystemVersionSpecific
    requires h1.os == h2.os && h1.frameworkVersion.major == h2.frameworkVersion.major
    ensures OsSpecificSuffix(h1, kind) == OsSpecificSuffix(h2, kind)
  {
  }

  // ---------------------------------------------------------------- the moniker

  /** `GetTargetFrameworkMoniker`. */
  function TargetFrameworkMoniker(h: Host, kind: TargetFrameworkMonikerType): (r: Result<string, Error>)
    // only a version-specific moniker of .NET 5 or later can fail
    ensures r.Err? ==> kind == OperatingSystemVersionSpecific
                       && FrameworkType(h.frameworkDescription, h.frameworkVersion) == DotNet
    ensures kind == Generic && FrameworkType(h.frameworkDescription, h.frameworkVersion) == DotNet
            ==> r == Ok(NetTfm(h.frameworkVersion))
    ensures FrameworkType(h.frameworkDescription, h.frameworkVersion) == DotNetCore
            ==> r == Ok(NetCoreTfm(h.frameworkVersion))
    ensures FrameworkType(h.frameworkDescription, h.frameworkVersion) == DotNetFramework
            ==> r == Ok(NetFrameworkTfm(h.frameworkVersion))
    ensures FrameworkType(h.frameworkDescription, h.frameworkVersion) == Mono
            ==> r == Ok(MonoTfm(h.os))
    ensures kind != Generic && FrameworkType(h.frameworkDescription, h.frameworkVersion) == DotNet
            ==> r == OsSpecificSuffix(h, kind)
  {
    match FrameworkType(h.frameworkDescription, h.frameworkVersion)
    case DotNetCore => Ok(NetCoreTfm(h.frameworkVersion))
    case Mono => Ok(MonoTfm(h.os))
    case DotNetFramework => Ok(NetFrameworkTfm(h.frameworkVersion))
    case DotNet =>
      if kind == OperatingSystemSpecific || kind == OperatingSystemVersionSpecific then
        OsSpecificSuffix(h, kind)
      else
        assert kind.Generic?;
        Ok(NetTfm(h.frameworkVersion))
  }

  /** Only .NET 5 and later look at the moniker kind. */
  lemma KindMattersOnlyForDotNet(h: Host, k1: TargetFrameworkMonikerType, k2: TargetFrameworkMonikerType)
    requires FrameworkType(h.frameworkDescription, h.frameworkVersion) != DotNet
    ensures TargetFrameworkMoniker(h, k1) == TargetFrameworkMoniker(h, k2)
  {
  }

  /** As written, an OS-specific .NET moniker is the suffix alone, built in an
      empty buffer: it never starts with "net". */
  lemma OsSpecificMonikerHasNoBase(h: Host, kind: TargetFrameworkMonikerType)
    requires kind != Generic
    requires FrameworkType(h.frameworkDescription, h.frameworkVersion) == DotNet
    ensures TargetFrameworkMoniker(h, kind) == OsSpecificSuffix(h, kind)
    ensures TargetFrameworkMoniker(h, kind).Ok? ==> !Strings.IsPrefix("net", TargetFrameworkMoniker(h, kind).value)
    ensures kind == OperatingSystemSpecific ==> TargetFrameworkMoniker(h, kind).Ok?
  {
    var r := TargetFrameworkMoniker(h, kind);
    if r.Ok? && |r.value| >= 3 {
      assert r.value[0] == '-';
      assert r.value[..3][0] == '-';
    }
  }

  /** The OS-specific .NET moniker read off the ordered platform table: the
      label of the first platform that holds, then "-browser" when owed. */
  lemma OsSpecificMonikerIsFirstMatchLabel(h: Host, i: nat)
    requires FrameworkType(h.frameworkDescription, h.frameworkVersion) == DotNet
    requires IsFirstMatch(h.os, i)
    ensures TargetFrameworkMoniker(h, OperatingSystemSpecific)
            == Ok(Label(SuffixOrder[i]) + (if BrowserApplies(h) then "-browser" else ""))
  {
    SuffixIsFirstMatchLabel(h, OperatingSystemSpecific, i);
    assert Label(SuffixOrder[i]) + "" == Label(SuffixOrder[i]);
  }
}

=== FILE: versions.dfy ===
/** `System.Version`: four integer components, where an omitted build or
    revision is stored as -1. */
module Versions {
  import opened Wrappers
  import opened Errors
  import Strings

  datatype RawVersion = RawVersion(major: int, minor: int, build: int, revision: int)

  /** What every `System.Version` value satisfies: major and minor are always
      present, and a revision is only present when a build is. */
  predicate WellFormed(v: RawVersion) {
    && v.major >= 0
    && v.minor >= 0
    && v.build >= -1
    && v.revision >= -1
    && (v.build == -1 ==> v.revision == -1)
  }

  type Version = v: RawVersion | WellFormed(v) witness RawVersion(0, 0, -1, -1)

  /** `new Version(major, minor, build, revision)`. */
  function Make4(major: int, minor: int, build: int, revision: int): (r: Result<Version, Error>)
    ensures r.Ok? <==> major >= 0 && minor >= 0 && build >= 0 && revision >= 0
    ensures r.Ok? ==> r.value == RawVersion(major, minor, build, revision)
    ensures r.Err? ==> r.error == ArgumentOutOfRange
  {
    if major < 0 || minor < 0 || build < 0 || revision < 0 then Err(ArgumentOutOfRange)
    else Ok(RawVersion(major, minor, build, revision))
  }

  /** `new Version(major, minor, build)`: the revision is left undefined. */
  function Make3(major: int, minor: int, build: int): (r: Result<Version, Error>)
    ensures r.Ok? <==> major >= 0 && minor >= 0 && build >= 0
    ensures r.Ok? ==> r.value == RawVersion(major, minor, build, -1)
    ensures r.Err? ==> r.error == ArgumentOutOfRange
  {
    if major < 0 || minor < 0 || build < 0 then Err(ArgumentOutOfRange)
    else Ok(RawVersion(major, minor, build, -1))
  }

  /** `Version.CompareTo` order: lexicographic on the four stored integers,
      so an omitted component (-1) sorts below every present one. */
  predicate Less(a: RawVersion, b: RawVersion) {
    || a.major < b.major
    || (a.major == b.major && a.minor < b.minor)
    || (a.major == b.major && a.minor == b.minor && a.build < b.build)
    || (a.major == b.major && a.minor == b.minor && a.build == b.build && a.revision < b.revision)
  }

  /** `a >= b` on `System.Version`. */
  predicate AtLeast(a: RawVersion, b: RawVersion) {
    !Less(a, b)
  }

  /** `Less` is a strict total order, so `AtLeast` is a total preorder that
      agrees with equality. */
  lemma LessIsStrictTotalOrder(a: RawVersion, b: RawVersion, c: RawVersion)
    ensures !Less(a, a)
    ensures Less(a, b) ==> !Less(b, a)
    ensures Less(a, b) && Less(b, c) ==> Less(a, c)
    ensures Less(a, b) || a == b || Less(b, a)
  {
  }

  /** The runtime library's `OperatingSystem.Is*VersionAtLeast` comparison:
      major and minor compare as stored; a missing build or revision, on
      either side, counts as zero. */
  predicate AtLeastPadded(current: RawVersion, major: int, minor: int, build: int, revision: int) {
    var cb := if current.build < 0 then 0 else current.build;
    var cr := if current.revision < 0 then 0 else current.revision;
    var b := if build < 0 then 0 else build;
    var rv := if revision < 0 then 0 else revision;
    if current.major != major then current.major > major
    else if current.minor != minor then current.minor > minor
    else if cb != b then cb > b
    else cr >= rv
  }

  /** The two comparisons agree whenever nothing is omitted. */
  lemma PaddedAgreesWhenComplete(v: Version, major: nat, minor: nat, build: nat, revision: nat)
    requires v.build >= 0 && v.revision >= 0
    ensures AtLeastPadded(v, major, minor, build, revision)
            <==> AtLeast(v, RawVersion(major, minor, build, revision))
  {
  }

  /** Where they differ: an omitted component is below 0 for `Version`, equal to 0 for the padded test. */
  lemma PaddedDiffersOnOmittedBuild(major: nat, minor: nat)
    ensures AtLeastPadded(RawVersion(major, minor, -1, -1), major, minor, 0, 0)
    ensures !AtLeast(RawVersion(major, minor, -1, -1), RawVersion(major, minor, 0, 0))
  {
  }

  /** Number of components `ToString` prints. */
  function FieldCount(v: Version): nat {
    if v.build == -1 then 2 else if v.revision == -1 then 3 else 4
  }

  /** "major.minor", the first two fields of every rendering. */
  function MajorMinor(v: Version): string {
    Strings.NatToString(v.major) + "." + Strings.NatToString(v.minor)
  }

  /** The defined components of a version, in order. */
  function Components(v: Version): (r: seq<nat>)
    ensures |r| == FieldCount(v)
  {
    [v.major, v.minor] + (if v.build == -1 then [] else [v.build])
                       + (if v.revision == -1 then [] else [v.revision])
  }

  /** `Version.ToString()`: the defined components joined by dots. */
  function ToString(v: Version): (r: string)
    ensures Strings.CountChar(r, '.') == FieldCount(v) - 1
    ensures Strings.IsPrefix(MajorMinor(v), r)
    ensures |r| == |MajorMinor(v)|
                   + (if v.build == -1 then 0 else 1 + |Strings.NatToString(v.build)|)
                   + (if v.revision == -1 then 0 else 1 + |Strings.NatToString(v.revision)|)
    // split at the dots, as `Version.Parse` reads it, the pieces are the
    // renderings of the defined components
    ensures Strings.Split(r, '.') == Renderings(Components(v))
  {
    SplitsIntoComponents(v);
    var mm := MajorMinor(v);
    NoDots(Strings.NatToString(v.major));
    NoDots(Strings.NatToString(v.minor));
    Strings.CountCharAppend(Strings.NatToString(v.major), ".", '.');
    Strings.CountCharAppend(Strings.NatToString(v.major) + ".", Strings.NatToString(v.minor), '.');
    if v.build == -1 then
      mm
    else
      var b := "." + Strings.NatToString(v.build);
      NoDots(Strings.NatToString(v.build));
      Strings.CountCharAppend(".", Strings.NatToString(v.build), '.');
      Strings.CountCharAppend(mm, b, '.');
      if v.revision == -1 then
        assert (mm + b)[..|mm|] == mm;
        mm + b
      else
        var rv := "." + Strings.NatToString(v.revision);
        NoDots(Strings.NatToString(v.revision));
        Strings.CountCharAppend(".", Strings.NatToString(v.revision), '.');
        Strings.CountCharAppend(mm + b, rv, '.');
        assert (mm + b + rv)[..|mm|] == mm;
        mm + b + rv
  }

  /** The decimal rendering of each number. */
  function Renderings(ns: seq<nat>): (r: seq<string>)
    ensures |r| == |ns|
  {
    seq(|ns|, i requires 0 <= i < |ns| => Strings.NatToString(ns[i]))
  }

  /** Every rendering is a digit string that reads back as its number. */
  lemma RenderingsReadBack(ns: seq<nat>)
    ensures forall i :: 0 <= i < |ns| ==> Strings.AllDigits(Renderings(ns)[i])
                                          && Strings.DigitsValue(Renderings(ns)[i]) == ns[i]
  {
    forall i | 0 <= i < |ns|
      ensures Strings.DigitsValue(Renderings(ns)[i]) == ns[i]
    {
      Strings.NatToStringRoundTrip(ns[i]);
    }
  }

  /** Split at the dots, `Version.ToString()` gives back each defined
      component's digits, and those digits read back as the component. */
  lemma ToStringReadsBack(v: Version)
    ensures |Strings.Split(ToString(v), '.')| == FieldCount(v)
    ensures forall i :: 0 <= i < FieldCount(v)
                        ==> Strings.AllDigits(Strings.Split(ToString(v), '.')[i])
                            && Strings.DigitsValue(Strings.Split(ToString(v), '.')[i]) == Components(v)[i]
  {
    RenderingsReadBack(Components(v));
  }

  /** The step behind `ToString`'s read-back: the dotted text, split at the dots. */
  lemma SplitsIntoComponents(v: Version)
    ensures var mm := MajorMinor(v);
            var r := if v.build == -1 then mm
                     else if v.revision == -1 then mm + ("." + Strings.NatToString(v.build))
                     else mm + ("." + Strings.NatToString(v.build)) + ("." + Strings.NatToString(v.revision));
            Strings.Split(r, '.') == Renderings(Components(v))
  {
    if v.build == -1 {
      SplitTwo(v.major, v.minor);
      assert Components(v) == [v.major, v.minor];
    } else if v.revision == -1 {
      SplitThree(v.major, v.minor, v.build);
      assert Components(v) == [v.major, v.minor, v.build];
    } else {
      SplitFour(v.major, v.minor, v.build, v.revision);
      assert Components(v) == [v.major, v.minor, v.build, v.revision];
    }
  }

  lemma SplitTwo(a: nat, b: nat)
    ensures Strings.Split(Strings.NatToString(a) + "." + Strings.NatToString(b), '.') == Renderings([a, b])
  {
    var sa, sb := Strings.NatToString(a), Strings.NatToString(b);
    Strings.DigitsLackDot(sa);
    Strings.DigitsLackDot(sb);
    Strings.SplitTwoPieces(sa, sb, '.');
    assert sa + "." + sb == sa + ['.'] + sb;
    assert Renderings([a, b]) == [sa, sb];
  }

  lemma SplitThree(a: nat, b: nat, c: nat)
    ensures Strings.Split(Strings.NatToString(a) + "." + Strings.NatToString(b) + ("." + Strings.NatToString(c)), '.')
            == Renderings([a, b, c])
  {
    var sa, sb, sc := Strings.NatToString(a), Strings.NatToString(b), Strings.NatToString(c);
    Strings.DigitsLackDot(sa);
    Strings.DigitsLackDot(sb);
    Strings.DigitsLackDot(sc);
    Strings.SplitThreePieces(sa, sb, sc, '.');
    assert sa + "." + sb + ("." + sc) == sa + ['.'] + (sb + ['.'] + sc);
    assert Renderings([a, b, c]) == [sa, sb, sc];
  }

  lemma SplitFour(a: nat, b: nat, c: nat, d: nat)
    ensures Strings.Split(Strings.NatToString(a) + "." + Strings.NatToString(b) + ("." + Strings.NatToString(c))
                          + ("." + Strings.NatToString(d)), '.')
            == Renderings([a, b, c, d])
  {
    var sa, sb, sc, sd := Strings.NatToString(a), Strings.NatToString(b), Strings.NatToString(c), Strings.NatToString(d);
    Strings.DigitsLackDot(sa);
    Strings.DigitsLackDot(sb);
    Strings.DigitsLackDot(sc);
    Strings.DigitsLackDot(sd);
    Strings.SplitDottedFour(sa, sb, sc, sd);
    assert Renderings([a, b, c, d]) == [sa, sb, sc, sd];
  }

  /** A decimal rendering holds no dot. */
  lemma {:induction false} NoDots(s: string)
    requires forall i :: 0 <= i < |s| ==> Strings.IsDigit(s[i])
    ensures Strings.CountChar(s, '.') == 0
    decreases |s|
  {
    if |s| > 0 {
      NoDots(s[1..]);
    }
  }
}

=== FILE: wrappers.dfy ===
/** Failure-compatible result and option types used throughout the model.
    The source reports failures by throwing exceptions; every such throw is
    modelled as an `Err` carrying the exception kind. */
module Wrappers {

  /** An optional value: `None` stands for a C# `null`. */
  datatype Option<+T> = None | Some(value: T)

  /** Either a value or the exception the source would have thrown. */
  datatype Result<+T, +E> = Ok(value: T) | Err(error: E) {

    predicate IsFailure() {
      Err?
    }

    function PropagateFailure<U>(): Result<U, E>
      requires Err?
    {
      Err(error)
    }

    function Extract(): T
      requires Ok?
    {
      value
    }
  }
}

/** The exception kinds the modelled code throws. */
module Errors {

  /** Which localized message a PlatformNotSupportedException carries. */
  datatype Reason = Unspecified | LinuxOnly | WindowsOnly | EndOfLife

  datatype Error =
    | PlatformNotSupported(reason: Reason)
    | InvalidOperation
    | RuntimeIdentifierGeneration
    | ArgumentOutOfRange
    | Argument
    | NullReference
    /** A text that `Version.Parse` or `int.Parse` rejects. */
    | Format
    /** A number too large for `int.Parse` or for a version component. */
    | Overflow
    /** A null argument, such as a null text given to a parser. */
    | ArgumentNull
}
